=== FILE: README.md ===
# Salon back end — a verified Dafny model

This project models the data-handling core of a hair-salon back end. The back end
stores its data in Firestore and mirrors documents to the Contifico accounting
service. The model covers these parts:

- **Birthday normalisation** (`birthday.dfy`): the one-off job that moves every
  user's `birthday` to local midnight. It stages the updates in batched writes of
  at most 500 operations.
- **Batched writes** (`write_batch.dfy`): the "commit when 500 operations are
  staged, then commit the rest" pattern that the birthday job and the Contifico
  sweep share.
- **Contifico sweep** (`contifico_barrido.dfy`): `updateContificoSync`. It marks
  every user as complete, posts the people, categories, services and products
  not yet linked to Contifico, and back-fills the `idContifico` the API returns.
- **Contifico documents** (`contifico_mapping.dfy`, `contifico_documents.dfy`):
  `contificoDocuments`. Each accounting document becomes an order or a
  billed-services record. Its totals are added to the monthly statistics
  buckets (global, store, advisor, client, product and service).
- **Contifico provisioning** (`contifico_provisioning.dfy`):
  `createProductOrService` and `createInventoryMovement`. This covers their
  validations, their payloads and how their `catch` blocks map failures to HTTP
  errors.
- **Spreadsheet ingestion** (`excel.dfy`): `processExcel` and `validateField`.
  The studio service and the standalone `ExcelProcessor` are one model, with a
  `Variant` that selects the three places where they differ.
- **Accounts** (`auth.dfy`): `capitalize`, `singUp`, `changePassword`,
  `resetPassword` and `confirmReset`. The model works over a `UserStore` that
  holds the `users` collection, the Firebase Auth accounts and the shopping
  carts.
- **WhatsApp reminders** (`whatsapp.dfy`): the two-days-before and same-day
  reminder runs. This covers their eligibility windows, their messages, their
  counters and the flags that stop a second reminder.

Shared modules:

- `wrappers.dfy` holds `Option` and `Result`, the `HttpError` an endpoint
  answers with, the HTTP status constants, the default error text and
  `TextOr` (`text || fallback`).
- `text.dfy` holds the JavaScript string operations the core relies on:
  `trim`, `split`, `join`, ASCII case mapping, `startsWith`
  (`StartsWith`), whether a character occurs in a text (`Contains`), the UTF-16 `length` (`Utf16Length`), and
  number rendering with its reading back (`NatToString`, `DigitsValue`).

The outside world enters as parameters. This covers:

- Firestore snapshots, taken as values.
- HTTP and API outcomes, mail and salt failures, and the WhatsApp sender.
- Clocks and date parsers.
- Query bounds, given in minutes.

A loop in the source becomes a `method` with a loop. Each such method is proved
equal to a specification function over the same inputs, and the properties are
proved as lemmas about those functions.

Some behaviours the model proves, as the code is written:

- The sweep's `regCompRRSS` flag is always `true`, because `!rolName == "Cliente"` compares a boolean with a string.
- A service without a category aborts the whole sweep. The full 500-write batches committed before it stay committed; the open batch is lost.
- In one `contificoDocuments` run, every new order gets the same `orderNumber`, one more than the latest order's.
- The global statistics bucket ends at the snapshot's totals plus those of the last document only.
- In `confirmReset`, the 400 for a stale token reaches the caller as a 500.
- `capitalize` throws on an empty word: a leading, trailing or double space.

## Model

| member | source | states |
|---|---|---|
| WriteBatch.Chunks | functions/birthday/index.js:64-80 | the chunks flatten back to the writes; each holds 1 to 500 writes; all but the last hold exactly 500; no writes means no chunk |
| WriteBatch.CommitIfFull | functions/birthday/index.js:65-71 | a batch at 500 operations is committed and restarted empty; a smaller one is left alone; no staged write is lost |
| WriteBatch.FlushedLogIsChunks | functions/birthday/index.js:64-80 | flushing after each write and committing the remainder yields exactly the 500-chunks of the staged writes |
| WriteBatch.FullChunks | functions/birthday/index.js:65-71 | the full 500-write chunks of a prefix of the writes, leaving fewer than 500 behind |
| WriteBatch.FlushingCommitsAreFullChunks | functions/contificoBarrido/index.js:49-55 | the commits made while staging are exactly the full 500-chunks of everything staged |
| Birthday.MidnightFacts | functions/birthday/index.js:47-59 | the midnight date keeps year, month and day and is at midnight; it equals the stored date exactly when that was already at midnight; taking it twice changes nothing |
| Birthday.UpdateFor | functions/birthday/index.js:36-60 | an update is staged iff the birthday is a timestamp or date not at midnight; it sets that user's birthday to its midnight |
| Birthday.UpdateBirthdayToMidnight | functions/birthday/index.js:16-87 | the commits are the 500-chunks of the users' updates in order; the count equals the number of updates committed; no users means no commit |
| Birthday.NormalizeNext | functions/birthday/index.js:36-60 | with distinct user ids, applying user k's update to the users normalised up to k-1 normalises up to k |
| Birthday.ApplyPrefix | functions/birthday/index.js:33-74 | committing the updates of the first k users normalises exactly those k users and leaves the rest as they were |
| Birthday.NormalizedIsSettled | functions/birthday/index.js:59-60 | a user whose birthday has been normalised needs no update |
| Birthday.SecondRunStagesNothing | functions/birthday/index.js:16-87 | running the job on its own result stages and commits nothing (idempotence) |
| Birthday.NothingStaged | functions/birthday/index.js:28-31 | when no user needs an update, nothing is staged |
| ContificoBarrido.OrNull | functions/contificoBarrido/index.js:58-69 | `x \|\| null`: a present non-empty value is kept, anything else is null |
| ContificoBarrido.RegCompAlwaysTrue | functions/contificoBarrido/index.js:35-47 | the `regCompRRSS` flag is true for every user, because a boolean never loosely equals "Cliente" |
| ContificoBarrido.PersonaFor | functions/contificoBarrido/index.js:56-69 | the person payload is always a client and never a supplier; a seller iff the role is Asesor; an employee iff neither Cliente nor Asesor; name, cedula and contact fields copied |
| ContificoBarrido.BackFill | functions/contificoBarrido/index.js:81-90 | at most one merge write; it stores the created id, or the id echoed by a failed call when truthy; no write otherwise |
| ContificoBarrido.Then | functions/contificoBarrido/index.js:13-325 | after an abort nothing more happens; otherwise writes and requests are concatenated |
| ContificoBarrido.ThenAssociative | functions/contificoBarrido/index.js:13-325 | sequencing sweep phases is associative |
| ContificoBarrido.UserStep | functions/contificoBarrido/index.js:35-92 | each user first gets its completion flag; a linked user makes no request; an unlinked one makes one person request and its back-fill |
| ContificoBarrido.CategoryStep | functions/contificoBarrido/index.js:109-148 | a linked category does nothing; an unlinked one posts one category of its type and back-fills it |
| ContificoBarrido.CatalogueStep | functions/contificoBarrido/index.js:206-312 | a service with neither link nor category aborts; products are guarded; an unlinked item posts its product payload and back-fills |
| ContificoBarrido.UsersTrace | functions/contificoBarrido/index.js:33-92 | the users phase never aborts |
| ContificoBarrido.CategoriesTrace | functions/contificoBarrido/index.js:109-198 | the category phases never abort |
| ContificoBarrido.CatalogueAbortsIff | functions/contificoBarrido/index.js:206-312 | a catalogue phase aborts iff some item aborts |
| ContificoBarrido.SyncAbortsIffUnlinkedService | functions/contificoBarrido/index.js:206-255 | the whole sweep aborts exactly when some unlinked service has no category |
| ContificoBarrido.SweepMarksEveryUser | functions/contificoBarrido/index.js:35-47 | every user's `regCompRRSS: true` write is among the sweep's writes |
| ContificoBarrido.EveryUserMarkedComplete | functions/contificoBarrido/index.js:33-92 | the users phase writes the completion flag for each user |
| ContificoBarrido.Check | functions/contificoBarrido/index.js:49-55 | `checkBatch` commits a full batch; commits stay full; no staged write is lost |
| ContificoBarrido.StageBackFill | functions/contificoBarrido/index.js:81-90 | stages exactly the back-fill write, if any |
| ContificoBarrido.SweepUsers | functions/contificoBarrido/index.js:33-92 | the users loop follows the users trace |
| ContificoBarrido.SweepUser | functions/contificoBarrido/index.js:35-92 | one user iteration follows its step |
| ContificoBarrido.SendPersona | functions/contificoBarrido/index.js:56-100 | an unlinked user sends one person request and stages its back-fill, then the batch is checked; a linked user sends nothing; no staged write is lost |
| ContificoBarrido.SweepCategories | functions/contificoBarrido/index.js:109-198 | the categories loop follows the categories trace |
| ContificoBarrido.SweepCategory | functions/contificoBarrido/index.js:109-148 | one category iteration follows its step |
| ContificoBarrido.SweepItem | functions/contificoBarrido/index.js:206-312 | one service or product iteration that does not abort follows its step |
| ContificoBarrido.SweepCatalogue | functions/contificoBarrido/index.js:206-312 | the services or products loop follows its trace and reports the abort |
| ContificoBarrido.PrefixAborts | functions/contificoBarrido/index.js:217 | once a prefix aborts, the later items change nothing |
| ContificoBarrido.UpdateContificoSync | functions/contificoBarrido/index.js:13-325 | the requests are those of the sweep; without an abort the commits are the 500-chunks of its writes and the result counts them; an abort commits only the full batches already staged and returns the error |
| ContificoMapping.ConvertToDateReorders | functions/studio-spa/src/contifico/contifico.service.ts:14-17 | `DD/MM/YYYY` becomes `YYYY-MM-DD` |
| ContificoMapping.ConvertToDateWithoutSlashes | functions/studio-spa/src/contifico/contifico.service.ts:14-17 | text without '/' keeps itself as the day, with undefined month and year |
| ContificoMapping.EstadoCode | functions/studio-spa/src/contifico/contifico.service.ts:77-88 | each status except Completado has its own code |
| ContificoMapping.StatusCodesRoundTrip | functions/studio-spa/src/contifico/contifico.service.ts:77-88 | the status and the code map round-trip; Completado iff the estado is none of P, C, G, A, E |
| ContificoMapping.FormaCobroCode | functions/studio-spa/src/contifico/contifico.service.ts:92-107 | each payment method except in-store has its own code |
| ContificoMapping.PaymentCodesRoundTrip | functions/studio-spa/src/contifico/contifico.service.ts:92-107 | the payment method and the code map round-trip; in-store iff neither TC nor TRA |
| ContificoMapping.StoreCodeIsPrefix | functions/studio-spa/src/contifico/contifico.service.ts:152-153 | the store code is the text before the first '-', or the whole number |
| ContificoMapping.StoreCodeOfNumber | functions/studio-spa/src/contifico/contifico.service.ts:152-153 | `store-rest` yields `store` |
| ContificoMapping.OrderDataFor | functions/studio-spa/src/contifico/contifico.service.ts:72-109 | id, status, tax and ride URL come from the document; the payment fields are set iff there is a payment, from the first payment |
| ContificoMapping.OnlyFirstCobroCounts | functions/studio-spa/src/contifico/contifico.service.ts:92-107 | payments after the first never change the order data |
| ContificoDocuments.FirstFinds | functions/studio-spa/src/contifico/contifico.service.ts:111-130 | a `limit(1)` query returns a matching document of the collection, and nothing only when none matches |
| ContificoDocuments.Resolve | functions/studio-spa/src/contifico/contifico.service.ts:111-302 | no key means no bucket; a found bucket is reused with its counters; a missing one is created fresh with zero counters |
| ContificoDocuments.DimensionsOf | functions/studio-spa/src/contifico/contifico.service.ts:111-302 | every document has a global bucket |
| ContificoDocuments.DetailStep | functions/studio-spa/src/contifico/contifico.service.ts:304-443 | a detail matching a product becomes a product line and bucket write; else a service line; else nothing |
| ContificoDocuments.DetailsRunTotals | functions/studio-spa/src/contifico/contifico.service.ts:304-443 | the accumulated totals equal the sums over the product and service lists |
| ContificoDocuments.DetailStepKeepsTotals | functions/studio-spa/src/contifico/contifico.service.ts:314-442 | one detail keeps the accumulators equal to the sums |
| ContificoDocuments.UnmatchedDetailIsDropped | functions/studio-spa/src/contifico/contifico.service.ts:372 | a detail matching neither product nor service changes nothing |
| ContificoDocuments.DimensionWritesShape | functions/studio-spa/src/contifico/contifico.service.ts:445-518 | one update per resolved bucket, the global one first; each resolved store, advisor and client bucket gets its counters plus the document's totals |
| ContificoDocuments.NextOrderNumber | functions/studio-spa/src/contifico/contifico.service.ts:586-587 | one past the latest order's number, or 1 |
| ContificoDocuments.OrderWrites | functions/studio-spa/src/contifico/contifico.service.ts:550-598 | a linked order is updated with the projection; otherwise an order is created iff there are product lines |
| ContificoDocuments.BilledWrites | functions/studio-spa/src/contifico/contifico.service.ts:599-623 | a linked billed record is updated; otherwise one is created iff there are service lines |
| ContificoDocuments.RouteDetail | functions/studio-spa/src/contifico/contifico.service.ts:304-443 | one detail iteration equals its step |
| ContificoDocuments.ProcessDetails | functions/studio-spa/src/contifico/contifico.service.ts:304-443 | the details loop equals the details run |
| ContificoDocuments.ProcessDocument | functions/studio-spa/src/contifico/contifico.service.ts:111-623 | a document's iteration stages exactly its writes |
| ContificoDocuments.ProcessDocuments | functions/studio-spa/src/contifico/contifico.service.ts:22-626 | the documents loop stages the run's writes in order |
| ContificoDocuments.ContificoDocumentsRun | functions/studio-spa/src/contifico/contifico.service.ts:22-634 | a fetch failure commits nothing and returns a 500; otherwise the batch is the run's writes, committed unless the commit fails |
| ContificoDocuments.ApplyWrite | functions/studio-spa/src/contifico/contifico.service.ts:445-518 | a write leaves the counters of any other bucket unchanged |
| ContificoDocuments.StoredAppend | functions/studio-spa/src/contifico/contifico.service.ts:626 | committing two write lists in order composes |
| ContificoDocuments.StoredUntouched | functions/studio-spa/src/contifico/contifico.service.ts:626 | writes that do not touch a bucket leave it unchanged |
| ContificoDocuments.ProductBucketAfterCommit | functions/studio-spa/src/contifico/contifico.service.ts:314-373 | a product bucket ends at the snapshot plus the line, or at the line alone when new |
| ContificoDocuments.ServiceBucketAfterCommit | functions/studio-spa/src/contifico/contifico.service.ts:375-442 | a service bucket ends at the snapshot plus the line, or at the line alone when new |
| ContificoDocuments.FindBucketFinds | functions/studio-spa/src/contifico/contifico.service.ts:111-130 | the bucket query finds a matching bucket, and none only when none matches |
| ContificoDocuments.KeyedBucketOffGlobal | functions/studio-spa/src/contifico/contifico.service.ts:155-302 | a keyed bucket found is not a global bucket |
| ContificoDocuments.OffGlobalIsNotGlobal | functions/studio-spa/src/contifico/contifico.service.ts:111-150 | a reference away from the global bucket differs from it |
| ContificoDocuments.LineWritesOffGlobal | functions/studio-spa/src/contifico/contifico.service.ts:304-443 | line writes never touch the global bucket |
| ContificoDocuments.ResolveCreatesFresh | functions/studio-spa/src/contifico/contifico.service.ts:111-302 | a resolution creates only new documents |
| ContificoDocuments.KeyedResolutionApart | functions/studio-spa/src/contifico/contifico.service.ts:155-302 | store, advisor and client resolutions never land on the global bucket |
| ContificoDocuments.DocumentDimensionsApart | functions/studio-spa/src/contifico/contifico.service.ts:111-302 | a document's keyed resolutions stay apart from the global bucket |
| ContificoDocuments.CreatesAndLinesOffGlobal | functions/studio-spa/src/contifico/contifico.service.ts:111-443 | bucket creates and line writes leave the global bucket alone |
| ContificoDocuments.DimensionWritesSetGlobal | functions/studio-spa/src/contifico/contifico.service.ts:445-459 | the dimension updates set the global bucket to its snapshot counters plus the document's totals |
| ContificoDocuments.StoredThroughGroups | functions/studio-spa/src/contifico/contifico.service.ts:626 | only the middle group of writes changes a bucket the others leave alone |
| ContificoDocuments.StagedSetsGlobal | functions/studio-spa/src/contifico/contifico.service.ts:111-626 | a document's staged writes set the global bucket to snapshot plus its totals |
| ContificoDocuments.DocumentOverwritesGlobal | functions/studio-spa/src/contifico/contifico.service.ts:111-150 | each document overwrites the global bucket with snapshot plus its own totals, whatever it held before |
| ContificoDocuments.LastUpdateWins | functions/studio-spa/src/contifico/contifico.service.ts:22-626 | after the commit, the global bucket holds the snapshot plus only the last document's totals |
| ContificoDocuments.RunWritesHoldDocument | functions/studio-spa/src/contifico/contifico.service.ts:22-626 | every write a document stages is in the run's batch |
| ContificoDocuments.GlobalBucketCreatedPerDocument | functions/studio-spa/src/contifico/contifico.service.ts:128-146 | without a global bucket, every document creates its own |
| ContificoDocuments.OrderCreatesFromUpsert | functions/studio-spa/src/contifico/contifico.service.ts:561-598 | a document's only order create is its own upsert's |
| ContificoDocuments.DocumentOrderNumber | functions/studio-spa/src/contifico/contifico.service.ts:586-587 | a document's created order is numbered one past the snapshot's latest |
| ContificoDocuments.NewOrdersShareNumber | functions/studio-spa/src/contifico/contifico.service.ts:586-587 | every order created in a run has the same number |
| ContificoDocuments.TwoNewOrdersCollide | functions/studio-spa/src/contifico/contifico.service.ts:561-596 | two documents that both create orders create two orders with one number |
| ContificoDocuments.OrderAndBilledTogether | functions/studio-spa/src/contifico/contifico.service.ts:520-623 | a document with products and services creates both an order and a billed record |
| ContificoDocuments.ExistingOrderOnlyProjected | functions/studio-spa/src/contifico/contifico.service.ts:550-560 | a linked order is only updated, never created again |
| Wrappers.TextOr | functions/studio-spa/src/contifico/contifico.service.ts:763-768 | `text \|\| fallback`: a non-empty text is kept, an empty one is replaced by the fallback |
| ContificoProvisioning.CaughtByProductOrService | functions/studio-spa/src/contifico/contifico.service.ts:763-768 | every failure becomes a 500 carrying its message |
| ContificoProvisioning.CaughtByInventoryMovement | functions/studio-spa/src/contifico/contifico.service.ts:866-877 | an API response keeps its status and `mensaje`; anything else is handled as in product creation |
| ContificoProvisioning.RaisedBadRequestBecomes500 | functions/studio-spa/src/contifico/contifico.service.ts:788-805 | a 400 raised inside either `try` reaches the caller as a 500 with the same message |
| ContificoProvisioning.DetailError | functions/studio-spa/src/contifico/contifico.service.ts:788-805 | a detail is refused iff it lacks a positive price |
| ContificoProvisioning.IngresoError | functions/studio-spa/src/contifico/contifico.service.ts:788-805 | a refusal always carries a message |
| ContificoProvisioning.IngresoErrorIffInvalid | functions/studio-spa/src/contifico/contifico.service.ts:788-805 | an ING movement passes iff every detail has a positive price |
| ContificoProvisioning.IngresoErrorIsFirstInvalid | functions/studio-spa/src/contifico/contifico.service.ts:788-805 | the refusal is that of the first invalid detail |
| ContificoProvisioning.CheckIngreso | functions/studio-spa/src/contifico/contifico.service.ts:788-805 | the validation loop returns the first detail's error |
| ContificoProvisioning.BodegaId | functions/studio-spa/src/contifico/contifico.service.ts:806-820 | the warehouse is the first listed one, when its id is truthy |
| ContificoProvisioning.MovementLines | functions/studio-spa/src/contifico/contifico.service.ts:829-843 | one movement line per detail, carrying its product, quantity and price |
| ContificoProvisioning.Movement | functions/studio-spa/src/contifico/contifico.service.ts:778-878 | a local error posts nothing; a payload is sent iff the checks pass and a warehouse is found; the payload carries the given type, one line per detail, the first listed warehouse, the day's date and the description or "Movimiento de inventario" when it is empty; success iff the post answers 201 |
| ContificoProvisioning.MovementErrorStatus | functions/studio-spa/src/contifico/contifico.service.ts:859-877 | a failed bodega or post call goes to the catch as it is, so an answered error keeps Contifico's status and `mensaje`; a missing bodega and a non-201 answer are 500s with their texts; every error Contifico did not answer is a 500 |
| ContificoProvisioning.CreateInventoryMovement | functions/studio-spa/src/contifico/contifico.service.ts:778-878 | the method's payload and result are the movement's |
| ContificoProvisioning.ProductOrServiceError | functions/studio-spa/src/contifico/contifico.service.ts:674-718 | the checks pass iff the data is acceptable |
| ContificoProvisioning.ProductChecksInOrder | functions/studio-spa/src/contifico/contifico.service.ts:674-718 | the seven guards, each judged on the data alone, in the source's order (price, type present, category, type value, SKU and purchase price for a product, name): the message is that of the first guard that throws, none when all pass; a service is never asked for a SKU or a purchase price |
| ContificoProvisioning.ProductErrorIsFirstThrown | functions/studio-spa/src/contifico/contifico.service.ts:674-718 | the nested checks report exactly what the first throwing guard of the list reports |
| ContificoProvisioning.FirstThrownIsFirst | functions/studio-spa/src/contifico/contifico.service.ts:674-718 | a list of guards reports the first one that throws, nothing when none does |
| ContificoProvisioning.ProductPayloadFor | functions/studio-spa/src/contifico/contifico.service.ts:720-737 | the payload has minimum 1, the price as pvp1, the estado A or I, and the description or "" |
| ContificoProvisioning.CreateProductOrService | functions/studio-spa/src/contifico/contifico.service.ts:672-769 | rejected data posts nothing; then the call's error, a non-201 status, success without stock, or success with an ING movement of the stock; a posted movement is an ING of the new id's stock, dated the day and described "Ingreso de Inventario" |
| ContificoProvisioning.ServiceStockWithoutPurchasePrice | functions/studio-spa/src/contifico/contifico.service.ts:746-762 | a service with stock but no purchase price has its stock movement refused |
| ContificoProvisioning.ProductStockMovementIsPriced | functions/studio-spa/src/contifico/contifico.service.ts:746-762 | an accepted product's stock movement always passes the price check |
| Excel.Normalize | functions/studio-spa/src/excel/excel.service.ts:79-87 | missing cells and blank text become null; everything else is kept |
| Excel.ValidateFieldEmptyAndLength | functions/studio-spa/src/excel/excel.service.ts:216-237 | an empty value fails iff required; a non-empty text fails iff its UTF-16 length, as JavaScript counts it, exceeds a truthy maximum |
| Excel.AstralTextCountsDouble | functions/studio-spa/src/excel/excel.service.ts:234 | a text of characters outside the Basic Multilingual Plane is refused once twice its character count exceeds the limit |
| Excel.BooleanRuleAccepts | functions/studio-spa/src/excel/excel.service.ts:267-273 | the boolean rule accepts exactly true, false, 1 and 0, in any case and with surrounding space |
| Excel.NumberChecksInOrder | functions/studio-spa/src/excel/excel.service.ts:238-253 | NaN first, then min, max and integer, each with its own message; passes iff a number within bounds and integral when required |
| Excel.FormatValidatedValue | functions/excel/index.js:274-283 | only a number or a text under a date rule is converted to a date |
| Excel.Validated | functions/studio-spa/src/excel/excel.service.ts:99-116 | a ruled column errs iff validation fails; the service stores the raw value, the processor the formatted one |
| Excel.CedulaOnlyFromItsColumn | functions/studio-spa/src/excel/excel.service.ts:89-94 | with no cedula column holding a non-empty cell the cedula stays unset; an empty cedula cell always records its error |
| Excel.CedulaFromLastFilledColumn | functions/studio-spa/src/excel/excel.service.ts:89-94 | the last cedula column whose cell is non-empty decides the cedula: its text, trimmed |
| Excel.ColumnStepFacts | functions/studio-spa/src/excel/excel.service.ts:77-118 | a column never removes errors; only the cedula column sets the cedula, and an empty one adds the missing-cedula error; a column adds at most its own key, with the normalised cell in the service |
| Excel.ColumnKeys | functions/studio-spa/src/excel/excel.service.ts:77-118 | the record's keys are row headers that are neither cedula nor name columns; the service stores the raw cells |
| Excel.CheckedReachesStore | functions/studio-spa/src/excel/excel.service.ts:120-179 | a row with errors or without a cedula fails with no lookup and no insert; a record is added iff the row succeeds, with its columns and the user found for its cedula |
| Excel.RowStep | functions/studio-spa/src/excel/excel.service.ts:56-180 | data row i reports sheet row i + 2 |
| Excel.BlankRowSkipped | functions/studio-spa/src/excel/excel.service.ts:63-75 | an all-empty row is skipped whatever the headers and store say |
| Excel.ReadColumn | functions/studio-spa/src/excel/excel.service.ts:77-118 | one callback run equals its column step |
| Excel.ReadRuledColumn | functions/studio-spa/src/excel/excel.service.ts:99-113 | a column with a rule records its validation error, or else stores the value under its header, exactly as the column step does |
| Excel.ReadColumns | functions/studio-spa/src/excel/excel.service.ts:77-118 | the callback loop equals the columns read |
| Excel.ProcessRow | functions/studio-spa/src/excel/excel.service.ts:56-180 | one row iteration equals its step |
| Excel.RowsRun | functions/studio-spa/src/excel/excel.service.ts:56-180 | one result per data row |
| Excel.RowsRunResults | functions/studio-spa/src/excel/excel.service.ts:56-180 | each data row's result is its own, at sheet row i + 2 |
| Excel.StatusesPartition | functions/studio-spa/src/excel/excel.service.ts:182-193 | successes, failures and skips partition the results; failures iff some row failed |
| Excel.ProcessExcel | functions/studio-spa/src/excel/excel.service.ts:31-209 | no third sheet or an empty sheet throws with no rows processed; otherwise every data row has its result, the run throws iff some row failed, and the thrown report carries the counts and results |
| Text.TrimStartShape | functions/studio-spa/src/excel/excel.service.ts:66 | trimming the start removes only leading white space |
| Text.TrimEndShape | functions/studio-spa/src/excel/excel.service.ts:66 | trimming the end removes only trailing white space |
| Text.TrimEmptyIffBlank | functions/studio-spa/src/excel/excel.service.ts:66 | `trim() === ''` holds exactly for blank text |
| Text.UpperCharFacts | functions/studio-spa/src/auth/auth.service.ts:39 | upper-casing is idempotent and never creates or removes a space |
| Text.ToLower | functions/studio-spa/src/excel/excel.service.ts:268 | lower-casing maps each character and keeps the length |
| Text.Split | functions/studio-spa/src/auth/auth.service.ts:38 | a split has at least one piece |
| Text.SplitPiecesAvoidSep | functions/studio-spa/src/auth/auth.service.ts:38 | no piece contains the separator |
| Text.JoinSplit | functions/studio-spa/src/auth/auth.service.ts:38-40 | joining a split gives back the string |
| Text.SplitJoin | functions/studio-spa/src/auth/auth.service.ts:38-40 | splitting a join of separator-free pieces gives back the pieces |
| Text.SplitHead | functions/studio-spa/src/contifico/contifico.service.ts:152-153 | the first piece is the text before the first separator |
| Text.NatToString | functions/studio-spa/src/excel/excel.service.ts:195-208 | a non-empty string of decimal digits |
| Text.NatToStringRoundTrip | functions/studio-spa/src/excel/excel.service.ts:195-208 | reading the digits back gives the number; only zero has a leading zero |
| Text.Utf16LengthFacts | functions/excel/index.js:228 | the UTF-16 length adds up over concatenation; it equals the character count for plane-0 text and twice it for text outside that plane |
| Auth.CapitalizeChars | functions/studio-spa/src/auth/auth.service.ts:36-40 | the character-wise reference keeps the length |
| Auth.CapitalizeIsCharwise | functions/studio-spa/src/auth/auth.service.ts:36-40 | capitalize throws iff some word is empty; otherwise it upper-cases the first letter and each letter after a space |
| Auth.CapitalizeKeepsWords | functions/studio-spa/src/auth/auth.service.ts:36-40 | the words of the result are the capitalized words of the input |
| Auth.CapitalizeIdempotent | functions/studio-spa/src/auth/auth.service.ts:36-40 | capitalizing twice equals capitalizing once |
| Auth.CapitalizeThrowsOnLeadingSpace | functions/studio-spa/src/auth/auth.service.ts:36-40 | an empty role, or one starting with a space, throws |
| Auth.PasswordChangeStatus | functions/studio-spa/src/auth/auth.service.ts:164-194 | the prefixes are exclusive; the status is the matching prefix's, else 500; the text ends with the message |
| Auth.PasswordChangeUnknownError | functions/studio-spa/src/auth/auth.service.ts:162 | an empty message becomes the unknown-error message with status 500 |
| Auth.ChangePassword | functions/studio-spa/src/auth/auth.service.ts:149-196 | succeeds iff the update succeeds |
| Auth.ResetPasswordCatch | functions/studio-spa/src/auth/auth.service.ts:234-242 | 404 iff the user is not found, else 500 |
| Auth.ConfirmResetCatch | functions/studio-spa/src/auth/auth.service.ts:288-301 | a raised error becomes a 500; a 400 iff a token error |
| Auth.ProfileFor | functions/studio-spa/src/auth/auth.service.ts:101-116 | the profile defaults the photo to "", starts at first login, references the role and carries its capitalized name |
| Auth.StoreToken | functions/studio-spa/src/auth/auth.service.ts:210-213 | the token is set for that user only, and a missing document is created |
| Auth.ClearToken | functions/studio-spa/src/auth/auth.service.ts:268-271 | the token is cleared for that user only |
| Auth.UserStore.SignUp | functions/studio-spa/src/auth/auth.service.ts:59-147 | a salt failure, an email already in `users` or already an account fails with nothing changed; otherwise the account is created first; a role that is not a document path under `roles`, then a role that capitalize rejects, fails before the profile is written; a mail failure leaves no cart; success adds a cart iff the cargo is cliente; every failure is a 500 with its message |
| Auth.PlainRoleIsADocument | functions/studio-spa/src/auth/auth.service.ts:99 | a role name without `/` is a valid document of `roles` iff it is non-empty |
| Auth.TwoSegmentRoleIsRefused | functions/studio-spa/src/auth/auth.service.ts:99 | a role `a/b` names a collection, not a document, and is refused |
| Auth.UserStore.ResetPassword | functions/studio-spa/src/auth/auth.service.ts:198-243 | an unknown email is a 404 with nothing changed; otherwise the token is merged into that user's document before the mail, and a mail failure is a 500 |
| Auth.UserStore.ConfirmReset | functions/studio-spa/src/auth/auth.service.ts:245-302 | a bad signature is a 400 and an unknown email a 404; a stale token or a salt failure is a 500 with nothing changed; otherwise the password becomes the new salt and the token is cleared; success means the token matched and no longer does |
| Whatsapp.StartOfDay | functions/studio-spa/src/whatsapp/whatsapp.service.ts:164-167 | the first minute of the day |
| Whatsapp.EndOfDay | functions/studio-spa/src/whatsapp/whatsapp.service.ts:112-113 | the last minute of the day |
| Whatsapp.DayRange | functions/studio-spa/src/whatsapp/whatsapp.service.ts:164-171 | a time lies between the start and end of its day |
| Whatsapp.PresentOr | functions/studio-spa/src/whatsapp/whatsapp.service.ts:179 | a present, non-empty value is kept; a missing or empty one is replaced by the default |
| Whatsapp.WithFlag | functions/studio-spa/src/whatsapp/whatsapp.service.ts:182 | sets only the reminder's own flag |
| Whatsapp.Snapshot | functions/studio-spa/src/whatsapp/whatsapp.service.ts:137-140 | a booking is returned iff it lies in the date window and its flag field is present and not true (Firestore's `!=` skips a missing field) |
| Whatsapp.TwoDayEligibleByDay | functions/studio-spa/src/whatsapp/whatsapp.service.ts:164-173 | eligible iff the booking's day is today, tomorrow or the day after, and its flag is not set |
| Whatsapp.SameDayEligibleByWindow | functions/studio-spa/src/whatsapp/whatsapp.service.ts:278 | eligible iff the booking lies between the start and the end of today, and its flag is not set |
| Whatsapp.When | functions/studio-spa/src/whatsapp/whatsapp.service.ts:280-286 | a same-day reminder without a start time uses the default time |
| Whatsapp.Message | functions/studio-spa/src/whatsapp/whatsapp.service.ts:179 | each slot separately: a present, non-empty client name or service name is used as is, a missing or empty one is replaced by its default |
| Whatsapp.Step | functions/studio-spa/src/whatsapp/whatsapp.service.ts:151-198 | incomplete or ineligible bookings leave the tally unchanged |
| Whatsapp.Attempted | functions/studio-spa/src/whatsapp/whatsapp.service.ts:157-173 | every attempted booking is complete and eligible; there are no more attempts than bookings |
| Whatsapp.RunAttempts | functions/studio-spa/src/whatsapp/whatsapp.service.ts:151-198 | the run sends one message per complete, eligible booking, in order |
| Whatsapp.RunFlags | functions/studio-spa/src/whatsapp/whatsapp.service.ts:180-192 | the flagged bookings are exactly those whose message was delivered; successes count the flags; successes plus failures equal the attempts |
| Whatsapp.AlwaysDeliveredNeverFails | functions/studio-spa/src/whatsapp/whatsapp.service.ts:49-93 | with a sender that always succeeds, as the placeholder does, no notification fails |
| Whatsapp.Notify | functions/studio-spa/src/whatsapp/whatsapp.service.ts:137-200 | the loop equals the run over the snapshot; an empty snapshot gives the empty tally |
| Whatsapp.NotifyBooking | functions/studio-spa/src/whatsapp/whatsapp.service.ts:151-198 | one iteration equals its step |
| Whatsapp.FlaggedNotNotifiedAgain | functions/studio-spa/src/whatsapp/whatsapp.service.ts:137-140 | once a run's flags are applied, a flagged booking is neither queried nor eligible again; unflagged bookings are unchanged |
| Whatsapp.MissingFlagNeverQueried | functions/studio-spa/src/whatsapp/whatsapp.service.ts:137-140 | a booking without the flag field is never queried |
| Whatsapp.CheckAndNotifyTwoDaysBefore | functions/studio-spa/src/whatsapp/whatsapp.service.ts:100-210 | the two-day run over its window |
| Whatsapp.CheckAndNotifySameDay | functions/studio-spa/src/whatsapp/whatsapp.service.ts:217-319 | the same-day run over its window |

## Left out

- Dates and time zones: times are whole minutes, and the query bounds come in as inputs. The source computes them with `Date` and a double time-zone conversion, which the model does not recompute.
- Floating point: money and quantities are `real`, with no NaN, no rounding and no `toFixed`.
- The `categoria_id` of catalogue posts in the sweep reads the live store, which sees earlier commits. It is left out of the request payload.
- The two V8 `TypeError` texts the code can raise are reproduced as constants: the sweep's abort and `capitalize`'s failure. No other engine message is modelled.
- The texts of the Firestore client's path errors are a parameter of the sign-up, since that library is not part of this model.
- `contificoDocuments` takes every document's seller and client as present and reads their `cedula`. In the source a missing `vendedor` or `cliente` throws a `TypeError` at the lookup and aborts the run. That abort path is not modelled.
- `contificoDocuments` reads `lastOrderNumber` from an `orderBy`/`limit` query. It is an input of the snapshot.
- The failure of a batch commit is an oracle parameter of `contificoDocuments` only. Firestore's own limit on the writes of one batch is not modelled.
- Birthday.UpdateBirthdayToMidnight: a failing batch commit is not modelled. In the source it rethrows a wrapped error, and the batches committed before it stay committed.
- ContificoBarrido.UpdateContificoSync: a failing batch commit is not modelled. In the source it rethrows a wrapped error, and the batches committed before it stay committed.
- Case mapping is ASCII only. Full Unicode `toUpperCase` can lengthen a string.
- `Number(...)` parsing is modelled for the plain-digit subset in the sweep. In the spreadsheet code the number and date parsers are parameters.
- `createdAt` and `created_time` clock values are not stored in the modelled records.
- The `JSON.stringify` form of a processor error is not modelled. A hole in the header row is modelled as an undefined header, which `forEach` skips.
- Mail sending, bcrypt salts and JWT signing and verification are inputs (failure flags, salts, a validity flag).
- Firebase Auth `createUser` fails only by the email-taken rule in the model. Its other failures are not modelled.
- Auth.UserStore.SignUp: the read of the role document (`get()`) does not fail in the model; only the path check before it does. The path rule is written out as empty, containing `//`, or an even number of non-empty segments.
- The flag writes of `Promise.allSettled` in the WhatsApp runs are treated as applied.
- `sendWhatsAppMessage` is a placeholder in the source. The model takes delivery as an oracle.
- Logging, controllers, module bootstrap and the cron schedules are not part of this model.
- Whatsapp.CheckAndNotifyTwoDaysBefore: states the run over given query bounds, not the bound computation from the clock.
- Whatsapp.CheckAndNotifySameDay: states the run over given query bounds, not the bound computation from the clock.


=== FILE: auth.dfy ===
/**
 * The authentication service: `capitalize`, the error classification of
 * `changePassword`, the user record `singUp` writes, and the reset-token
 * state that `resetPassword` sets and `confirmReset` checks and clears. The
 * `users` collection and the Firebase Auth accounts are the fields of a
 * store object; salts, signed tokens, token verification and mail delivery
 * are inputs.
 */
module Auth {
  import opened Wrappers
  import opened Text

  // ---------------------------------------------------------------------------
  // capitalize
  // ---------------------------------------------------------------------------

  /** `[first.toUpperCase(), ...rest].join('')` for a non-empty word. */
  function CapitalizeWord(w: string): string
    requires w != []
  {
    [UpperChar(w[0])] + w[1..]
  }

  /** No piece of `s.split(' ')` is empty: no leading, trailing or doubled space, and `s` is not empty. */
  predicate NoEmptyWord(s: string) {
    forall i :: 0 <= i < |Split(s, ' ')| ==> Split(s, ' ')[i] != []
  }

  function CapitalizeWords(words: seq<string>): (r: seq<string>)
    requires forall i :: 0 <= i < |words| ==> words[i] != []
  {
    seq(|words|, i requires 0 <= i < |words| => CapitalizeWord(words[i]))
  }

  /**
   * `capitalize`: absent when destructuring an empty word makes
   * `first.toUpperCase()` throw.
   */
  function Capitalize(s: string): Option<string> {
    var words := Split(s, ' ');
    if NoEmptyWord(s) then Some(Join(CapitalizeWords(words), ' ')) else None
  }

  /** The reference definition: every character at the start of the text or after a space is upper-cased. */
  function CapitalizeChars(s: string): (r: string)
    ensures |r| == |s|
  {
    seq(|s|, i requires 0 <= i < |s| => if i == 0 || s[i - 1] == ' ' then UpperChar(s[i]) else s[i])
  }

  /** Capitalising a word, a space and a tail character by character. */
  lemma CapitalizeCharsAfterWord(w: string, t: string)
    requires w != [] && !Contains(w, ' ')
    ensures CapitalizeChars(w + [' '] + t) == CapitalizeWord(w) + [' '] + CapitalizeChars(t)
    ensures CapitalizeChars(w) == CapitalizeWord(w)
  {
    var s := w + [' '] + t;
    var lhs, rhs := CapitalizeChars(s), CapitalizeWord(w) + [' '] + CapitalizeChars(t);
    forall i | 0 <= i < |s| ensures lhs[i] == rhs[i] {
      if 0 < i < |w| {
        assert s[i - 1] == w[i - 1];
      } else if i > |w| + 1 {
        assert s[i - 1] == t[i - |w| - 2];
      }
    }
    assert CapitalizeChars(w) == CapitalizeWord(w) by {
      forall i | 0 < i < |w| ensures CapitalizeChars(w)[i] == w[i] {
        assert w[i - 1] != ' ';
      }
    }
  }

  /** Joining capitalised words is capitalising the joined words. */
  lemma {:induction false} JoinCapitalized(words: seq<string>)
    requires |words| >= 1
    requires forall i :: 0 <= i < |words| ==> words[i] != [] && !Contains(words[i], ' ')
    ensures Join(CapitalizeWords(words), ' ') == CapitalizeChars(Join(words, ' '))
  {
    CapitalizeCharsAfterWord(words[0], []);
    if |words| > 1 {
      JoinCapitalized(words[1..]);
      assert CapitalizeWords(words)[1..] == CapitalizeWords(words[1..]);
      CapitalizeCharsAfterWord(words[0], Join(words[1..], ' '));
    }
  }

  /**
   * `capitalize` throws exactly on an empty word; otherwise it upper-cases
   * the first character of every word and leaves every other character, so
   * the length is kept.
   */
  lemma CapitalizeIsCharwise(s: string)
    ensures Capitalize(s).None? <==> !NoEmptyWord(s)
    ensures NoEmptyWord(s) ==> Capitalize(s) == Some(CapitalizeChars(s)) && |Capitalize(s).value| == |s|
  {
    if NoEmptyWord(s) {
      SplitPiecesAvoidSep(s, ' ');
      JoinCapitalized(Split(s, ' '));
      JoinSplit(s, ' ');
    }
  }

  /** A capitalised word has no space and is not empty. */
  lemma CapitalizedWordsAvoidSpace(words: seq<string>)
    requires forall i :: 0 <= i < |words| ==> words[i] != [] && !Contains(words[i], ' ')
    ensures forall i :: 0 <= i < |words| ==>
      CapitalizeWords(words)[i] != [] && !Contains(CapitalizeWords(words)[i], ' ')
  {
    forall i, k | 0 <= i < |words| && 0 <= k < |CapitalizeWords(words)[i]|
      ensures CapitalizeWords(words)[i][k] != ' '
    {
      UpperCharFacts(words[i][0]);
      if k > 0 { assert CapitalizeWords(words)[i][k] == words[i][k]; }
    }
  }

  /** The words of the result are the capitalised words of the input: the word count is kept. */
  lemma CapitalizeKeepsWords(s: string)
    requires NoEmptyWord(s)
    ensures Split(Capitalize(s).value, ' ') == CapitalizeWords(Split(s, ' '))
  {
    var words := Split(s, ' ');
    SplitPiecesAvoidSep(s, ' ');
    CapitalizedWordsAvoidSpace(words);
    SplitJoin(CapitalizeWords(words), ' ');
  }

  /** Capitalising twice is capitalising once. */
  lemma CapitalizeIdempotent(s: string)
    requires Capitalize(s).Some?
    ensures Capitalize(Capitalize(s).value) == Capitalize(s)
  {
    var words := Split(s, ' ');
    var caps := CapitalizeWords(words);
    SplitPiecesAvoidSep(s, ' ');
    CapitalizeKeepsWords(s);
    CapitalizedWordsAvoidSpace(words);
    forall i | 0 <= i < |caps| ensures CapitalizeWord(caps[i]) == caps[i] {
      UpperCharFacts(words[i][0]);
    }
    assert CapitalizeWords(caps) == caps;
  }

  /** An empty role name, or one that starts with a space, makes `capitalize` throw. */
  lemma CapitalizeThrowsOnLeadingSpace(s: string)
    requires s == [] || s[0] == ' '
    ensures Capitalize(s).None?
  {
    assert Split(s, ' ')[0] == [];
  }

  // ---------------------------------------------------------------------------
  // changePassword
  // ---------------------------------------------------------------------------

  const UNKNOWN_ERROR_MESSAGE := "Ocurrió un error desconocido"

  /** The exception `changePassword` throws for the message of a failed `updateUser`. */
  function PasswordChangeError(message: string): (e: HttpError) {
    var errorMessage := if message != "" then message else UNKNOWN_ERROR_MESSAGE;
    if StartsWith(errorMessage, "BAD REQUEST") then HttpError(BAD_REQUEST, "Solicitud incorrecta: " + errorMessage)
    else if StartsWith(errorMessage, "UNAUTHORIZED") then HttpError(UNAUTHORIZED, "Error de autorización: " + errorMessage)
    else if StartsWith(errorMessage, "FORBIDDEN") then HttpError(FORBIDDEN, "Prohibido: " + errorMessage)
    else if StartsWith(errorMessage, "NOT FOUND") then HttpError(NOT_FOUND, "Recurso no encontrado: " + errorMessage)
    else if StartsWith(errorMessage, "CONFLICT") then HttpError(CONFLICT, "Conflicto: " + errorMessage)
    else HttpError(INTERNAL_SERVER_ERROR, "Error interno del servidor: " + errorMessage)
  }

  /** The five recognised prefixes with their statuses, in the order they are checked. */
  const PREFIXES: seq<(string, int)> := [("BAD REQUEST", BAD_REQUEST), ("UNAUTHORIZED", UNAUTHORIZED),
    ("FORBIDDEN", FORBIDDEN), ("NOT FOUND", NOT_FOUND), ("CONFLICT", CONFLICT)]

  /**
   * The status is that of the prefix the message starts with, 500 when none
   * does; no message starts with two of them, so the order of the tests
   * never matters. The message text always ends with the original message.
   */
  lemma PasswordChangeStatus(message: string)
    requires message != ""
    ensures forall i, j :: 0 <= i < j < |PREFIXES| ==> !(StartsWith(message, PREFIXES[i].0) && StartsWith(message, PREFIXES[j].0))
    ensures forall i :: 0 <= i < |PREFIXES| && StartsWith(message, PREFIXES[i].0) ==> PasswordChangeError(message).status == PREFIXES[i].1
    ensures (forall i :: 0 <= i < |PREFIXES| ==> !StartsWith(message, PREFIXES[i].0)) ==>
      PasswordChangeError(message) == HttpError(INTERNAL_SERVER_ERROR, "Error interno del servidor: " + message)
    ensures var text := PasswordChangeError(message).message;
      |text| > |message| && text[|text| - |message|..] == message
  {
    PrefixesByHead(message);
    forall i, j | 0 <= i < j < |PREFIXES| && StartsWith(message, PREFIXES[i].0)
      ensures !StartsWith(message, PREFIXES[j].0)
    {
      assert message[0] == PREFIXES[i].0[0];
    }
  }

  /** A text that starts with a non-empty prefix starts with its first character. */
  lemma HeadOfPrefix(s: string, prefix: string)
    requires prefix != []
    ensures StartsWith(s, prefix) ==> s != [] && s[0] == prefix[0]
  {
    if StartsWith(s, prefix) {
      assert s[..|prefix|][0] == prefix[0];
    }
  }

  /** The five prefixes start with five different letters. */
  lemma PrefixesByHead(s: string)
    ensures forall i :: 0 <= i < |PREFIXES| ==> PREFIXES[i].0 != [] && (StartsWith(s, PREFIXES[i].0) ==> s[0] == PREFIXES[i].0[0])
    ensures PREFIXES[0].0[0] == 'B' && PREFIXES[1].0[0] == 'U' && PREFIXES[2].0[0] == 'F'
    ensures PREFIXES[3].0[0] == 'N' && PREFIXES[4].0[0] == 'C'
  {
    forall i | 0 <= i < |PREFIXES| ensures PREFIXES[i].0 != [] && (StartsWith(s, PREFIXES[i].0) ==> s[0] == PREFIXES[i].0[0]) {
      HeadOfPrefix(s, PREFIXES[i].0);
    }
  }

  /** An empty message is reported as an unknown error with status 500. */
  lemma PasswordChangeUnknownError()
    ensures PasswordChangeError("") == HttpError(INTERNAL_SERVER_ERROR, "Error interno del servidor: " + UNKNOWN_ERROR_MESSAGE)
  {
    PrefixesByHead(UNKNOWN_ERROR_MESSAGE);
    assert UNKNOWN_ERROR_MESSAGE[0] == 'O';
  }

  /** `changePassword`, given the outcome of `updateUser` (the message of its error, if it fails). */
  function ChangePassword(email: string, updateError: Option<string>): (r: Result<string, HttpError>)
    ensures r.Ok? <==> updateError.None?
  {
    match updateError
    case None => Ok("Contraseña cambiada exitosamente para el usuario: " + email)
    case Some(m) => Err(PasswordChangeError(m))
  }

  // ---------------------------------------------------------------------------
  // The user store
  // ---------------------------------------------------------------------------

  /** The body of a sign-up request. */
  datatype Register = Register(displayName: string, email: string, enable: bool, photoUrl: Option<string>,
                               rol: string, phoneNumber: string, cargo: string, cedula: string, ngrams: seq<string>)

  /** The user record `singUp` writes (its `created_time` clock value is not modelled). */
  datatype Profile = Profile(email: string, displayName: string, photoUrl: string, phoneNumber: string,
                             rolRef: string, uid: string, enable: bool, firstLogin: bool, cargo: string,
                             cedula: string, rolName: string, ngrams: seq<string>)

  /**
   * A `users` document: its profile, when `singUp` wrote one, and its
   * `resetToken`, absent for both a missing field and `null`.
   */
  datatype UserDoc = UserDoc(profile: Option<Profile>, resetToken: Option<string>)

  /** A Firebase Auth account, found by its email. */
  datatype Account = Account(uid: string, displayName: string, password: string)

  const SALT_ERROR_MESSAGE := "Error al generar la clave provisional"
  const USER_EXISTS_MESSAGE := "El usuario ya se encuentra creado."
  const EMAIL_TAKEN_MESSAGE := "The email address is already in use by another account."
  const CAPITALIZE_ERROR_MESSAGE := "Cannot read properties of undefined (reading 'toUpperCase')"
  const USER_NOT_FOUND_MESSAGE := "Usuario no encontrado"
  const REQUEST_FAILED_MESSAGE := "Error al procesar la solicitud"
  const INVALID_TOKEN_MESSAGE := "Token inválido o expirado"

  /** What a `catch` of `resetPassword` or `confirmReset` receives. */
  datatype Failure = JsonWebTokenError | FirebaseError(code: string) | Raised(error: HttpError)

  /** The `catch` of `resetPassword`: only a missing account is a 404. */
  function ResetPasswordCatch(f: Failure): (e: HttpError)
    ensures e.status == NOT_FOUND <==> f == FirebaseError("auth/user-not-found")
    ensures e.status != NOT_FOUND ==> e == HttpError(INTERNAL_SERVER_ERROR, REQUEST_FAILED_MESSAGE)
  {
    if f.FirebaseError? && f.code == "auth/user-not-found" then HttpError(NOT_FOUND, USER_NOT_FOUND_MESSAGE)
    else HttpError(INTERNAL_SERVER_ERROR, REQUEST_FAILED_MESSAGE)
  }

  /**
   * The `catch` of `confirmReset`: a bad token signature is a 400, a missing
   * account a 404, and everything else, the 400 raised for a stale stored
   * token included, a 500.
   */
  function ConfirmResetCatch(f: Failure): (e: HttpError)
    ensures f.Raised? ==> e == HttpError(INTERNAL_SERVER_ERROR, REQUEST_FAILED_MESSAGE)
    ensures e.status == BAD_REQUEST <==> f == JsonWebTokenError
  {
    if f.JsonWebTokenError? then HttpError(BAD_REQUEST, INVALID_TOKEN_MESSAGE)
    else if f.FirebaseError? && f.code == "auth/user-not-found" then HttpError(NOT_FOUND, USER_NOT_FOUND_MESSAGE)
    else HttpError(INTERNAL_SERVER_ERROR, REQUEST_FAILED_MESSAGE)
  }

  /** Does some `users` document carry a profile with this email? */
  predicate EmailTaken(users: map<string, UserDoc>, email: string) {
    exists id :: id in users && users[id].profile.Some? && users[id].profile.value.email == email
  }

  /**
   * Why `collection('roles').doc(rol)` refuses the role as a document path:
   * it is empty, it contains `//`, or `roles` followed by its non-empty
   * segments does not have an even number of components.
   */
  datatype PathFault = EmptyPath | DoubleSlash | NotADocument

  /** The number of non-empty pieces: the segments of a path. */
  function SegmentCount(pieces: seq<string>): nat {
    if pieces == [] then 0 else (if pieces[0] == "" then 0 else 1) + SegmentCount(pieces[1..])
  }

  predicate HasDoubleSlash(s: string) {
    exists i :: 0 <= i < |s| - 1 && s[i] == '/' && s[i + 1] == '/'
  }

  function RolePathFault(rol: string): Option<PathFault> {
    if rol == "" then Some(EmptyPath)
    else if HasDoubleSlash(rol) then Some(DoubleSlash)
    else if SegmentCount(Split(rol, '/')) % 2 == 0 then Some(NotADocument)
    else None
  }

  /** A plain role name is a document of `roles`; an empty one is refused. */
  lemma PlainRoleIsADocument(rol: string)
    requires !Contains(rol, '/')
    ensures RolePathFault(rol).None? <==> rol != ""
  {
    SplitHead(rol, '/');
    assert Split(rol, '/')[1..] == [];
    if rol != "" {
      assert SegmentCount(Split(rol, '/')) == 1;
    }
  }

  /** A role `a/b` names a collection under `roles`, not a document, and is refused. */
  lemma TwoSegmentRoleIsRefused(a: string, b: string)
    requires a != "" && b != "" && !Contains(a, '/') && !Contains(b, '/')
    ensures RolePathFault(a + "/" + b) == Some(NotADocument)
  {
    var rol := a + "/" + b;
    assert rol == a + (['/'] + b);
    SplitWord(a, b, '/');
    SplitHead(b, '/');
    var pieces := Split(rol, '/');
    assert pieces == [a, b];
    assert pieces[1..][1..] == [];
    assert SegmentCount(pieces[1..]) == 1;
    assert !HasDoubleSlash(rol) by {
      forall i | 0 <= i < |rol| - 1 ensures rol[i] != '/' || rol[i + 1] != '/' {
        if i < |a| { assert rol[i] == a[i]; }
        else if i > |a| { assert rol[i] == b[i - |a| - 1]; }
        else { assert rol[i + 1] == b[0]; }
      }
    }
  }

  /** The profile `singUp` writes for a new user, its role name capitalised. */
  function ProfileFor(body: Register, uid: string, rolName: string): (p: Profile)
    ensures p.photoUrl == body.photoUrl.GetOr("") && p.firstLogin && p.uid == uid
    ensures p.rolRef == "roles/" + body.rol && p.rolName == rolName
  {
    Profile(body.email, body.displayName, body.photoUrl.GetOr(""), body.phoneNumber, "roles/" + body.rol, uid,
            body.enable, true, body.cargo, body.cedula, rolName, body.ngrams)
  }

  /** `set({ resetToken }, { merge: true })` on `users/uid`: the document is created when missing. */
  function StoreToken(users: map<string, UserDoc>, uid: string, token: string): (r: map<string, UserDoc>)
    ensures uid in r && r[uid].resetToken == Some(token)
    ensures uid in users ==> r[uid].profile == users[uid].profile
    ensures forall id :: id != uid ==> (id in r <==> id in users) && (id in users ==> r[id] == users[id])
  {
    users[uid := if uid in users then users[uid].(resetToken := Some(token)) else UserDoc(None, Some(token))]
  }

  /** `update({ resetToken: null })` on an existing `users/uid`. */
  function ClearToken(users: map<string, UserDoc>, uid: string): (r: map<string, UserDoc>)
    requires uid in users
    ensures uid in r && r[uid].resetToken.None? && r[uid].profile == users[uid].profile
    ensures forall id :: id != uid ==> (id in r <==> id in users) && (id in users ==> r[id] == users[id])
  {
    users[uid := users[uid].(resetToken := None)]
  }

  class UserStore {
    /** The `users` collection, by document id. */
    var users: map<string, UserDoc>
    /** The Firebase Auth accounts, by email. */
    var accounts: map<string, Account>
    /** The `shoppingCart` documents created, each by the id of the user document it references. */
    var carts: seq<string>

    constructor(users: map<string, UserDoc>, accounts: map<string, Account>)
      ensures this.users == users && this.accounts == accounts && carts == []
    {
      this.users := users;
      this.accounts := accounts;
      this.carts := [];
    }

    /**
     * `singUp`, given the salt `claveProv` generates (absent when it fails),
     * the id of the new `users` document, and the error of the welcome mail,
     * if it fails. Every failure inside the `try`, the duplicate-email
     * CONFLICT included, reaches the caller as a 500 with its own message.
     */
    method SignUp(body: Register, salt: Option<string>, newId: string, pathMessage: PathFault -> string,
                  mailError: Option<string>)
      returns (result: Result<(), HttpError>)
      modifies this
      ensures salt.None? ==>
        result == Err(HttpError(INTERNAL_SERVER_ERROR, SALT_ERROR_MESSAGE)) && unchanged(this)
      ensures salt.Some? && EmailTaken(old(users), body.email) ==>
        result == Err(HttpError(INTERNAL_SERVER_ERROR, USER_EXISTS_MESSAGE)) && unchanged(this)
      ensures salt.Some? && !EmailTaken(old(users), body.email) && body.email in old(accounts) ==>
        result == Err(HttpError(INTERNAL_SERVER_ERROR, EMAIL_TAKEN_MESSAGE)) && unchanged(this)
      ensures salt.Some? && !EmailTaken(old(users), body.email) && body.email !in old(accounts) ==>
        && accounts == old(accounts)[body.email := Account(newId, body.displayName, salt.value)]
        && (RolePathFault(body.rol).Some? ==>
              var m := pathMessage(RolePathFault(body.rol).value);
              result == Err(HttpError(INTERNAL_SERVER_ERROR, TextOr(m, DEFAULT_ERROR_MESSAGE)))
              && users == old(users) && carts == old(carts))
        && (RolePathFault(body.rol).None? && Capitalize(body.rol).None? ==>
              result == Err(HttpError(INTERNAL_SERVER_ERROR, CAPITALIZE_ERROR_MESSAGE))
              && users == old(users) && carts == old(carts))
        && (RolePathFault(body.rol).None? && Capitalize(body.rol).Some? ==>
              && users == old(users)[newId := UserDoc(Some(ProfileFor(body, newId, Capitalize(body.rol).value)), None)]
              && (mailError.Some? ==>
                    result == Err(HttpError(INTERNAL_SERVER_ERROR, TextOr(mailError.value, DEFAULT_ERROR_MESSAGE)))
                    && carts == old(carts))
              && (mailError.None? ==>
                    result == Ok(()) && carts == old(carts) + (if body.cargo == "cliente" then [newId] else [])))
    {
      if salt.None? {
        return Err(HttpError(INTERNAL_SERVER_ERROR, SALT_ERROR_MESSAGE));
      }
      var clave := salt.value;
      if EmailTaken(users, body.email) {
        return Err(HttpError(INTERNAL_SERVER_ERROR, USER_EXISTS_MESSAGE));
      }
      if body.email in accounts {
        return Err(HttpError(INTERNAL_SERVER_ERROR, EMAIL_TAKEN_MESSAGE));
      }
      accounts := accounts[body.email := Account(newId, body.displayName, clave)];
      var fault := RolePathFault(body.rol);
      if fault.Some? {
        var m := pathMessage(fault.value);
        return Err(HttpError(INTERNAL_SERVER_ERROR, TextOr(m, DEFAULT_ERROR_MESSAGE)));
      }
      var rolName := Capitalize(body.rol);
      if rolName.None? {
        return Err(HttpError(INTERNAL_SERVER_ERROR, CAPITALIZE_ERROR_MESSAGE));
      }
      users := users[newId := UserDoc(Some(ProfileFor(body, newId, rolName.value)), None)];
      if mailError.Some? {
        return Err(HttpError(INTERNAL_SERVER_ERROR, TextOr(mailError.value, DEFAULT_ERROR_MESSAGE)));
      }
      if body.cargo == "cliente" {
        carts := carts + [newId];
      }
      result := Ok(());
    }

    /**
     * `resetPassword`, given the token `sign` produces and the error of the
     * mail, if it fails. The token is stored (merged into the user document,
     * which is created when missing) before the mail is sent.
     */
    method ResetPassword(email: string, token: string, mailFails: bool) returns (result: Result<(), HttpError>)
      modifies this
      ensures email !in old(accounts) ==>
        result == Err(ResetPasswordCatch(FirebaseError("auth/user-not-found"))) && unchanged(this)
      ensures email in old(accounts) ==>
        && accounts == old(accounts) && carts == old(carts)
        && users == StoreToken(old(users), old(accounts)[email].uid, token)
        && result == (if mailFails then Err(HttpError(INTERNAL_SERVER_ERROR, REQUEST_FAILED_MESSAGE)) else Ok(()))
    {
      if email !in accounts {
        return Err(ResetPasswordCatch(FirebaseError("auth/user-not-found")));
      }
      users := StoreToken(users, accounts[email].uid, token);
      if mailFails {
        return Err(ResetPasswordCatch(Raised(HttpError(INTERNAL_SERVER_ERROR, "mail"))));
      }
      result := Ok(());
    }

    /** Does the stored reset token of the account's user document equal `token`? */
    predicate TokenMatches(email: string, token: string)
      reads this
      requires email in accounts
    {
      var uid := accounts[email].uid;
      uid in users && users[uid].resetToken == Some(token)
    }

    /**
     * `confirmReset`, given whether `verify` accepts the token's signature,
     * the new salt (absent when `claveProv` fails) and whether the mail fails.
     * A token is accepted only when it equals the stored one; then the
     * password becomes the salt and the stored token is cleared.
     */
    method ConfirmReset(email: string, token: string, signatureValid: bool, salt: Option<string>, mailFails: bool)
      returns (result: Result<(), HttpError>)
      modifies this
      ensures !signatureValid ==> result == Err(HttpError(BAD_REQUEST, INVALID_TOKEN_MESSAGE)) && unchanged(this)
      ensures signatureValid && email !in old(accounts) ==>
        result == Err(HttpError(NOT_FOUND, USER_NOT_FOUND_MESSAGE)) && unchanged(this)
      ensures signatureValid && email in old(accounts) && (!old(TokenMatches(email, token)) || salt.None?) ==>
        result == Err(HttpError(INTERNAL_SERVER_ERROR, REQUEST_FAILED_MESSAGE)) && unchanged(this)
      ensures signatureValid && email in old(accounts) && old(TokenMatches(email, token)) && salt.Some? ==>
        && accounts == old(accounts)[email := old(accounts)[email].(password := salt.value)]
        && users == ClearToken(old(users), old(accounts)[email].uid)
        && carts == old(carts)
        && result == (if mailFails then Err(HttpError(INTERNAL_SERVER_ERROR, REQUEST_FAILED_MESSAGE)) else Ok(()))
      ensures result.Ok? ==> old(TokenMatches(email, token)) && !TokenMatches(email, token)
    {
      if !signatureValid {
        return Err(ConfirmResetCatch(JsonWebTokenError));
      }
      if email !in accounts {
        return Err(ConfirmResetCatch(FirebaseError("auth/user-not-found")));
      }
      var uid := accounts[email].uid;
      if uid !in users || users[uid].resetToken != Some(token) {
        return Err(ConfirmResetCatch(Raised(HttpError(BAD_REQUEST, INVALID_TOKEN_MESSAGE))));
      }
      if salt.None? {
        return Err(ConfirmResetCatch(Raised(HttpError(INTERNAL_SERVER_ERROR, SALT_ERROR_MESSAGE))));
      }
      accounts := accounts[email := accounts[email].(password := salt.value)];
      users := ClearToken(users, uid);
      if mailFails {
        return Err(ConfirmResetCatch(Raised(HttpError(INTERNAL_SERVER_ERROR, "mail"))));
      }
      result := Ok(());
    }
  }
}

=== FILE: birthday.dfy ===
/**
 * The `updateBirthdayToMidnight` job: every user whose `birthday` is a
 * Firestore Timestamp or a JavaScript Date gets that value moved to 00:00:00.000
 * of the same calendar day; the updates are staged in batches that are
 * committed at exactly 500 operations, and the remainder at the end.
 */
module Birthday {
  import opened Wrappers
  import opened WriteBatch

  /** The local-time fields of an instant, as `getFullYear()` … `getMilliseconds()` report them. */
  datatype DateTime = DateTime(year: int, month: int, day: int, hour: int, minute: int, second: int, millisecond: int)

  /** The stored `birthday` field: only a Timestamp or a Date is a date the job handles. */
  datatype BirthdayField =
    | Missing
    | FirestoreTimestamp(at: DateTime)
    | JsDate(at: DateTime)
    | OtherValue

  /** A document of the `users` collection, reduced to what the job reads. */
  datatype UserDoc = UserDoc(id: string, birthday: BirthdayField)

  /** One staged `batch.update(doc.ref, { birthday: newBirthday })`. */
  datatype BirthdayUpdate = BirthdayUpdate(userId: string, birthday: DateTime)

  predicate IsMidnight(d: DateTime) {
    d.hour == 0 && d.minute == 0 && d.second == 0 && d.millisecond == 0
  }

  /** `new Date(y, m, d, 0, 0, 0, 0)` built from the fields of `d`. */
  function Midnight(d: DateTime): DateTime {
    DateTime(d.year, d.month, d.day, 0, 0, 0, 0)
  }

  /**
   * The midnight version keeps the calendar day, is at midnight, and equals
   * the original exactly when the original is already at midnight.
   */
  lemma MidnightFacts(d: DateTime)
    ensures Midnight(d).year == d.year && Midnight(d).month == d.month && Midnight(d).day == d.day
    ensures IsMidnight(Midnight(d))
    ensures Midnight(d) == d <==> IsMidnight(d)
    ensures Midnight(Midnight(d)) == Midnight(d)
  {
  }

  /** The update the loop stages for one user, if any. */
  function UpdateFor(u: UserDoc): (w: Option<BirthdayUpdate>)
    ensures w.Some? <==> (u.birthday.FirestoreTimestamp? || u.birthday.JsDate?) && !IsMidnight(u.birthday.at)
    ensures w.Some? ==> w.value.userId == u.id && w.value.birthday == Midnight(u.birthday.at)
  {
    match u.birthday
    case FirestoreTimestamp(d) => if d != Midnight(d) then Some(BirthdayUpdate(u.id, Midnight(d))) else None
    case JsDate(d) => if d != Midnight(d) then Some(BirthdayUpdate(u.id, Midnight(d))) else None
    case _ => None
  }

  function Staged(w: Option<BirthdayUpdate>): seq<BirthdayUpdate> {
    if w.Some? then [w.value] else []
  }

  /** Every update the job stages over the snapshot `users`, in snapshot order. */
  function BirthdayUpdates(users: seq<UserDoc>): seq<BirthdayUpdate> {
    if users == [] then []
    else BirthdayUpdates(users[..|users| - 1]) + Staged(UpdateFor(users[|users| - 1]))
  }

  /**
   * The job itself, over the snapshot of `users`: returns the commit log and
   * `updatesCount`. Every batch it commits is the next at most 500 staged
   * updates; all but the last hold exactly 500.
   */
  method UpdateBirthdayToMidnight(users: seq<UserDoc>) returns (commits: seq<seq<BirthdayUpdate>>, updatesCount: nat)
    ensures commits == Chunks(BirthdayUpdates(users))
    ensures updatesCount == |BirthdayUpdates(users)| == |Flatten(commits)|
    ensures users == [] ==> commits == []
  {
    commits := [];
    var batch: seq<BirthdayUpdate> := [];
    var batchOperations := 0;
    updatesCount := 0;

    if users == [] {
      return;
    }

    for i := 0 to |users|
      invariant Flushing(commits, batch, batchOperations, BirthdayUpdates(users[..i]))
      invariant updatesCount == |BirthdayUpdates(users[..i])|
    {
      assert users[..i + 1][..i] == users[..i];
      var u := users[i];
      if u.birthday.FirestoreTimestamp? || u.birthday.JsDate? {
        var currentBirthday := u.birthday.at;
        var newBirthday := Midnight(currentBirthday);
        if currentBirthday != newBirthday {
          ghost var staged := BirthdayUpdates(users[..i]);
          batch := batch + [BirthdayUpdate(u.id, newBirthday)];
          updatesCount := updatesCount + 1;
          batchOperations := batchOperations + 1;
          assert Flatten(commits) + batch == staged + [BirthdayUpdate(u.id, newBirthday)];
          commits, batch, batchOperations := CommitIfFull(commits, batch, batchOperations);
        }
      }
    }

    assert users[..|users|] == users;
    FlushedLogIsChunks(commits, batch);
    if batchOperations > 0 {
      commits := commits + [batch];
    }
  }

  /** The `users` documents after one batch update is applied: Firestore stores the Date as a Timestamp. */
  function ApplyUpdate(users: seq<UserDoc>, w: BirthdayUpdate): (r: seq<UserDoc>)
    ensures |r| == |users|
  {
    seq(|users|, i requires 0 <= i < |users| =>
      if users[i].id == w.userId then UserDoc(users[i].id, FirestoreTimestamp(w.birthday)) else users[i])
  }

  /** The `users` documents after the staged updates are committed, in order. */
  function ApplyAll(users: seq<UserDoc>, ws: seq<BirthdayUpdate>): (r: seq<UserDoc>)
    ensures |r| == |users|
  {
    if ws == [] then users else ApplyUpdate(ApplyAll(users, ws[..|ws| - 1]), ws[|ws| - 1])
  }

  /** What the job leaves of one user document. */
  function Normalized(u: UserDoc): UserDoc {
    match UpdateFor(u)
    case Some(w) => UserDoc(u.id, FirestoreTimestamp(w.birthday))
    case None => u
  }

  predicate DistinctIds(users: seq<UserDoc>) {
    forall i, j :: 0 <= i < j < |users| ==> users[i].id != users[j].id
  }

  /** The `users` documents with the first `k` normalised and the rest as they were. */
  function NormalizedUpTo(users: seq<UserDoc>, k: nat): (r: seq<UserDoc>)
    ensures |r| == |users|
    ensures forall i :: 0 <= i < |users| ==> r[i] == if i < k then Normalized(users[i]) else users[i]
  {
    seq(|users|, i requires 0 <= i < |users| => if i < k then Normalized(users[i]) else users[i])
  }

  /** Committing the update staged for document `k-1` normalises that document and no other. */
  lemma NormalizeNext(users: seq<UserDoc>, k: nat, w: BirthdayUpdate)
    requires DistinctIds(users) && 0 < k <= |users| && UpdateFor(users[k - 1]) == Some(w)
    ensures ApplyUpdate(NormalizedUpTo(users, k - 1), w) == NormalizedUpTo(users, k)
  {
    var before := NormalizedUpTo(users, k - 1);
    forall i | 0 <= i < |users| ensures ApplyUpdate(before, w)[i] == NormalizedUpTo(users, k)[i] {
      assert before[i].id == users[i].id;
    }
  }

  /**
   * Committing the updates staged for the first `k` documents normalises
   * exactly those documents and leaves the others as they were.
   */
  lemma {:induction false} ApplyPrefix(users: seq<UserDoc>, k: nat)
    requires DistinctIds(users) && k <= |users|
    ensures ApplyAll(users, BirthdayUpdates(users[..k])) == NormalizedUpTo(users, k)
  {
    if k == 0 {
      assert users[..0] == [];
      assert NormalizedUpTo(users, 0) == users;
    } else {
      ApplyPrefix(users, k - 1);
      var prev := BirthdayUpdates(users[..k - 1]);
      assert users[..k][..k - 1] == users[..k - 1];
      assert BirthdayUpdates(users[..k]) == prev + Staged(UpdateFor(users[k - 1]));
      match UpdateFor(users[k - 1])
      case None =>
        assert prev + [] == prev;
        assert NormalizedUpTo(users, k - 1) == NormalizedUpTo(users, k);
      case Some(w) =>
        assert (prev + [w])[..|prev|] == prev;
        NormalizeNext(users, k, w);
    }
  }

  /** What the job leaves of a document is something it would not touch again. */
  lemma NormalizedIsSettled(u: UserDoc)
    ensures UpdateFor(Normalized(u)).None?
  {
    if UpdateFor(u).Some? {
      MidnightFacts(u.birthday.at);
    }
  }

  /**
   * A second run over the committed result stages nothing: the job is
   * idempotent (document ids are distinct, as in any collection).
   */
  lemma SecondRunStagesNothing(users: seq<UserDoc>)
    requires DistinctIds(users)
    ensures BirthdayUpdates(ApplyAll(users, BirthdayUpdates(users))) == []
  {
    ApplyPrefix(users, |users|);
    assert users[..|users|] == users;
    var after := ApplyAll(users, BirthdayUpdates(users));
    forall i | 0 <= i < |after| ensures UpdateFor(after[i]).None? {
      NormalizedIsSettled(users[i]);
    }
    NothingStaged(after);
  }

  /** Documents the job would not touch yield no staged update. */
  lemma {:induction false} NothingStaged(docs: seq<UserDoc>)
    requires forall i :: 0 <= i < |docs| ==> UpdateFor(docs[i]).None?
    ensures BirthdayUpdates(docs) == []
  {
    if docs != [] {
      var prefix := docs[..|docs| - 1];
      forall i | 0 <= i < |prefix| ensures UpdateFor(prefix[i]).None? {
        assert prefix[i] == docs[i];
      }
      NothingStaged(prefix);
    }
  }
}

=== FILE: contifico_barrido.dfy ===
/**
 * The `updateContificoSync` sweep: it marks every user with `regCompRRSS`,
 * registers in Contifico every user, service category, product category,
 * service and product that has no `idContifico` yet, and back-fills the id
 * Contifico answers with. All writes are `set(…, { merge: true })` staged
 * through one flushing write batch; the five collections are swept in order.
 */
module ContificoBarrido {
  import opened Wrappers
  import opened Text
  import opened WriteBatch

  /** JavaScript truthiness of an optional text field: present and not the empty string. */
  predicate Truthy(v: Option<string>) {
    v.Some? && v.value != ""
  }

  /** `v || null`. */
  function OrNull(v: Option<string>): (r: Option<string>)
    ensures r == (if Truthy(v) then v else None)
  {
    if Truthy(v) then v else None
  }

  // ---------------------------------------------------------------------------
  // The snapshot the sweep reads
  // ---------------------------------------------------------------------------

  datatype UserDoc = UserDoc(
    id: string,
    displayName: Option<string>,
    cedula: Option<string>,
    rolName: Option<string>,
    telefono: Option<string>,
    email: Option<string>,
    direccion: Option<string>,
    idContifico: Option<string>)

  /** A category document; `name` is `Categoria` in `categories` and `categoryName` in `categoriesProducts`. */
  datatype CategoryDoc = CategoryDoc(id: string, name: Option<string>, idContifico: Option<string>)

  /** A service or product; `categoryRefId` is `RefCategoria.id` / `refCategory.id`. */
  datatype CatalogueDoc = CatalogueDoc(
    id: string,
    nombre: Option<string>,
    descripcion: Option<string>,
    precio: Option<real>,
    sku: Option<string>,
    categoryRefId: Option<string>,
    idContifico: Option<string>)

  datatype Snapshot = Snapshot(
    users: seq<UserDoc>,
    serviceCategories: seq<CategoryDoc>,
    productCategories: seq<CategoryDoc>,
    services: seq<CatalogueDoc>,
    products: seq<CatalogueDoc>)

  datatype Collection = Users | Categories | CategoriesProducts | Servicios | Productos

  /** One staged `batch.set(ref, { field }, { merge: true })`. */
  datatype Field = RegCompRRSS(complete: bool) | IdContifico(contificoId: string)
  datatype Write = SetMerge(collection: Collection, docId: string, field: Field)

  /** The body of a POST to Contifico (the `categoria_id` of a catalogue item is not part of this model). */
  datatype Payload =
    | Persona(razonSocial: Option<string>, cedula: Option<string>, telefonos: Option<string>,
              email: Option<string>, direccion: Option<string>,
              esCliente: bool, esEmpleado: bool, esVendedor: bool, esProveedor: bool)
    | Categoria(nombre: Option<string>, tipoProducto: string)
    | Producto(tipo: string, nombre: Option<string>, descripcion: string, minimo: int,
               pvp1: Option<real>, estado: string, codigo: Option<string>)

  /** A request sent to Contifico on behalf of one document. */
  datatype Request = Request(collection: Collection, docId: string, body: Payload)

  /**
   * How Contifico answered the POST made for a document: a response carrying
   * `data.id`, or a failure whose `error.response.data.id` may echo an id.
   */
  datatype ApiOutcome = Created(id: string) | Failed(echoedId: Option<string>)

  // ---------------------------------------------------------------------------
  // JavaScript loose equality in the regCompRRSS test
  // ---------------------------------------------------------------------------

  predicate IsDigit(c: char) { '0' <= c <= '9' }

  /** Where `Number(s)` is in its scan: leading white space, the digits, trailing white space. */
  datatype ScanPhase = Leading | Digits | Trailing

  /**
   * `Number(s)` on the strings this model needs: optional white space, decimal
   * digits, optional white space. Blank text is 0; anything else is NaN (None).
   */
  function StringToNumber(s: string): Option<nat> {
    ScanNumber(s, 0, Leading, 0)
  }

  function ScanNumber(s: string, i: nat, phase: ScanPhase, acc: nat): Option<nat>
    requires i <= |s|
    decreases |s| - i
  {
    if i == |s| then Some(acc)
    else if IsSpace(s[i]) then ScanNumber(s, i + 1, if phase == Leading then Leading else Trailing, acc)
    else if IsDigit(s[i]) && phase != Trailing then ScanNumber(s, i + 1, Digits, 10 * acc + (s[i] as int - '0' as int))
    else None
  }

  /** `b == s` for a boolean and a string: both sides are converted to numbers. */
  predicate LooseEqualsBoolString(b: bool, s: string) {
    StringToNumber(s) == Some(if b then 1 else 0)
  }

  /** The role name the `regCompRRSS` test compares against. */
  const CLIENT_ROLE := "Cliente"

  /** The value of `regCompRRSS` the sweep stages for a user. */
  function RegCompFlag(u: UserDoc): bool {
    !(!Truthy(u.cedula) && LooseEqualsBoolString(!Truthy(u.rolName), CLIENT_ROLE))
  }

  /** `!userData.rolName == "Cliente"` never holds, so every user is marked complete. */
  lemma RegCompAlwaysTrue(u: UserDoc)
    ensures RegCompFlag(u)
  {
    assert !IsSpace(CLIENT_ROLE[0]) && !IsDigit(CLIENT_ROLE[0]);
  }

  // ---------------------------------------------------------------------------
  // What the sweep does for one document
  // ---------------------------------------------------------------------------

  /** The persona registered for a user without `idContifico`. */
  function PersonaFor(u: UserDoc): (p: Payload)
    ensures p.Persona? && p.esCliente && !p.esProveedor
    ensures p.esVendedor <==> u.rolName == Some("Asesor")
    ensures p.esEmpleado <==> u.rolName != Some("Cliente") && u.rolName != Some("Asesor")
    ensures !(p.esVendedor && p.esEmpleado)
    ensures p.razonSocial == u.displayName && p.cedula == u.cedula
    ensures p.telefonos == OrNull(u.telefono) && p.email == OrNull(u.email) && p.direccion == OrNull(u.direccion)
  {
    Persona(u.displayName, u.cedula, OrNull(u.telefono), OrNull(u.email), OrNull(u.direccion),
            true, u.rolName != Some("Cliente") && u.rolName != Some("Asesor"), u.rolName == Some("Asesor"), false)
  }

  /** The `idContifico` write that follows a POST, if any. */
  function BackFill(collection: Collection, docId: string, outcome: ApiOutcome): (ws: seq<Write>)
    ensures |ws| <= 1
    ensures ws != [] <==> outcome.Created? || Truthy(outcome.echoedId)
    ensures outcome.Created? ==> ws == [SetMerge(collection, docId, IdContifico(outcome.id))]
    ensures outcome.Failed? && ws != [] ==> ws == [SetMerge(collection, docId, IdContifico(outcome.echoedId.value))]
  {
    match outcome
    case Created(id) => [SetMerge(collection, docId, IdContifico(id))]
    case Failed(echoed) => if Truthy(echoed) then [SetMerge(collection, docId, IdContifico(echoed.value))] else []
  }

  /** The writes and requests staged so far, and whether the sweep has aborted. */
  datatype Trace = Trace(writes: seq<Write>, requests: seq<Request>, aborted: bool)

  const NoTrace := Trace([], [], false)

  /** Running `t2` after `t1`; nothing runs after an abort. */
  function Then(t1: Trace, t2: Trace): (t: Trace)
    ensures t1.aborted ==> t == t1
    ensures !t1.aborted ==> t.writes == t1.writes + t2.writes && t.requests == t1.requests + t2.requests && t.aborted == t2.aborted
  {
    if t1.aborted then t1 else Trace(t1.writes + t2.writes, t1.requests + t2.requests, t2.aborted)
  }

  lemma ThenAssociative(t1: Trace, t2: Trace, t3: Trace)
    ensures Then(Then(t1, t2), t3) == Then(t1, Then(t2, t3))
  {
    if !t1.aborted && !t2.aborted {
      assert (t1.writes + t2.writes) + t3.writes == t1.writes + (t2.writes + t3.writes);
      assert (t1.requests + t2.requests) + t3.requests == t1.requests + (t2.requests + t3.requests);
    }
  }

  /**
   * One user: the `regCompRRSS` write, then, when the user has no
   * `idContifico`, the persona POST and its back-fill.
   */
  function UserStep(u: UserDoc, outcome: (Collection, string) -> ApiOutcome): (t: Trace)
    ensures !t.aborted
    ensures |t.writes| >= 1 && t.writes[0] == SetMerge(Users, u.id, RegCompRRSS(RegCompFlag(u)))
    ensures Truthy(u.idContifico) ==> t.writes == [t.writes[0]] && t.requests == []
    ensures !Truthy(u.idContifico) ==>
      && t.requests == [Request(Users, u.id, PersonaFor(u))]
      && t.writes[1..] == BackFill(Users, u.id, outcome(Users, u.id))
  {
    var mark := [SetMerge(Users, u.id, RegCompRRSS(RegCompFlag(u)))];
    if Truthy(u.idContifico) then Trace(mark, [], false)
    else Trace(mark + BackFill(Users, u.id, outcome(Users, u.id)), [Request(Users, u.id, PersonaFor(u))], false)
  }

  /** One category of the given Contifico product type (`SERV` or `PROD`). */
  function CategoryStep(collection: Collection, tipo: string, c: CategoryDoc,
                        outcome: (Collection, string) -> ApiOutcome): (t: Trace)
    ensures !t.aborted
    ensures Truthy(c.idContifico) ==> t.writes == [] && t.requests == []
    ensures !Truthy(c.idContifico) ==>
      && t.requests == [Request(collection, c.id, Categoria(c.name, tipo))]
      && t.writes == BackFill(collection, c.id, outcome(collection, c.id))
  {
    if Truthy(c.idContifico) then NoTrace
    else Trace(BackFill(collection, c.id, outcome(collection, c.id)), [Request(collection, c.id, Categoria(c.name, tipo))], false)
  }

  /**
   * Services read `categoria.data()` without checking that a category was
   * fetched: an unregistered service with no category reference aborts.
   * Products guard the read (`categoria && …`).
   */
  predicate Aborts(guarded: bool, item: CatalogueDoc) {
    !guarded && !Truthy(item.idContifico) && !Truthy(item.categoryRefId)
  }

  /** One service (`tipo` `SER`, unguarded) or product (`tipo` `PRO`, guarded). */
  function CatalogueStep(collection: Collection, tipo: string, guarded: bool, item: CatalogueDoc,
                         outcome: (Collection, string) -> ApiOutcome): (t: Trace)
    ensures t.aborted <==> Aborts(guarded, item)
    ensures t.aborted || Truthy(item.idContifico) ==> t.writes == [] && t.requests == []
    ensures !t.aborted && !Truthy(item.idContifico) ==>
      && t.requests == [Request(collection, item.id, Producto(tipo, item.nombre, item.descripcion.GetOr(""), 0, item.precio, "A", item.sku))]
      && t.writes == BackFill(collection, item.id, outcome(collection, item.id))
  {
    if Truthy(item.idContifico) then NoTrace
    else if Aborts(guarded, item) then Trace([], [], true)
    else
      var descripcion := if Truthy(item.descripcion) then item.descripcion.value else "";
      Trace(BackFill(collection, item.id, outcome(collection, item.id)),
            [Request(collection, item.id, Producto(tipo, item.nombre, descripcion, 0, item.precio, "A", item.sku))], false)
  }

  // ---------------------------------------------------------------------------
  // What the sweep does for a whole collection, and for the whole snapshot
  // ---------------------------------------------------------------------------

  function UsersTrace(users: seq<UserDoc>, outcome: (Collection, string) -> ApiOutcome): (t: Trace)
    ensures !t.aborted
  {
    if users == [] then NoTrace
    else Then(UsersTrace(users[..|users| - 1], outcome), UserStep(users[|users| - 1], outcome))
  }

  function CategoriesTrace(collection: Collection, tipo: string, cats: seq<CategoryDoc>,
                           outcome: (Collection, string) -> ApiOutcome): (t: Trace)
    ensures !t.aborted
  {
    if cats == [] then NoTrace
    else Then(CategoriesTrace(collection, tipo, cats[..|cats| - 1], outcome), CategoryStep(collection, tipo, cats[|cats| - 1], outcome))
  }

  /** A collection of services or products, item by item. */
  function CatalogueTrace(collection: Collection, tipo: string, guarded: bool, items: seq<CatalogueDoc>,
                          outcome: (Collection, string) -> ApiOutcome): Trace
  {
    if items == [] then NoTrace
    else Then(CatalogueTrace(collection, tipo, guarded, items[..|items| - 1], outcome),
              CatalogueStep(collection, tipo, guarded, items[|items| - 1], outcome))
  }

  /** The sweep of a collection of services or products aborts exactly when some item aborts. */
  lemma {:induction false} CatalogueAbortsIff(collection: Collection, tipo: string, guarded: bool, items: seq<CatalogueDoc>,
                                              outcome: (Collection, string) -> ApiOutcome)
    ensures CatalogueTrace(collection, tipo, guarded, items, outcome).aborted <==>
      exists i :: 0 <= i < |items| && Aborts(guarded, items[i])
  {
    if items != [] {
      var prefix := items[..|items| - 1];
      CatalogueAbortsIff(collection, tipo, guarded, prefix, outcome);
      assert forall i :: 0 <= i < |prefix| ==> prefix[i] == items[i];
    }
  }

  /** The whole sweep: users, service categories, product categories, services, products. */
  function SyncTrace(snap: Snapshot, outcome: (Collection, string) -> ApiOutcome): Trace {
    var t1 := UsersTrace(snap.users, outcome);
    var t2 := Then(t1, CategoriesTrace(Categories, "SERV", snap.serviceCategories, outcome));
    var t3 := Then(t2, CategoriesTrace(CategoriesProducts, "PROD", snap.productCategories, outcome));
    var t4 := Then(t3, CatalogueTrace(Servicios, "SER", false, snap.services, outcome));
    Then(t4, CatalogueTrace(Productos, "PRO", true, snap.products, outcome))
  }

  /** Only a service can abort the sweep: products are guarded. */
  lemma SyncAbortsIffUnlinkedService(snap: Snapshot, outcome: (Collection, string) -> ApiOutcome)
    ensures SyncTrace(snap, outcome).aborted <==>
      exists i :: 0 <= i < |snap.services| && !Truthy(snap.services[i].idContifico) && !Truthy(snap.services[i].categoryRefId)
  {
    CatalogueAbortsIff(Servicios, "SER", false, snap.services, outcome);
    CatalogueAbortsIff(Productos, "PRO", true, snap.products, outcome);
  }

  /** Whatever happens later in the sweep, every user of the snapshot is staged `regCompRRSS: true`. */
  lemma SweepMarksEveryUser(snap: Snapshot, outcome: (Collection, string) -> ApiOutcome)
    ensures forall i :: 0 <= i < |snap.users| ==>
      SetMerge(Users, snap.users[i].id, RegCompRRSS(true)) in SyncTrace(snap, outcome).writes
  {
    EveryUserMarkedComplete(snap.users, outcome);
    var users := UsersTrace(snap.users, outcome).writes;
    var all := SyncTrace(snap, outcome).writes;
    assert users <= all;
    forall w | w in users ensures w in all {
      var k :| 0 <= k < |users| && users[k] == w;
      assert all[k] == w;
    }
  }

  /** Every user, registered or not, is staged `regCompRRSS: true`. */
  lemma {:induction false} EveryUserMarkedComplete(users: seq<UserDoc>, outcome: (Collection, string) -> ApiOutcome)
    ensures forall i :: 0 <= i < |users| ==> SetMerge(Users, users[i].id, RegCompRRSS(true)) in UsersTrace(users, outcome).writes
  {
    if users != [] {
      var prefix := users[..|users| - 1];
      var last := users[|users| - 1];
      EveryUserMarkedComplete(prefix, outcome);
      RegCompAlwaysTrue(last);
      var t := UsersTrace(users, outcome);
      assert t.writes == UsersTrace(prefix, outcome).writes + UserStep(last, outcome).writes;
      forall i | 0 <= i < |users| ensures SetMerge(Users, users[i].id, RegCompRRSS(true)) in t.writes {
        if i < |prefix| {
          assert users[i] == prefix[i];
        } else {
          assert UserStep(last, outcome).writes[0] in t.writes;
        }
      }
    }
  }

  // ---------------------------------------------------------------------------
  // The sweep as the job runs it
  // ---------------------------------------------------------------------------

  /** The job's mutable locals: the commit log, the open batch, its counter, `updatesCount`, the requests sent. */
  datatype SyncState = SyncState(
    commits: seq<seq<Write>>, batch: seq<Write>, batchOperations: int, updatesCount: int, requests: seq<Request>)

  /** `s` has committed and staged exactly the writes of `t`, in full batches, and sent its requests. */
  ghost predicate Tracks(s: SyncState, t: Trace) {
    && Flushing(s.commits, s.batch, s.batchOperations, t.writes)
    && s.updatesCount == |t.writes|
    && s.requests == t.requests
  }

  /** `batch.set(…)`, `batchOperations++`, `updatesCount++`. */
  function Staged(s: SyncState, w: Write): SyncState {
    s.(batch := s.batch + [w], batchOperations := s.batchOperations + 1, updatesCount := s.updatesCount + 1)
  }

  /** The `if (batchOperations === 500)` check, on the job's state. */
  method Check(s: SyncState) returns (s': SyncState)
    requires s.batchOperations == |s.batch| <= MAX_BATCH_OPERATIONS
    requires forall i :: 0 <= i < |s.commits| ==> |s.commits[i]| == MAX_BATCH_OPERATIONS
    ensures s'.batchOperations == |s'.batch| < MAX_BATCH_OPERATIONS
    ensures forall i :: 0 <= i < |s'.commits| ==> |s'.commits[i]| == MAX_BATCH_OPERATIONS
    ensures Flatten(s'.commits) + s'.batch == Flatten(s.commits) + s.batch
    ensures s'.updatesCount == s.updatesCount && s'.requests == s.requests
  {
    var commits, batch, batchOperations := CommitIfFull(s.commits, s.batch, s.batchOperations);
    s' := s.(commits := commits, batch := batch, batchOperations := batchOperations);
  }

  /** Stages the back-fill write for one POST outcome, if any. */
  method StageBackFill(s: SyncState, collection: Collection, docId: string, outcome: ApiOutcome) returns (s': SyncState)
    requires s.batchOperations == |s.batch| < MAX_BATCH_OPERATIONS
    ensures s' == (if BackFill(collection, docId, outcome) == [] then s else Staged(s, BackFill(collection, docId, outcome)[0]))
  {
    s' := s;
    match outcome {
      case Created(id) =>
        s' := Staged(s, SetMerge(collection, docId, IdContifico(id)));
      case Failed(echoed) =>
        if Truthy(echoed) {
          s' := Staged(s, SetMerge(collection, docId, IdContifico(echoed.value)));
        }
    }
  }

  /** The users loop. */
  method SweepUsers(s0: SyncState, users: seq<UserDoc>, outcome: (Collection, string) -> ApiOutcome, ghost before: Trace)
    returns (s: SyncState)
    requires Tracks(s0, before) && !before.aborted
    ensures Tracks(s, Then(before, UsersTrace(users, outcome)))
  {
    s := s0;
    for i := 0 to |users|
      invariant Tracks(s, Then(before, UsersTrace(users[..i], outcome)))
    {
      assert users[..i + 1][..i] == users[..i];
      ThenAssociative(before, UsersTrace(users[..i], outcome), UserStep(users[i], outcome));
      s := SweepUser(s, users[i], outcome, Then(before, UsersTrace(users[..i], outcome)));
    }
    assert users[..|users|] == users;
  }

  /** The body of the users loop: the role-flag merge, then the POST and back-fill for an unlinked user. */
  method SweepUser(s0: SyncState, u: UserDoc, outcome: (Collection, string) -> ApiOutcome, ghost t: Trace)
    returns (s: SyncState)
    requires Tracks(s0, t) && !t.aborted
    ensures Tracks(s, Then(t, UserStep(u, outcome)))
  {
    var mark := SetMerge(Users, u.id, RegCompRRSS(RegCompFlag(u)));
    assert UserStep(u, outcome).writes == [mark] + UserFill(u, outcome);
    s := Staged(s0, mark);
    assert Flatten(s.commits) + s.batch == t.writes + [mark];
    s := Check(s);
    s := SendPersona(s, u, outcome, t.writes + [mark]);
  }

  /** The back-fill an unlinked user's POST may stage. */
  function UserFill(u: UserDoc, outcome: (Collection, string) -> ApiOutcome): seq<Write> {
    if Truthy(u.idContifico) then [] else BackFill(Users, u.id, outcome(Users, u.id))
  }

  /** The second half of the users loop body: the POST and back-fill of an unlinked user, then the batch check. */
  method SendPersona(s0: SyncState, u: UserDoc, outcome: (Collection, string) -> ApiOutcome, ghost staged: seq<Write>)
    returns (s: SyncState)
    requires Flushing(s0.commits, s0.batch, s0.batchOperations, staged) && s0.updatesCount == |staged|
    ensures Flushing(s.commits, s.batch, s.batchOperations, staged + UserFill(u, outcome))
    ensures s.updatesCount == |staged + UserFill(u, outcome)|
    ensures s.requests == s0.requests + (if Truthy(u.idContifico) then [] else [Request(Users, u.id, PersonaFor(u))])
  {
    s := s0;
    if !Truthy(u.idContifico) {
      s := s.(requests := s.requests + [Request(Users, u.id, PersonaFor(u))]);
      s := StageBackFill(s, Users, u.id, outcome(Users, u.id));
    }
    assert Flatten(s.commits) + s.batch == staged + UserFill(u, outcome);
    s := Check(s);
  }

  /** A categories loop (`categories` with `SERV`, `categoriesProducts` with `PROD`). */
  method SweepCategories(s0: SyncState, collection: Collection, tipo: string, cats: seq<CategoryDoc>,
                         outcome: (Collection, string) -> ApiOutcome, ghost before: Trace)
    returns (s: SyncState)
    requires Tracks(s0, before) && !before.aborted
    ensures Tracks(s, Then(before, CategoriesTrace(collection, tipo, cats, outcome)))
  {
    s := s0;
    for i := 0 to |cats|
      invariant Tracks(s, Then(before, CategoriesTrace(collection, tipo, cats[..i], outcome)))
    {
      assert cats[..i + 1][..i] == cats[..i];
      ThenAssociative(before, CategoriesTrace(collection, tipo, cats[..i], outcome), CategoryStep(collection, tipo, cats[i], outcome));
      s := SweepCategory(s, collection, tipo, cats[i], outcome, Then(before, CategoriesTrace(collection, tipo, cats[..i], outcome)));
    }
    assert cats[..|cats|] == cats;
  }

  /** The body of a categories loop: the POST and back-fill for an unlinked category. */
  method SweepCategory(s0: SyncState, collection: Collection, tipo: string, c: CategoryDoc,
                       outcome: (Collection, string) -> ApiOutcome, ghost t: Trace)
    returns (s: SyncState)
    requires Tracks(s0, t) && !t.aborted
    ensures Tracks(s, Then(t, CategoryStep(collection, tipo, c, outcome)))
  {
    s := s0;
    if !Truthy(c.idContifico) {
      s := s.(requests := s.requests + [Request(collection, c.id, Categoria(c.name, tipo))]);
      s := StageBackFill(s, collection, c.id, outcome(collection, c.id));
    }
    s := Check(s);
  }

  /** The body of the services or products loop for an item that does not abort the sweep. */
  method SweepItem(s0: SyncState, collection: Collection, tipo: string, guarded: bool, item: CatalogueDoc,
                   outcome: (Collection, string) -> ApiOutcome, ghost t: Trace)
    returns (s: SyncState)
    requires Tracks(s0, t) && !t.aborted && !Aborts(guarded, item)
    ensures Tracks(s, Then(t, CatalogueStep(collection, tipo, guarded, item, outcome)))
  {
    s := s0;
    if !Truthy(item.idContifico) {
      var descripcion := if Truthy(item.descripcion) then item.descripcion.value else "";
      s := s.(requests := s.requests + [Request(collection, item.id, Producto(tipo, item.nombre, descripcion, 0, item.precio, "A", item.sku))]);
      s := StageBackFill(s, collection, item.id, outcome(collection, item.id));
    }
    s := Check(s);
  }

  /** The services loop (unguarded) or the products loop (guarded); returns whether the sweep aborted. */
  method SweepCatalogue(s0: SyncState, collection: Collection, tipo: string, guarded: bool, items: seq<CatalogueDoc>,
                        outcome: (Collection, string) -> ApiOutcome, ghost before: Trace)
    returns (s: SyncState, aborted: bool)
    requires Tracks(s0, before) && !before.aborted
    ensures Tracks(s, Then(before, CatalogueTrace(collection, tipo, guarded, items, outcome)))
    ensures aborted == CatalogueTrace(collection, tipo, guarded, items, outcome).aborted
  {
    s := s0;
    aborted := false;
    var i := 0;
    while i < |items|
      invariant 0 <= i <= |items|
      invariant !CatalogueTrace(collection, tipo, guarded, items[..i], outcome).aborted
      invariant Tracks(s, Then(before, CatalogueTrace(collection, tipo, guarded, items[..i], outcome)))
    {
      ghost var t := Then(before, CatalogueTrace(collection, tipo, guarded, items[..i], outcome));
      var item := items[i];
      if !Truthy(item.idContifico) && !guarded && !Truthy(item.categoryRefId) {
        // `categoria.data()` on an undefined `categoria` throws.
        CatalogueAbortAt(collection, tipo, guarded, items, i, outcome, before);
        aborted := true;
        return;
      }
      CatalogueTraceNext(collection, tipo, guarded, items, i, outcome);
      ThenAssociative(before, CatalogueTrace(collection, tipo, guarded, items[..i], outcome),
                      CatalogueStep(collection, tipo, guarded, item, outcome));
      s := SweepItem(s, collection, tipo, guarded, item, outcome, t);
      i := i + 1;
    }
    assert items[..|items|] == items;
  }

  /** The trace of one more item extends the trace of the items before it. */
  lemma CatalogueTraceNext(collection: Collection, tipo: string, guarded: bool, items: seq<CatalogueDoc>, i: nat,
                           outcome: (Collection, string) -> ApiOutcome)
    requires i < |items|
    ensures CatalogueTrace(collection, tipo, guarded, items[..i + 1], outcome) ==
      Then(CatalogueTrace(collection, tipo, guarded, items[..i], outcome), CatalogueStep(collection, tipo, guarded, items[i], outcome))
  {
    assert items[..i + 1][..i] == items[..i];
  }

  /** An item that aborts ends the sweep of its collection with what the items before it did. */
  lemma CatalogueAbortAt(collection: Collection, tipo: string, guarded: bool, items: seq<CatalogueDoc>, i: nat,
                         outcome: (Collection, string) -> ApiOutcome, before: Trace)
    requires i < |items| && Aborts(guarded, items[i])
    requires !CatalogueTrace(collection, tipo, guarded, items[..i], outcome).aborted && !before.aborted
    ensures var full := CatalogueTrace(collection, tipo, guarded, items, outcome);
      var done := Then(before, CatalogueTrace(collection, tipo, guarded, items[..i], outcome));
      && full.aborted
      && Then(before, full).writes == done.writes
      && Then(before, full).requests == done.requests
  {
    CatalogueTraceNext(collection, tipo, guarded, items, i, outcome);
    PrefixAborts(collection, tipo, guarded, items, i + 1, outcome);
  }

  /** Once a prefix has aborted, the longer traces are that same aborted trace. */
  lemma {:induction false} PrefixAborts(collection: Collection, tipo: string, guarded: bool, items: seq<CatalogueDoc>, k: nat,
                                        outcome: (Collection, string) -> ApiOutcome)
    requires 0 < k <= |items| && CatalogueTrace(collection, tipo, guarded, items[..k], outcome).aborted
    ensures CatalogueTrace(collection, tipo, guarded, items, outcome) == CatalogueTrace(collection, tipo, guarded, items[..k], outcome)
    decreases |items| - k
  {
    if k < |items| {
      assert items[..k + 1][..k] == items[..k];
      PrefixAborts(collection, tipo, guarded, items, k + 1, outcome);
    } else {
      assert items[..k] == items;
    }
  }

  /** The message of the error the sweep rethrows when a service without category aborts it. */
  const ABORT_MESSAGE := "Fallo en la actualización de documentos: Cannot read properties of undefined (reading 'data')"

  /**
   * `updateContificoSync`. On success the commit log is the staged writes in
   * batches of 500 plus the remainder, and the result is `updatesCount`, the
   * number of writes staged. On abort only the full batches already
   * committed remain; the open batch is lost.
   */
  method UpdateContificoSync(snap: Snapshot, outcome: (Collection, string) -> ApiOutcome)
    returns (commits: seq<seq<Write>>, requests: seq<Request>, result: Result<nat, string>)
    ensures requests == SyncTrace(snap, outcome).requests
    ensures !SyncTrace(snap, outcome).aborted ==>
      commits == Chunks(SyncTrace(snap, outcome).writes) && result == Ok(|SyncTrace(snap, outcome).writes|)
    ensures SyncTrace(snap, outcome).aborted ==>
      commits == FullChunks(SyncTrace(snap, outcome).writes) && result == Err(ABORT_MESSAGE)
  {
    var s := SyncState([], [], 0, 0, []);
    ghost var t := NoTrace;
    assert Then(NoTrace, UsersTrace(snap.users, outcome)) == UsersTrace(snap.users, outcome);

    s := SweepUsers(s, snap.users, outcome, t);
    t := UsersTrace(snap.users, outcome);
    s := SweepCategories(s, Categories, "SERV", snap.serviceCategories, outcome, t);
    t := Then(t, CategoriesTrace(Categories, "SERV", snap.serviceCategories, outcome));
    s := SweepCategories(s, CategoriesProducts, "PROD", snap.productCategories, outcome, t);
    t := Then(t, CategoriesTrace(CategoriesProducts, "PROD", snap.productCategories, outcome));
    var aborted;
    s, aborted := SweepCatalogue(s, Servicios, "SER", false, snap.services, outcome, t);
    t := Then(t, CatalogueTrace(Servicios, "SER", false, snap.services, outcome));
    if aborted {
      assert t == SyncTrace(snap, outcome);
      FlushingCommitsAreFullChunks(s.commits, s.batch, t.writes);
      return s.commits, s.requests, Err(ABORT_MESSAGE);
    }
    s, aborted := SweepCatalogue(s, Productos, "PRO", true, snap.products, outcome, t);
    t := Then(t, CatalogueTrace(Productos, "PRO", true, snap.products, outcome));
    assert t == SyncTrace(snap, outcome);
    CatalogueAbortsIff(Productos, "PRO", true, snap.products, outcome);

    FlushedLogIsChunks(s.commits, s.batch);
    commits := s.commits;
    if s.batchOperations > 0 {
      commits := commits + [s.batch];
    }
    requests := s.requests;
    result := Ok(s.updatesCount);
  }
}

=== FILE: contifico_documents.dfy ===
/**
 * `contificoDocuments`, the daily reconciliation: every sales document
 * Contifico reports for the day is folded into the monthly statistics buckets
 * (global, per store, per advisor, per client, per product, per service) and
 * upserted as an order and/or a billed-service record.
 *
 * Every read is a query against the store as it was before the run (the
 * Snapshot); every write is staged into ONE batch, committed once at the end.
 * Reads never see staged writes, which is what the lemmas at the end of this
 * module make visible.
 */
module ContificoDocuments {
  import opened Wrappers
  import opened Text
  import opened ContificoMapping

  // ---------------------------------------------------------------------------
  // The store before the run
  // ---------------------------------------------------------------------------

  /** The six counters of a `monthlyStatistics` bucket. */
  datatype Counters = Counters(
    productTotalValue: real, serviceTotalValue: real,
    productCount: real, serviceCount: real,
    totalValue: real, totalTransactions: int)

  const ZeroCounters := Counters(0.0, 0.0, 0.0, 0.0, 0.0, 0)

  /** A `monthlyStatistics` document: its month and the one reference that says what it counts. */
  datatype StatDoc = StatDoc(
    id: string, year: int, month: int,
    storeRef: Option<string>, asesorRef: Option<string>, productRef: Option<string>,
    serviceRef: Option<string>, clientRef: Option<string>,
    counters: Counters)

  /** A `locales` document. */
  datatype StoreDoc = StoreDoc(id: string, numeroEstablecimiento: string)

  /** A `users` document, as the advisor and client lookups see it. */
  datatype UserDoc = UserDoc(id: string, cedula: Option<string>)

  /** A `productos`, `servicios`, `orders` or `serviciosFacturados` document, as the `idContifico` lookups see it. */
  datatype LinkedDoc = LinkedDoc(id: string, idContifico: Option<string>)

  /**
   * The store before the run. `year` and `month` are those of the run's clock
   * and `now` its timestamp; `lastOrderNumber` is the `orderNumber` of the
   * order the `orderBy('orderDate', 'desc').limit(1)` query returns, if any.
   */
  datatype Snapshot = Snapshot(
    year: int, month: int, now: int,
    stats: seq<StatDoc>,
    stores: seq<StoreDoc>,
    users: seq<UserDoc>,
    products: seq<LinkedDoc>,
    services: seq<LinkedDoc>,
    orders: seq<LinkedDoc>,
    billed: seq<LinkedDoc>,
    lastOrderNumber: Option<int>)

  /** A query with `.limit(1)`: the first document that satisfies the filter. */
  function First<T>(docs: seq<T>, filter: T -> bool): Option<T> {
    if docs == [] then None
    else if filter(docs[0]) then Some(docs[0])
    else First(docs[1..], filter)
  }

  /** The query returns a document of the collection that passes the filter, and none only when no document does. */
  lemma {:induction false} FirstFinds<T>(docs: seq<T>, filter: T -> bool)
    ensures First(docs, filter).Some? ==> First(docs, filter).value in docs && filter(First(docs, filter).value)
    ensures First(docs, filter).None? <==> forall i :: 0 <= i < |docs| ==> !filter(docs[i])
  {
    if docs != [] && !filter(docs[0]) {
      FirstFinds(docs[1..], filter);
      assert forall i :: 1 <= i < |docs| ==> docs[i] == docs[1..][i - 1];
    }
  }

  /** What a bucket counts: everything, or one store, advisor, client, product or service. */
  datatype Dimension = Global | ByStore(id: string) | ByAsesor(id: string) | ByClient(id: string)
                     | ByProduct(id: string) | ByService(id: string)

  /** The filter of the bucket query for `key` in the run's month. */
  predicate IsBucket(snap: Snapshot, key: Dimension, s: StatDoc) {
    && s.year == snap.year && s.month == snap.month
    && match key
       case Global => s.storeRef.None? && s.asesorRef.None? && s.productRef.None? && s.serviceRef.None? && s.clientRef.None?
       case ByStore(id) => s.storeRef == Some(id)
       case ByAsesor(id) => s.asesorRef == Some(id)
       case ByClient(id) => s.clientRef == Some(id)
       case ByProduct(id) => s.productRef == Some(id)
       case ByService(id) => s.serviceRef == Some(id)
  }

  function FindBucket(snap: Snapshot, key: Dimension): Option<StatDoc> {
    First(snap.stats, s => IsBucket(snap, key, s))
  }

  // ---------------------------------------------------------------------------
  // What the run stages
  // ---------------------------------------------------------------------------

  /** The role of a reference `doc()` creates while document `doc` is processed. */
  datatype Slot = GlobalSlot | StoreSlot | AsesorSlot | ClientSlot | ProductSlot(line: nat) | ServiceSlot(line: nat)
                | OrderSlot | BilledSlot

  /**
   * A document reference: one found in the store, or a new one made by
   * `collection(...).doc()` — new references are all distinct.
   */
  datatype DocRef = Existing(id: string) | Fresh(doc: nat, slot: Slot)

  /** A `monthlyStatistics` record as created. */
  datatype StatRecord = StatRecord(
    year: int, month: int,
    storeRef: Option<string>, asesorRef: Option<string>, productRef: Option<string>,
    serviceRef: Option<string>, clientRef: Option<string>,
    counters: Counters, lastUpdate: int)

  datatype ProductLine = ProductLine(productId: string, quantity: real, totalPrice: real)
  datatype ServiceLine = ServiceLine(serviceId: string, quantity: real, totalPrice: real)

  /** The workflow fields a new order starts with. */
  datatype NewOrderFields = NewOrderFields(
    transferProofImage: Option<string>, transferValidationBy: Option<string>,
    transferValidationComments: Option<string>, shippingMethod: string,
    shippingAddress: Option<string>, shippingCost: real, promoCode: Option<string>,
    internalNote: seq<string>, processedDate: Option<int>, readyForPickupDate: Option<int>,
    shippedDate: Option<int>, deliveryDate: Option<int>, completedDate: Option<int>,
    pickUpDate: Option<int>)

  const NEW_ORDER_DEFAULTS := NewOrderFields(None, None, None, "pickup", None, 0.0, None, [], None, None, None, None, None, None)

  /** One staged `batch.create` or `batch.update`. */
  datatype Write =
    | CreateStat(ref: DocRef, record: StatRecord)
    | UpdateProductStat(ref: DocRef, totalValue: real, productTotalValue: real, productCount: real,
                        totalTransactions: int, lastUpdate: int)
    | UpdateServiceStat(ref: DocRef, totalValue: real, serviceTotalValue: real, serviceCount: real,
                        totalTransactions: int, lastUpdate: int)
    | UpdateDimensionStat(ref: DocRef, counters: Counters, lastUpdate: int)
    | UpdateOrder(ref: DocRef, data: OrderData)
    | CreateOrder(ref: DocRef, data: OrderData, fields: NewOrderFields, productsList: seq<ProductLine>, orderNumber: int)
    | UpdateBilled(ref: DocRef, data: OrderData)
    | CreateBilled(ref: DocRef, data: OrderData, serviceList: seq<ServiceLine>)

  /** Writes to `monthlyStatistics`. */
  predicate IsStatWrite(w: Write) {
    w.CreateStat? || w.UpdateProductStat? || w.UpdateServiceStat? || w.UpdateDimensionStat?
  }

  // ---------------------------------------------------------------------------
  // Bucket resolution
  // ---------------------------------------------------------------------------

  /** The bucket a document's totals go to: its reference and the counters read for it. */
  datatype Target = Target(ref: DocRef, base: Counters)

  /** A dimension bucket: the one found, or a fresh zero record created for this document. */
  datatype Resolution = Resolution(target: Option<Target>, creates: seq<Write>)

  /** The empty bucket created for `key` (global, store, advisor or client). */
  function ZeroRecord(snap: Snapshot, key: Dimension): StatRecord {
    StatRecord(snap.year, snap.month,
      if key.ByStore? then Some(key.id) else None,
      if key.ByAsesor? then Some(key.id) else None,
      None, None,
      if key.ByClient? then Some(key.id) else None,
      ZeroCounters, snap.now)
  }

  /**
   * Resolving the bucket for `key` (none when the store, advisor or client
   * was not found): an existing bucket is read, a missing one is created
   * empty under a fresh reference.
   */
  function Resolve(snap: Snapshot, doc: nat, slot: Slot, key: Option<Dimension>): (r: Resolution)
    ensures key.None? <==> r.target.None?
    ensures key.None? ==> r.creates == []
    ensures key.Some? && FindBucket(snap, key.value).Some? ==>
      r.target == Some(Target(Existing(FindBucket(snap, key.value).value.id), FindBucket(snap, key.value).value.counters))
      && r.creates == []
    ensures key.Some? && FindBucket(snap, key.value).None? ==>
      r.target == Some(Target(Fresh(doc, slot), ZeroCounters))
      && r.creates == [CreateStat(Fresh(doc, slot), ZeroRecord(snap, key.value))]
  {
    if key.None? then Resolution(None, [])
    else match FindBucket(snap, key.value)
      case Some(b) => Resolution(Some(Target(Existing(b.id), b.counters)), [])
      case None => Resolution(Some(Target(Fresh(doc, slot), ZeroCounters)), [CreateStat(Fresh(doc, slot), ZeroRecord(snap, key.value))])
  }

  /** The store whose `numeroEstablecimiento` is the document's store code. */
  function StoreOf(snap: Snapshot, doc: RemoteDoc): Option<string> {
    var s := First(snap.stores, (st: StoreDoc) => st.numeroEstablecimiento == StoreCode(doc.documento));
    if s.Some? then Some(s.value.id) else None
  }

  /** The user whose `cedula` is `cedula`. */
  function UserWithCedula(snap: Snapshot, cedula: string): Option<string> {
    var u := First(snap.users, (u: UserDoc) => u.cedula == Some(cedula));
    if u.Some? then Some(u.value.id) else None
  }

  function KeyOf(id: Option<string>, make: string -> Dimension): Option<Dimension> {
    if id.Some? then Some(make(id.value)) else None
  }

  /** The four dimension buckets of a document, resolved in the order the run resolves them. */
  datatype Dimensions = Dimensions(global: Resolution, store: Resolution, asesor: Resolution, client: Resolution)

  function DimensionsOf(snap: Snapshot, k: nat, doc: RemoteDoc): (d: Dimensions)
    ensures d.global.target.Some?
  {
    Dimensions(
      Resolve(snap, k, GlobalSlot, Some(Global)),
      Resolve(snap, k, StoreSlot, KeyOf(StoreOf(snap, doc), id => ByStore(id))),
      Resolve(snap, k, AsesorSlot, KeyOf(UserWithCedula(snap, doc.vendedorCedula), id => ByAsesor(id))),
      Resolve(snap, k, ClientSlot, KeyOf(UserWithCedula(snap, doc.clienteCedula), id => ByClient(id))))
  }

  // ---------------------------------------------------------------------------
  // Line items
  // ---------------------------------------------------------------------------

  /** The per-document accumulators `currentDoc…`. */
  datatype DocTotals = DocTotals(
    productTotalValue: real, productCount: real,
    serviceTotalValue: real, serviceCount: real,
    totalValue: real, totalTransactions: int)

  const NoTotals := DocTotals(0.0, 0.0, 0.0, 0.0, 0.0, 0)

  /** What the details loop has built so far for one document. */
  datatype Lines = Lines(productsList: seq<ProductLine>, serviceList: seq<ServiceLine>, totals: DocTotals, writes: seq<Write>)

  const NoLines := Lines([], [], NoTotals, [])

  /** `detalle.precio * detalle.cantidad`, the value of one line. */
  function LineTotal(d: Detalle): real {
    d.precio * d.cantidad
  }

  function ProductOf(snap: Snapshot, d: Detalle): Option<LinkedDoc> {
    First(snap.products, (p: LinkedDoc) => p.idContifico == Some(d.productoId))
  }

  function ServiceOf(snap: Snapshot, d: Detalle): Option<LinkedDoc> {
    First(snap.services, (s: LinkedDoc) => s.idContifico == Some(d.productoId))
  }

  /** The bucket write for a line routed to product `p`: a fresh bucket with the line alone, or snapshot + line. */
  function ProductBucketWrite(snap: Snapshot, k: nat, j: nat, p: string, d: Detalle): Write
  {
    var total := LineTotal(d);
    match FindBucket(snap, ByProduct(p))
    case None =>
      CreateStat(Fresh(k, ProductSlot(j)), StatRecord(snap.year, snap.month, None, None, Some(p), None, None,
                 Counters(total, 0.0, d.cantidad, 0.0, total, 1), snap.now))
    case Some(b) =>
      UpdateProductStat(Existing(b.id), b.counters.totalValue + total, b.counters.productTotalValue + total,
                        b.counters.productCount + d.cantidad, b.counters.totalTransactions + 1, snap.now)
  }

  /** The bucket write for a line routed to service `s`, symmetric to the product case. */
  function ServiceBucketWrite(snap: Snapshot, k: nat, j: nat, s: string, d: Detalle): Write
  {
    var total := LineTotal(d);
    match FindBucket(snap, ByService(s))
    case None =>
      CreateStat(Fresh(k, ServiceSlot(j)), StatRecord(snap.year, snap.month, None, None, None, Some(s), None,
                 Counters(0.0, total, 0.0, d.cantidad, total, 1), snap.now))
    case Some(b) =>
      UpdateServiceStat(Existing(b.id), b.counters.totalValue + total, b.counters.serviceTotalValue + total,
                        b.counters.serviceCount + d.cantidad, b.counters.totalTransactions + 1, snap.now)
  }

  /**
   * Routing one detail (line `j` of document `k`): a product match is used and
   * the service lookup never happens; otherwise a service match; a detail
   * matching neither changes nothing.
   */
  function DetailStep(snap: Snapshot, k: nat, j: nat, d: Detalle, st: Lines): (r: Lines)
    ensures ProductOf(snap, d).Some? ==>
      && r.productsList == st.productsList + [ProductLine(ProductOf(snap, d).value.id, d.cantidad, LineTotal(d))]
      && r.serviceList == st.serviceList
      && r.writes == st.writes + [ProductBucketWrite(snap, k, j, ProductOf(snap, d).value.id, d)]
    ensures ProductOf(snap, d).None? && ServiceOf(snap, d).Some? ==>
      && r.productsList == st.productsList
      && r.serviceList == st.serviceList + [ServiceLine(ServiceOf(snap, d).value.id, d.cantidad, LineTotal(d))]
      && r.writes == st.writes + [ServiceBucketWrite(snap, k, j, ServiceOf(snap, d).value.id, d)]
    ensures ProductOf(snap, d).None? && ServiceOf(snap, d).None? ==> r == st
  {
    var total := LineTotal(d);
    var t := st.totals;
    match ProductOf(snap, d)
    case Some(p) =>
      Lines(st.productsList + [ProductLine(p.id, d.cantidad, total)], st.serviceList,
            t.(productTotalValue := t.productTotalValue + total, productCount := t.productCount + d.cantidad,
               totalValue := t.totalValue + total, totalTransactions := t.totalTransactions + 1),
            st.writes + [ProductBucketWrite(snap, k, j, p.id, d)])
    case None =>
      match ServiceOf(snap, d)
      case Some(s) =>
        Lines(st.productsList, st.serviceList + [ServiceLine(s.id, d.cantidad, total)],
              t.(serviceTotalValue := t.serviceTotalValue + total, serviceCount := t.serviceCount + d.cantidad,
                 totalValue := t.totalValue + total, totalTransactions := t.totalTransactions + 1),
              st.writes + [ServiceBucketWrite(snap, k, j, s.id, d)])
      case None => st
  }

  function SumPrices(lines: seq<ProductLine>): real {
    if lines == [] then 0.0 else SumPrices(lines[..|lines| - 1]) + lines[|lines| - 1].totalPrice
  }

  function SumQuantities(lines: seq<ProductLine>): real {
    if lines == [] then 0.0 else SumQuantities(lines[..|lines| - 1]) + lines[|lines| - 1].quantity
  }

  function SumServicePrices(lines: seq<ServiceLine>): real {
    if lines == [] then 0.0 else SumServicePrices(lines[..|lines| - 1]) + lines[|lines| - 1].totalPrice
  }

  function SumServiceQuantities(lines: seq<ServiceLine>): real {
    if lines == [] then 0.0 else SumServiceQuantities(lines[..|lines| - 1]) + lines[|lines| - 1].quantity
  }

  /** The accumulators agree with the lists they were built beside. */
  ghost predicate TotalsAgree(st: Lines) {
    && st.totals.productTotalValue == SumPrices(st.productsList)
    && st.totals.productCount == SumQuantities(st.productsList)
    && st.totals.serviceTotalValue == SumServicePrices(st.serviceList)
    && st.totals.serviceCount == SumServiceQuantities(st.serviceList)
    && st.totals.totalValue == st.totals.productTotalValue + st.totals.serviceTotalValue
    && st.totals.totalTransactions == |st.productsList| + |st.serviceList|
  }

  /** The details loop over `details` (lines 0 … |details|-1 of document `k`). */
  function DetailsRun(snap: Snapshot, k: nat, details: seq<Detalle>): Lines {
    if details == [] then NoLines
    else DetailStep(snap, k, |details| - 1, details[|details| - 1], DetailsRun(snap, k, details[..|details| - 1]))
  }

  /**
   * After the details loop the accumulators are the sums over the routed
   * lines, the document total is the product total plus the service total,
   * the transaction count is the number of routed lines, and one bucket write
   * was staged per routed line.
   */
  lemma {:induction false} DetailsRunTotals(snap: Snapshot, k: nat, details: seq<Detalle>)
    ensures TotalsAgree(DetailsRun(snap, k, details))
    ensures var st := DetailsRun(snap, k, details);
      |st.writes| == |st.productsList| + |st.serviceList| <= |details|
  {
    if details != [] {
      var prefix := details[..|details| - 1];
      DetailsRunTotals(snap, k, prefix);
      DetailStepKeepsTotals(snap, k, |details| - 1, details[|details| - 1], DetailsRun(snap, k, prefix));
    }
  }

  /** Routing one more detail keeps the accumulators equal to the sums over the lists. */
  lemma DetailStepKeepsTotals(snap: Snapshot, k: nat, j: nat, d: Detalle, st: Lines)
    requires TotalsAgree(st) && |st.writes| == |st.productsList| + |st.serviceList|
    ensures var r := DetailStep(snap, k, j, d, st);
      TotalsAgree(r) && |r.writes| == |r.productsList| + |r.serviceList| <= |st.writes| + 1
  {
    var r := DetailStep(snap, k, j, d, st);
    if ProductOf(snap, d).Some? {
      assert r.productsList[..|st.productsList|] == st.productsList;
    } else if ServiceOf(snap, d).Some? {
      assert r.serviceList[..|st.serviceList|] == st.serviceList;
    }
  }

  /** A detail that matches neither a product nor a service leaves the document's lines untouched. */
  lemma UnmatchedDetailIsDropped(snap: Snapshot, k: nat, details: seq<Detalle>, d: Detalle)
    requires ProductOf(snap, d).None? && ServiceOf(snap, d).None?
    ensures DetailsRun(snap, k, details + [d]) == DetailsRun(snap, k, details)
  {
    assert (details + [d])[..|details|] == details;
  }

  // ---------------------------------------------------------------------------
  // One document
  // ---------------------------------------------------------------------------

  function AddTotals(c: Counters, t: DocTotals): Counters {
    Counters(c.productTotalValue + t.productTotalValue, c.serviceTotalValue + t.serviceTotalValue,
             c.productCount + t.productCount, c.serviceCount + t.serviceCount,
             c.totalValue + t.totalValue, c.totalTransactions + t.totalTransactions)
  }

  function DimensionUpdate(snap: Snapshot, r: Resolution, t: DocTotals): seq<Write> {
    if r.target.Some? then [UpdateDimensionStat(r.target.value.ref, AddTotals(r.target.value.base, t), snap.now)] else []
  }

  /**
   * The dimension updates after the details loop: the global bucket, then the
   * store, advisor and client buckets that were resolved.
   */
  function DimensionWrites(snap: Snapshot, dims: Dimensions, t: DocTotals): seq<Write> {
    DimensionUpdate(snap, dims.global, t) + DimensionUpdate(snap, dims.store, t)
      + DimensionUpdate(snap, dims.asesor, t) + DimensionUpdate(snap, dims.client, t)
  }

  /**
   * The global bucket is always updated first, and every resolved store,
   * advisor or client bucket gets one update to the counters read for it
   * plus the document's totals.
   */
  lemma DimensionWritesShape(snap: Snapshot, dims: Dimensions, t: DocTotals)
    requires dims.global.target.Some?
    ensures var ws := DimensionWrites(snap, dims, t);
      && |ws| == 1 + (if dims.store.target.Some? then 1 else 0) + (if dims.asesor.target.Some? then 1 else 0)
                   + (if dims.client.target.Some? then 1 else 0)
      && ws[0] == UpdateDimensionStat(dims.global.target.value.ref, AddTotals(dims.global.target.value.base, t), snap.now)
      && (forall i :: 0 <= i < |ws| ==> ws[i].UpdateDimensionStat?)
      && (dims.store.target.Some? ==>
            UpdateDimensionStat(dims.store.target.value.ref, AddTotals(dims.store.target.value.base, t), snap.now) in ws)
      && (dims.asesor.target.Some? ==>
            UpdateDimensionStat(dims.asesor.target.value.ref, AddTotals(dims.asesor.target.value.base, t), snap.now) in ws)
      && (dims.client.target.Some? ==>
            UpdateDimensionStat(dims.client.target.value.ref, AddTotals(dims.client.target.value.base, t), snap.now) in ws)
  {
  }

  /** `orderNumber` of a new order: one more than the latest order's, or 1. */
  function NextOrderNumber(snap: Snapshot): (n: int)
    ensures snap.lastOrderNumber.None? ==> n == 1
    ensures snap.lastOrderNumber.Some? ==> n == snap.lastOrderNumber.value + 1
  {
    if snap.lastOrderNumber.Some? then snap.lastOrderNumber.value + 1 else 1
  }

  function LinkedTo(docs: seq<LinkedDoc>, doc: RemoteDoc): Option<LinkedDoc> {
    First(docs, (o: LinkedDoc) => o.idContifico == Some(doc.id))
  }

  /** `orderData` with `clientUserId` set to the client's user, if found. */
  function ProjectionOf(snap: Snapshot, doc: RemoteDoc): OrderData {
    OrderDataFor(doc).(clientUserId := UserWithCedula(snap, doc.clienteCedula))
  }

  /**
   * The order upsert: an existing order gets `orderData` only; otherwise an
   * order is created when some line is a product.
   */
  function OrderWrites(snap: Snapshot, k: nat, doc: RemoteDoc, productsList: seq<ProductLine>): (ws: seq<Write>)
    ensures LinkedTo(snap.orders, doc).Some? ==>
      ws == [UpdateOrder(Existing(LinkedTo(snap.orders, doc).value.id), ProjectionOf(snap, doc))]
    ensures LinkedTo(snap.orders, doc).None? && productsList != [] ==>
      ws == [CreateOrder(Fresh(k, OrderSlot), ProjectionOf(snap, doc), NEW_ORDER_DEFAULTS, productsList, NextOrderNumber(snap))]
    ensures LinkedTo(snap.orders, doc).None? && productsList == [] ==> ws == []
  {
    match LinkedTo(snap.orders, doc)
    case Some(o) => [UpdateOrder(Existing(o.id), ProjectionOf(snap, doc))]
    case None =>
      if productsList != [] then [CreateOrder(Fresh(k, OrderSlot), ProjectionOf(snap, doc), NEW_ORDER_DEFAULTS, productsList, NextOrderNumber(snap))]
      else []
  }

  /** The billed-service upsert, independent of the order upsert. */
  function BilledWrites(snap: Snapshot, k: nat, doc: RemoteDoc, serviceList: seq<ServiceLine>): (ws: seq<Write>)
    ensures LinkedTo(snap.billed, doc).Some? ==>
      ws == [UpdateBilled(Existing(LinkedTo(snap.billed, doc).value.id), ProjectionOf(snap, doc))]
    ensures LinkedTo(snap.billed, doc).None? && serviceList != [] ==>
      ws == [CreateBilled(Fresh(k, BilledSlot), ProjectionOf(snap, doc), serviceList)]
    ensures LinkedTo(snap.billed, doc).None? && serviceList == [] ==> ws == []
  {
    match LinkedTo(snap.billed, doc)
    case Some(b) => [UpdateBilled(Existing(b.id), ProjectionOf(snap, doc))]
    case None => if serviceList != [] then [CreateBilled(Fresh(k, BilledSlot), ProjectionOf(snap, doc), serviceList)] else []
  }

  /**
   * What a document stages, given its resolved buckets and its details loop:
   * the bucket creates, the line writes, the dimension updates, the order
   * upsert and the billed-service upsert, in that order.
   */
  function StagedFor(snap: Snapshot, k: nat, doc: RemoteDoc, dims: Dimensions, lines: Lines): seq<Write>
    requires dims.global.target.Some?
  {
    dims.global.creates + dims.store.creates + dims.asesor.creates + dims.client.creates
      + lines.writes
      + DimensionWrites(snap, dims, lines.totals)
      + OrderWrites(snap, k, doc, lines.productsList)
      + BilledWrites(snap, k, doc, lines.serviceList)
  }

  /** Everything document `k` stages, in the order it is staged. */
  function DocWrites(snap: Snapshot, k: nat, doc: RemoteDoc): seq<Write> {
    StagedFor(snap, k, doc, DimensionsOf(snap, k, doc), DetailsRun(snap, k, doc.detalles))
  }

  /** Everything the run stages for `docs`, in order. */
  function RunWrites(snap: Snapshot, docs: seq<RemoteDoc>): seq<Write> {
    if docs == [] then [] else RunWrites(snap, docs[..|docs| - 1]) + DocWrites(snap, |docs| - 1, docs[|docs| - 1])
  }

  // ---------------------------------------------------------------------------
  // The run as the service executes it
  // ---------------------------------------------------------------------------

  /**
   * The body of the details loop for line `j`: the product lookup, then (only
   * without a product) the service lookup, the list and accumulator updates
   * and the bucket write.
   */
  method RouteDetail(snap: Snapshot, k: nat, j: nat, detalle: Detalle, st: Lines) returns (r: Lines)
    ensures r == DetailStep(snap, k, j, detalle, st)
  {
    var current := st.totals;
    var product := ProductOf(snap, detalle);
    if product.Some? {
      var detailTotalPrice := LineTotal(detalle);
      var productsList := st.productsList + [ProductLine(product.value.id, detalle.cantidad, detailTotalPrice)];
      current := current.(productTotalValue := current.productTotalValue + detailTotalPrice,
                          productCount := current.productCount + detalle.cantidad,
                          totalValue := current.totalValue + detailTotalPrice,
                          totalTransactions := current.totalTransactions + 1);
      var w := ProductBucketWrite(snap, k, j, product.value.id, detalle);
      return Lines(productsList, st.serviceList, current, st.writes + [w]);
    }
    var service := ServiceOf(snap, detalle);
    if service.Some? {
      var detailTotalPrice := LineTotal(detalle);
      var serviceList := st.serviceList + [ServiceLine(service.value.id, detalle.cantidad, detailTotalPrice)];
      current := current.(serviceTotalValue := current.serviceTotalValue + detailTotalPrice,
                          serviceCount := current.serviceCount + detalle.cantidad,
                          totalValue := current.totalValue + detailTotalPrice,
                          totalTransactions := current.totalTransactions + 1);
      var w := ServiceBucketWrite(snap, k, j, service.value.id, detalle);
      return Lines(st.productsList, serviceList, current, st.writes + [w]);
    }
    return st;
  }

  /**
   * The details loop of one document. `lines` holds `productsList`,
   * `serviceList`, the `currentDoc…` accumulators and the bucket writes
   * staged by this loop.
   */
  method ProcessDetails(snap: Snapshot, k: nat, details: seq<Detalle>) returns (lines: Lines)
    ensures lines == DetailsRun(snap, k, details)
  {
    lines := NoLines;
    for j := 0 to |details|
      invariant lines == DetailsRun(snap, k, details[..j])
    {
      assert details[..j + 1][..j] == details[..j];
      lines := RouteDetail(snap, k, j, details[j], lines);
    }
    assert details[..|details|] == details;
  }

  /** Staging pieces one after another stages their concatenation. */
  lemma StagedInOrder(batch: seq<Write>, a: seq<Write>, b: seq<Write>, c: seq<Write>, d: seq<Write>,
                      e: seq<Write>, f: seq<Write>, g: seq<Write>, h: seq<Write>)
    ensures batch + a + b + c + d + e + f + g + h == batch + (a + b + c + d + e + f + g + h)
  {
  }

  /** The body of the documents loop: stages everything document `k` writes. */
  method ProcessDocument(snap: Snapshot, k: nat, doc: RemoteDoc, batch: seq<Write>) returns (batch': seq<Write>)
    ensures batch' == batch + DocWrites(snap, k, doc)
  {
    var dims := DimensionsOf(snap, k, doc);
    batch' := batch + dims.global.creates + dims.store.creates + dims.asesor.creates + dims.client.creates;
    var lines := ProcessDetails(snap, k, doc.detalles);
    batch' := batch' + lines.writes;
    var dimensionWrites := DimensionWrites(snap, dims, lines.totals);
    var orderWrites := OrderWrites(snap, k, doc, lines.productsList);
    var billedWrites := BilledWrites(snap, k, doc, lines.serviceList);
    batch' := batch' + dimensionWrites + orderWrites + billedWrites;
    StagedInOrder(batch, dims.global.creates, dims.store.creates, dims.asesor.creates, dims.client.creates,
                  lines.writes, dimensionWrites, orderWrites, billedWrites);
  }

  /** The documents loop: stages every document's writes into the one batch. */
  method ProcessDocuments(snap: Snapshot, docs: seq<RemoteDoc>) returns (batch: seq<Write>)
    ensures batch == RunWrites(snap, docs)
  {
    batch := [];
    for k := 0 to |docs|
      invariant batch == RunWrites(snap, docs[..k])
    {
      RunWritesNext(snap, docs, k);
      batch := ProcessDocument(snap, k, docs[k], batch);
    }
    assert docs[..|docs|] == docs;
  }

  /** The run over one more document stages that document's writes after the earlier ones. */
  lemma RunWritesNext(snap: Snapshot, docs: seq<RemoteDoc>, k: nat)
    requires k < |docs|
    ensures RunWrites(snap, docs[..k + 1]) == RunWrites(snap, docs[..k]) + DocWrites(snap, k, docs[k])
  {
    assert docs[..k + 1][..k] == docs[..k];
  }

  const FETCH_ERROR_MESSAGE := "Error al obtener documentos de Contifico"

  /** The message the run returns after committing `count` documents. */
  function SuccessMessage(count: nat): string {
    NatToString(count) + " documentos guardados o actualizados correctamente"
  }

  /**
   * `contificoDocuments`. `fetched` is the day's documents or the failure of
   * the GET; `commitError` is the message of a failed `batch.commit()`, if it
   * fails. Returns the staged batch, what was committed, and the result.
   */
  method ContificoDocumentsRun(snap: Snapshot, fetched: Result<seq<RemoteDoc>, string>, commitError: Option<string>)
    returns (batch: seq<Write>, committed: seq<Write>, result: Result<string, HttpError>)
    ensures fetched.Err? ==> committed == [] && result == Err(HttpError(INTERNAL_SERVER_ERROR, FETCH_ERROR_MESSAGE))
    ensures fetched.Ok? ==> batch == RunWrites(snap, fetched.value)
    ensures fetched.Ok? && commitError.None? ==>
      committed == batch && result == Ok(SuccessMessage(|fetched.value|))
    ensures fetched.Ok? && commitError.Some? ==>
      committed == [] &&
      result == Err(HttpError(INTERNAL_SERVER_ERROR, TextOr(commitError.value, DEFAULT_ERROR_MESSAGE)))
  {
    batch, committed := [], [];
    if fetched.Err? {
      return batch, committed, Err(HttpError(INTERNAL_SERVER_ERROR, FETCH_ERROR_MESSAGE));
    }
    var docs := fetched.value;
    batch := ProcessDocuments(snap, docs);
    if commitError.Some? {
      var message := TextOr(commitError.value, DEFAULT_ERROR_MESSAGE);
      return batch, committed, Err(HttpError(INTERNAL_SERVER_ERROR, message));
    }
    committed := batch;
    result := Ok(SuccessMessage(|docs|));
  }

  // ---------------------------------------------------------------------------
  // What the committed batch leaves in one bucket
  // ---------------------------------------------------------------------------

  /**
   * The counters stored under `ref` after one write of the committed batch:
   * a create stores its record, an update overwrites the fields it names, and
   * writes to other documents change nothing.
   */
  function ApplyWrite(ref: DocRef, c: Option<Counters>, w: Write): (r: Option<Counters>)
    ensures !IsStatWrite(w) || w.ref != ref ==> r == c
  {
    if !IsStatWrite(w) || w.ref != ref then c
    else match w
      case CreateStat(_, record) => Some(record.counters)
      case UpdateProductStat(_, totalValue, productTotalValue, productCount, totalTransactions, _) =>
        if c.Some? then Some(c.value.(totalValue := totalValue, productTotalValue := productTotalValue,
                                      productCount := productCount, totalTransactions := totalTransactions))
        else None
      case UpdateServiceStat(_, totalValue, serviceTotalValue, serviceCount, totalTransactions, _) =>
        if c.Some? then Some(c.value.(totalValue := totalValue, serviceTotalValue := serviceTotalValue,
                                      serviceCount := serviceCount, totalTransactions := totalTransactions))
        else None
      case UpdateDimensionStat(_, counters, _) => if c.Some? then Some(counters) else None
      case _ => c
  }

  /** The counters stored under `ref` once the writes `ws` are committed, in order, over `c`. */
  function Stored(ref: DocRef, c: Option<Counters>, ws: seq<Write>): Option<Counters> {
    if ws == [] then c else ApplyWrite(ref, Stored(ref, c, ws[..|ws| - 1]), ws[|ws| - 1])
  }

  lemma {:induction false} StoredAppend(ref: DocRef, c: Option<Counters>, a: seq<Write>, b: seq<Write>)
    ensures Stored(ref, c, a + b) == Stored(ref, Stored(ref, c, a), b)
    decreases |b|
  {
    if b != [] {
      assert (a + b)[..|a + b| - 1] == a + b[..|b| - 1];
      StoredAppend(ref, c, a, b[..|b| - 1]);
    } else {
      assert a + b == a;
    }
  }

  /** Writes none of which touches `ref` leave it as it was. */
  lemma {:induction false} StoredUntouched(ref: DocRef, c: Option<Counters>, ws: seq<Write>)
    requires forall i :: 0 <= i < |ws| ==> !IsStatWrite(ws[i]) || ws[i].ref != ref
    ensures Stored(ref, c, ws) == c
  {
    if ws != [] {
      StoredUntouched(ref, c, ws[..|ws| - 1]);
    }
  }

  /**
   * A product line's bucket after commit: a bucket missing from the snapshot
   * holds exactly the line's contribution and one transaction; an existing one
   * holds the snapshot counters plus the line, its service counters untouched.
   */
  lemma ProductBucketAfterCommit(snap: Snapshot, k: nat, j: nat, p: string, d: Detalle)
    ensures FindBucket(snap, ByProduct(p)).None? ==>
      Stored(Fresh(k, ProductSlot(j)), None, [ProductBucketWrite(snap, k, j, p, d)])
        == Some(Counters(LineTotal(d), 0.0, d.cantidad, 0.0, LineTotal(d), 1))
    ensures FindBucket(snap, ByProduct(p)).Some? ==>
      var b := FindBucket(snap, ByProduct(p)).value;
      Stored(Existing(b.id), Some(b.counters), [ProductBucketWrite(snap, k, j, p, d)])
        == Some(b.counters.(totalValue := b.counters.totalValue + LineTotal(d),
                            productTotalValue := b.counters.productTotalValue + LineTotal(d),
                            productCount := b.counters.productCount + d.cantidad,
                            totalTransactions := b.counters.totalTransactions + 1))
  {
    assert [ProductBucketWrite(snap, k, j, p, d)][..0] == [];
  }

  /** The service-line counterpart of ProductBucketAfterCommit. */
  lemma ServiceBucketAfterCommit(snap: Snapshot, k: nat, j: nat, s: string, d: Detalle)
    ensures FindBucket(snap, ByService(s)).None? ==>
      Stored(Fresh(k, ServiceSlot(j)), None, [ServiceBucketWrite(snap, k, j, s, d)])
        == Some(Counters(0.0, LineTotal(d), 0.0, d.cantidad, LineTotal(d), 1))
    ensures FindBucket(snap, ByService(s)).Some? ==>
      var b := FindBucket(snap, ByService(s)).value;
      Stored(Existing(b.id), Some(b.counters), [ServiceBucketWrite(snap, k, j, s, d)])
        == Some(b.counters.(totalValue := b.counters.totalValue + LineTotal(d),
                            serviceTotalValue := b.counters.serviceTotalValue + LineTotal(d),
                            serviceCount := b.counters.serviceCount + d.cantidad,
                            totalTransactions := b.counters.totalTransactions + 1))
  {
    assert [ServiceBucketWrite(snap, k, j, s, d)][..0] == [];
  }

  // ---------------------------------------------------------------------------
  // Reads see the snapshot, not the batch
  // ---------------------------------------------------------------------------

  /** The bucket query returns a bucket of the snapshot, and none only when no bucket matches. */
  lemma FindBucketFinds(snap: Snapshot, key: Dimension)
    ensures FindBucket(snap, key).Some? ==>
      FindBucket(snap, key).value in snap.stats && IsBucket(snap, key, FindBucket(snap, key).value)
    ensures FindBucket(snap, key).None? <==> forall i :: 0 <= i < |snap.stats| ==> !IsBucket(snap, key, snap.stats[i])
  {
    FirstFinds(snap.stats, s => IsBucket(snap, key, s));
  }

  /** Document ids are unique within `monthlyStatistics`. */
  ghost predicate DistinctStatIds(snap: Snapshot) {
    forall a, b :: a in snap.stats && b in snap.stats && a.id == b.id ==> a == b
  }

  /** A reference to a new document, or to a snapshot bucket that is not the global one. */
  ghost predicate OffGlobal(snap: Snapshot, r: DocRef) {
    r.Fresh? || exists b :: b in snap.stats && r == Existing(b.id) && !IsBucket(snap, Global, b)
  }

  /** The bucket found for a store, advisor, client, product or service is not a global bucket. */
  lemma KeyedBucketOffGlobal(snap: Snapshot, key: Dimension)
    requires !key.Global? && FindBucket(snap, key).Some?
    ensures OffGlobal(snap, Existing(FindBucket(snap, key).value.id))
  {
    FindBucketFinds(snap, key);
  }

  lemma OffGlobalIsNotGlobal(snap: Snapshot, r: DocRef, g: StatDoc)
    requires DistinctStatIds(snap) && g in snap.stats && IsBucket(snap, Global, g) && OffGlobal(snap, r)
    ensures r != Existing(g.id)
  {
  }

  /**
   * A write of the details loop: a bucket write for a product or service, to
   * a new document of line slot of document `k` or to a non-global bucket of
   * the snapshot.
   */
  ghost predicate LineWrite(snap: Snapshot, k: nat, w: Write) {
    && IsStatWrite(w) && OffGlobal(snap, w.ref)
    && (w.ref.Fresh? ==> w.ref.doc == k && (w.ref.slot.ProductSlot? || w.ref.slot.ServiceSlot?))
  }

  lemma {:induction false} LineWritesOffGlobal(snap: Snapshot, k: nat, details: seq<Detalle>)
    ensures forall w :: w in DetailsRun(snap, k, details).writes ==> LineWrite(snap, k, w)
  {
    if details != [] {
      var prefix := details[..|details| - 1];
      var d := details[|details| - 1];
      var j := |details| - 1;
      LineWritesOffGlobal(snap, k, prefix);
      var prev := DetailsRun(snap, k, prefix);
      assert DetailsRun(snap, k, details) == DetailStep(snap, k, j, d, prev);
      match ProductOf(snap, d)
      case Some(p) =>
        if FindBucket(snap, ByProduct(p.id)).Some? {
          KeyedBucketOffGlobal(snap, ByProduct(p.id));
        }
        assert LineWrite(snap, k, ProductBucketWrite(snap, k, j, p.id, d));
      case None =>
        match ServiceOf(snap, d)
        case Some(sv) =>
          if FindBucket(snap, ByService(sv.id)).Some? {
            KeyedBucketOffGlobal(snap, ByService(sv.id));
          }
          assert LineWrite(snap, k, ServiceBucketWrite(snap, k, j, sv.id, d));
        case None =>
          assert DetailsRun(snap, k, details).writes == prev.writes;
    }
  }

  /** A resolution creates new documents only. */
  ghost predicate CreatesFresh(r: Resolution) {
    forall i :: 0 <= i < |r.creates| ==> r.creates[i].CreateStat? && r.creates[i].ref.Fresh?
  }

  /** A resolution that creates new documents only, and whose target is not the bucket `g`. */
  ghost predicate ApartFrom(r: Resolution, g: StatDoc) {
    CreatesFresh(r) && (r.target.Some? ==> r.target.value.ref != Existing(g.id))
  }

  lemma ResolveCreatesFresh(snap: Snapshot, doc: nat, slot: Slot, key: Option<Dimension>)
    ensures CreatesFresh(Resolve(snap, doc, slot, key))
  {
  }

  /** A store, advisor or client resolution never lands on a global bucket. */
  lemma KeyedResolutionApart(snap: Snapshot, doc: nat, slot: Slot, key: Option<Dimension>, g: StatDoc)
    requires DistinctStatIds(snap) && g in snap.stats && IsBucket(snap, Global, g)
    requires key.Some? ==> !key.value.Global?
    ensures ApartFrom(Resolve(snap, doc, slot, key), g)
  {
    if key.Some? && FindBucket(snap, key.value).Some? {
      KeyedBucketOffGlobal(snap, key.value);
      OffGlobalIsNotGlobal(snap, Existing(FindBucket(snap, key.value).value.id), g);
    }
  }

  /** What a document's resolutions are, seen from the global bucket `g`. */
  ghost predicate DimensionsApart(dims: Dimensions, g: StatDoc) {
    && CreatesFresh(dims.global)
    && ApartFrom(dims.store, g) && ApartFrom(dims.asesor, g) && ApartFrom(dims.client, g)
  }

  lemma DocumentDimensionsApart(snap: Snapshot, k: nat, doc: RemoteDoc, g: StatDoc)
    requires DistinctStatIds(snap) && g in snap.stats && IsBucket(snap, Global, g)
    ensures DimensionsApart(DimensionsOf(snap, k, doc), g)
  {
    ResolveCreatesFresh(snap, k, GlobalSlot, Some(Global));
    KeyedResolutionApart(snap, k, StoreSlot, KeyOf(StoreOf(snap, doc), id => ByStore(id)), g);
    KeyedResolutionApart(snap, k, AsesorSlot, KeyOf(UserWithCedula(snap, doc.vendedorCedula), id => ByAsesor(id)), g);
    KeyedResolutionApart(snap, k, ClientSlot, KeyOf(UserWithCedula(snap, doc.clienteCedula), id => ByClient(id)), g);
  }

  /** The bucket creates and the line writes of a document leave the global bucket alone. */
  lemma CreatesAndLinesOffGlobal(snap: Snapshot, k: nat, dims: Dimensions, lineWrites: seq<Write>, g: StatDoc)
    requires DistinctStatIds(snap) && g in snap.stats && IsBucket(snap, Global, g)
    requires DimensionsApart(dims, g)
    requires forall w :: w in lineWrites ==> LineWrite(snap, k, w)
    ensures var before := dims.global.creates + dims.store.creates + dims.asesor.creates + dims.client.creates
                          + lineWrites;
      forall i :: 0 <= i < |before| ==> !IsStatWrite(before[i]) || before[i].ref != Existing(g.id)
  {
    var creates := dims.global.creates + dims.store.creates + dims.asesor.creates + dims.client.creates;
    assert forall i :: 0 <= i < |creates| ==> creates[i].ref.Fresh?;
    var before := creates + lineWrites;
    forall i | 0 <= i < |before| ensures !IsStatWrite(before[i]) || before[i].ref != Existing(g.id) {
      if i >= |creates| {
        assert before[i] in lineWrites by {
          assert before[i] == lineWrites[i - |creates|];
        }
        OffGlobalIsNotGlobal(snap, before[i].ref, g);
      }
    }
  }

  /**
   * The dimension updates of a document leave the global bucket holding the
   * counters read for it plus the document's totals.
   */
  lemma DimensionWritesSetGlobal(snap: Snapshot, dims: Dimensions, t: DocTotals, g: StatDoc, c: Counters)
    requires dims.global.target == Some(Target(Existing(g.id), g.counters)) && DimensionsApart(dims, g)
    ensures Stored(Existing(g.id), Some(c), DimensionWrites(snap, dims, t)) == Some(AddTotals(g.counters, t))
  {
    var ref := Existing(g.id);
    var first := DimensionUpdate(snap, dims.global, t);
    var others := DimensionUpdate(snap, dims.store, t) + DimensionUpdate(snap, dims.asesor, t)
                  + DimensionUpdate(snap, dims.client, t);
    assert first == [UpdateDimensionStat(ref, AddTotals(g.counters, t), snap.now)];
    assert Stored(ref, Some(c), first) == Some(AddTotals(g.counters, t)) by {
      assert first[..0] == [];
    }
    StoredUntouched(ref, Some(AddTotals(g.counters, t)), others);
    assert DimensionWrites(snap, dims, t) == first + others;
    StoredAppend(ref, Some(c), first, others);
  }

  /**
   * Committing writes that leave `ref` alone, then writes that set it to `r`,
   * then two more groups that leave it alone, leaves `r` in it.
   */
  lemma StoredThroughGroups(ref: DocRef, c: Option<Counters>, before: seq<Write>, middle: seq<Write>,
                            after1: seq<Write>, after2: seq<Write>, r: Option<Counters>)
    requires Stored(ref, c, before) == c && Stored(ref, c, middle) == r
    requires Stored(ref, r, after1) == r && Stored(ref, r, after2) == r
    ensures Stored(ref, c, before + middle + after1 + after2) == r
  {
    StoredAppend(ref, c, before, middle);
    StoredAppend(ref, c, before + middle, after1);
    StoredAppend(ref, c, before + middle + after1, after2);
  }

  /**
   * Committing what a document stages, when its global bucket is `g` and
   * every other write is off `g`, leaves `g` at the counters read for it plus
   * the document's totals.
   */
  lemma StagedSetsGlobal(snap: Snapshot, k: nat, doc: RemoteDoc, dims: Dimensions, lines: Lines, g: StatDoc, c: Counters)
    requires DistinctStatIds(snap) && g in snap.stats && IsBucket(snap, Global, g)
    requires dims.global.target == Some(Target(Existing(g.id), g.counters)) && DimensionsApart(dims, g)
    requires forall w :: w in lines.writes ==> LineWrite(snap, k, w)
    ensures Stored(Existing(g.id), Some(c), StagedFor(snap, k, doc, dims, lines)) == Some(AddTotals(g.counters, lines.totals))
  {
    var ref := Existing(g.id);
    var r := Some(AddTotals(g.counters, lines.totals));
    var before := dims.global.creates + dims.store.creates + dims.asesor.creates + dims.client.creates + lines.writes;
    CreatesAndLinesOffGlobal(snap, k, dims, lines.writes, g);
    StoredUntouched(ref, Some(c), before);
    DimensionWritesSetGlobal(snap, dims, lines.totals, g, c);
    StoredUntouched(ref, r, OrderWrites(snap, k, doc, lines.productsList));
    StoredUntouched(ref, r, BilledWrites(snap, k, doc, lines.serviceList));
    StoredThroughGroups(ref, Some(c), before, DimensionWrites(snap, dims, lines.totals),
                        OrderWrites(snap, k, doc, lines.productsList), BilledWrites(snap, k, doc, lines.serviceList), r);
  }

  /**
   * When the global bucket exists, committing one document's writes leaves it
   * holding the snapshot counters plus that document's totals, whatever it
   * held before: the update is computed from the snapshot read.
   */
  lemma DocumentOverwritesGlobal(snap: Snapshot, k: nat, doc: RemoteDoc, c: Counters)
    requires DistinctStatIds(snap) && FindBucket(snap, Global).Some?
    ensures var g := FindBucket(snap, Global).value;
      Stored(Existing(g.id), Some(c), DocWrites(snap, k, doc))
        == Some(AddTotals(g.counters, DetailsRun(snap, k, doc.detalles).totals))
  {
    var g := FindBucket(snap, Global).value;
    FindBucketFinds(snap, Global);
    DocumentDimensionsApart(snap, k, doc, g);
    LineWritesOffGlobal(snap, k, doc.detalles);
    StagedSetsGlobal(snap, k, doc, DimensionsOf(snap, k, doc), DetailsRun(snap, k, doc.detalles), g, c);
  }

  /**
   * Last update wins: with the global bucket in the snapshot, the committed
   * run leaves it holding the snapshot counters plus the LAST document's
   * totals only; every earlier document's contribution is lost.
   */
  lemma {:induction false} LastUpdateWins(snap: Snapshot, docs: seq<RemoteDoc>)
    requires DistinctStatIds(snap) && FindBucket(snap, Global).Some? && docs != []
    ensures var g := FindBucket(snap, Global).value;
      Stored(Existing(g.id), Some(g.counters), RunWrites(snap, docs))
        == Some(AddTotals(g.counters, DetailsRun(snap, |docs| - 1, docs[|docs| - 1].detalles).totals))
  {
    var g := FindBucket(snap, Global).value;
    var prefix := docs[..|docs| - 1];
    var last := |docs| - 1;
    var c := if prefix == [] then g.counters
             else AddTotals(g.counters, DetailsRun(snap, |prefix| - 1, prefix[|prefix| - 1].detalles).totals);
    if prefix != [] {
      LastUpdateWins(snap, prefix);
    }
    assert Stored(Existing(g.id), Some(g.counters), RunWrites(snap, prefix)) == Some(c);
    StoredAppend(Existing(g.id), Some(g.counters), RunWrites(snap, prefix), DocWrites(snap, last, docs[last]));
    DocumentOverwritesGlobal(snap, last, docs[last], c);
  }

  /** Every write a document stages is among the run's writes. */
  lemma {:induction false} RunWritesHoldDocument(snap: Snapshot, docs: seq<RemoteDoc>, k: nat)
    requires k < |docs|
    ensures forall w :: w in DocWrites(snap, k, docs[k]) ==> w in RunWrites(snap, docs)
  {
    var prefix := docs[..|docs| - 1];
    if k < |docs| - 1 {
      RunWritesHoldDocument(snap, prefix, k);
      assert prefix[k] == docs[k];
    }
  }

  /**
   * A global bucket missing from the snapshot is created anew for every
   * document of the run, each under its own new reference.
   */
  lemma GlobalBucketCreatedPerDocument(snap: Snapshot, docs: seq<RemoteDoc>, k: nat)
    requires FindBucket(snap, Global).None? && k < |docs|
    ensures CreateStat(Fresh(k, GlobalSlot), ZeroRecord(snap, Global)) in RunWrites(snap, docs)
  {
    RunWritesHoldDocument(snap, docs, k);
    assert DocWrites(snap, k, docs[k])[0] == CreateStat(Fresh(k, GlobalSlot), ZeroRecord(snap, Global));
  }

  /** A document's only order creates are those of its order upsert. */
  lemma OrderCreatesFromUpsert(snap: Snapshot, k: nat, doc: RemoteDoc)
    ensures forall w :: w in DocWrites(snap, k, doc) && w.CreateOrder? ==>
      w in OrderWrites(snap, k, doc, DetailsRun(snap, k, doc.detalles).productsList)
  {
    var dims := DimensionsOf(snap, k, doc);
    var lines := DetailsRun(snap, k, doc.detalles);
    LineWritesOffGlobal(snap, k, doc.detalles);
    ResolveCreatesFresh(snap, k, GlobalSlot, Some(Global));
    ResolveCreatesFresh(snap, k, StoreSlot, KeyOf(StoreOf(snap, doc), id => ByStore(id)));
    ResolveCreatesFresh(snap, k, AsesorSlot, KeyOf(UserWithCedula(snap, doc.vendedorCedula), id => ByAsesor(id)));
    ResolveCreatesFresh(snap, k, ClientSlot, KeyOf(UserWithCedula(snap, doc.clienteCedula), id => ByClient(id)));
    var creates := dims.global.creates + dims.store.creates + dims.asesor.creates + dims.client.creates;
    var dimensionWrites := DimensionWrites(snap, dims, lines.totals);
    var orderWrites := OrderWrites(snap, k, doc, lines.productsList);
    var billedWrites := BilledWrites(snap, k, doc, lines.serviceList);
    assert DocWrites(snap, k, doc) == creates + lines.writes + dimensionWrites + orderWrites + billedWrites;
    forall w | w in DocWrites(snap, k, doc) && w.CreateOrder? ensures w in orderWrites {
      assert w !in creates;
      assert w !in lines.writes;
      assert w !in dimensionWrites;
      assert w !in billedWrites;
    }
  }

  /** The only order a document creates is its own, numbered one past the snapshot's latest. */
  lemma DocumentOrderNumber(snap: Snapshot, k: nat, doc: RemoteDoc)
    ensures forall w :: w in DocWrites(snap, k, doc) && w.CreateOrder? ==>
      w.orderNumber == NextOrderNumber(snap) && w.ref == Fresh(k, OrderSlot)
  {
    OrderCreatesFromUpsert(snap, k, doc);
  }

  /**
   * Every order the run creates carries the same `orderNumber`: the snapshot's
   * latest plus one, never advanced between documents.
   */
  lemma {:induction false} NewOrdersShareNumber(snap: Snapshot, docs: seq<RemoteDoc>)
    ensures forall w :: w in RunWrites(snap, docs) && w.CreateOrder? ==> w.orderNumber == NextOrderNumber(snap)
  {
    if docs != [] {
      NewOrdersShareNumber(snap, docs[..|docs| - 1]);
      DocumentOrderNumber(snap, |docs| - 1, docs[|docs| - 1]);
    }
  }

  /** Two documents of one run that both create an order create two orders with one number. */
  lemma TwoNewOrdersCollide(snap: Snapshot, docs: seq<RemoteDoc>, i: nat, j: nat)
    requires i < j < |docs|
    requires LinkedTo(snap.orders, docs[i]).None? && DetailsRun(snap, i, docs[i].detalles).productsList != []
    requires LinkedTo(snap.orders, docs[j]).None? && DetailsRun(snap, j, docs[j].detalles).productsList != []
    ensures CreateOrder(Fresh(i, OrderSlot), ProjectionOf(snap, docs[i]), NEW_ORDER_DEFAULTS,
                        DetailsRun(snap, i, docs[i].detalles).productsList, NextOrderNumber(snap)) in RunWrites(snap, docs)
    ensures CreateOrder(Fresh(j, OrderSlot), ProjectionOf(snap, docs[j]), NEW_ORDER_DEFAULTS,
                        DetailsRun(snap, j, docs[j].detalles).productsList, NextOrderNumber(snap)) in RunWrites(snap, docs)
  {
    RunWritesHoldDocument(snap, docs, i);
    RunWritesHoldDocument(snap, docs, j);
    var wsI := DocWrites(snap, i, docs[i]);
    var wsJ := DocWrites(snap, j, docs[j]);
    var linesI := DetailsRun(snap, i, docs[i].detalles);
    var linesJ := DetailsRun(snap, j, docs[j].detalles);
    assert OrderWrites(snap, i, docs[i], linesI.productsList)[0] in wsI;
    assert OrderWrites(snap, j, docs[j], linesJ.productsList)[0] in wsJ;
  }

  /** The order and billed-service upserts are independent: one document can create both. */
  lemma OrderAndBilledTogether(snap: Snapshot, k: nat, doc: RemoteDoc)
    requires LinkedTo(snap.orders, doc).None? && LinkedTo(snap.billed, doc).None?
    requires DetailsRun(snap, k, doc.detalles).productsList != [] && DetailsRun(snap, k, doc.detalles).serviceList != []
    ensures var lines := DetailsRun(snap, k, doc.detalles);
      && CreateOrder(Fresh(k, OrderSlot), ProjectionOf(snap, doc), NEW_ORDER_DEFAULTS, lines.productsList, NextOrderNumber(snap))
           in DocWrites(snap, k, doc)
      && CreateBilled(Fresh(k, BilledSlot), ProjectionOf(snap, doc), lines.serviceList) in DocWrites(snap, k, doc)
  {
    var lines := DetailsRun(snap, k, doc.detalles);
    var ws := DocWrites(snap, k, doc);
    assert ws[|ws| - 1] == CreateBilled(Fresh(k, BilledSlot), ProjectionOf(snap, doc), lines.serviceList);
    assert ws[|ws| - 2] == CreateOrder(Fresh(k, OrderSlot), ProjectionOf(snap, doc), NEW_ORDER_DEFAULTS, lines.productsList, NextOrderNumber(snap));
  }

  /**
   * An order already linked to the document is only given the new `orderData`:
   * the document creates no order, and its update carries no product list
   * or workflow fields.
   */
  lemma ExistingOrderOnlyProjected(snap: Snapshot, k: nat, doc: RemoteDoc)
    requires LinkedTo(snap.orders, doc).Some?
    ensures forall w :: w in DocWrites(snap, k, doc) ==> !w.CreateOrder?
    ensures UpdateOrder(Existing(LinkedTo(snap.orders, doc).value.id), ProjectionOf(snap, doc)) in DocWrites(snap, k, doc)
  {
    OrderCreatesFromUpsert(snap, k, doc);
    var lines := DetailsRun(snap, k, doc.detalles);
    var ws := DocWrites(snap, k, doc);
    assert OrderWrites(snap, k, doc, lines.productsList)[0] in ws;
  }
}

=== FILE: contifico_mapping.dfy ===
/**
 * How a Contifico sales document is read: its date strings, its status and
 * payment codes, the store code inside its number, and the `orderData`
 * projection every order and billed-service record is written from.
 */
module ContificoMapping {
  import opened Wrappers
  import opened Text

  /** A payment (`cobro`) attached to a Contifico document. */
  datatype Cobro = Cobro(numeroComprobante: string, fecha: string, formaCobro: string)

  /** A line item: the Contifico product id, unit price and quantity. */
  datatype Detalle = Detalle(productoId: string, precio: real, cantidad: real)

  /**
   * A sales document as Contifico returns it. Amounts arrive as numbers
   * (`Number(...)` on them is the identity here); `iva` may be absent.
   */
  datatype RemoteDoc = RemoteDoc(
    id: string,
    fechaEmision: string,
    urlRide: Option<string>,
    estado: string,
    subtotal12: real,
    iva: Option<real>,
    total: real,
    cobros: seq<Cobro>,
    documento: string,
    vendedorCedula: string,
    clienteCedula: string,
    detalles: seq<Detalle>)

  // ---------------------------------------------------------------------------
  // convertToDate
  // ---------------------------------------------------------------------------

  /** The text of an element `parts[i]` in a template literal: `undefined` past the end. */
  function PieceOrUndefined(parts: seq<string>, i: nat): string {
    if i < |parts| then parts[i] else "undefined"
  }

  /**
   * `convertToDate`: the `DD/MM/YYYY` text is split on '/' and re-assembled as
   * `${year}-${month}-${day}`, the text handed to `new Date(...)`.
   */
  function ConvertToDate(dateString: string): (iso: string)
  {
    var parts := Split(dateString, '/');
    PieceOrUndefined(parts, 2) + "-" + PieceOrUndefined(parts, 1) + "-" + PieceOrUndefined(parts, 0)
  }

  /** A well-formed `DD/MM/YYYY` date becomes `YYYY-MM-DD`. */
  lemma ConvertToDateReorders(day: string, month: string, year: string)
    requires !Contains(day, '/') && !Contains(month, '/') && !Contains(year, '/')
    ensures ConvertToDate(day + "/" + month + "/" + year) == year + "-" + month + "-" + day
  {
    var parts := [day, month, year];
    SplitJoin(parts, '/');
    assert Join(parts, '/') == day + "/" + month + "/" + year by {
      assert parts[1..] == [month, year] && [month, year][1..] == [year];
      assert Join([month, year], '/') == month + ['/'] + year;
      assert Join(parts, '/') == day + ['/'] + (month + ['/'] + year);
    }
  }

  /** A date with no '/' at all keeps its text as the day; month and year read `undefined`. */
  lemma ConvertToDateWithoutSlashes(s: string)
    requires !Contains(s, '/')
    ensures ConvertToDate(s) == "undefined" + "-" + "undefined" + "-" + s
  {
    SplitHead(s, '/');
  }

  // ---------------------------------------------------------------------------
  // Status and payment codes
  // ---------------------------------------------------------------------------

  datatype OrderStatus = PagoPendiente | PagoPorValidar | EnProceso | Cancelado | Enviado | Completado

  /** The `orderStatus` of a document `estado`: five known codes, everything else is completed. */
  function StatusFor(estado: string): OrderStatus {
    if estado == "P" then PagoPendiente
    else if estado == "C" then PagoPorValidar
    else if estado == "G" then EnProceso
    else if estado == "A" then Cancelado
    else if estado == "E" then Enviado
    else Completado
  }

  /** The Contifico code of a status; `Completado` has no code of its own. */
  function EstadoCode(s: OrderStatus): (code: Option<string>)
    ensures code.None? <==> s == Completado
  {
    match s
    case PagoPendiente => Some("P")
    case PagoPorValidar => Some("C")
    case EnProceso => Some("G")
    case Cancelado => Some("A")
    case Enviado => Some("E")
    case Completado => None
  }

  /**
   * The status mapping and the code table are inverse: a status other than
   * `Completado` comes from exactly one code, and every other code means
   * `Completado`.
   */
  lemma StatusCodesRoundTrip(estado: string, s: OrderStatus)
    ensures s != Completado ==> StatusFor(EstadoCode(s).value) == s
    ensures StatusFor(estado) != Completado ==> EstadoCode(StatusFor(estado)) == Some(estado)
    ensures StatusFor(estado) == Completado <==> estado !in {"P", "C", "G", "A", "E"}
  {
  }

  datatype PaymentMethod = CreditCard | BankTransfer | PayInStore

  /** `forma_cobro`: `TC` is a credit card, `TRA` a bank transfer, anything else paid in store. */
  function PaymentFor(formaCobro: string): PaymentMethod {
    if formaCobro == "TC" then CreditCard
    else if formaCobro == "TRA" then BankTransfer
    else PayInStore
  }

  function FormaCobroCode(m: PaymentMethod): (code: Option<string>)
    ensures code.None? <==> m == PayInStore
  {
    match m
    case CreditCard => Some("TC")
    case BankTransfer => Some("TRA")
    case PayInStore => None
  }

  lemma PaymentCodesRoundTrip(formaCobro: string, m: PaymentMethod)
    ensures m != PayInStore ==> PaymentFor(FormaCobroCode(m).value) == m
    ensures PaymentFor(formaCobro) != PayInStore ==> FormaCobroCode(PaymentFor(formaCobro)) == Some(formaCobro)
    ensures PaymentFor(formaCobro) == PayInStore <==> formaCobro != "TC" && formaCobro != "TRA"
  {
  }

  // ---------------------------------------------------------------------------
  // Store code
  // ---------------------------------------------------------------------------

  /** `doc.documento.split('-')[0]`: the `numeroEstablecimiento` of the issuing store. */
  function StoreCode(documento: string): string {
    Split(documento, '-')[0]
  }

  /** The store code is the text before the first '-', or all of it when there is none. */
  lemma StoreCodeIsPrefix(documento: string)
    ensures !Contains(documento, '-') ==> StoreCode(documento) == documento
    ensures Contains(documento, '-') ==>
      exists i :: 0 <= i < |documento| && documento[i] == '-' && !Contains(documento[..i], '-') && StoreCode(documento) == documento[..i]
  {
    SplitHead(documento, '-');
  }

  /** For a document number `store-point-sequence`, the store code is `store`. */
  lemma StoreCodeOfNumber(store: string, rest: string)
    requires !Contains(store, '-')
    ensures StoreCode(store + "-" + rest) == store
  {
    SplitWord(store, rest, '-');
    assert store + "-" + rest == store + (['-'] + rest);
  }

  // ---------------------------------------------------------------------------
  // orderData
  // ---------------------------------------------------------------------------

  /**
   * The `orderData` projection. Dates are the texts handed to `new Date(...)`;
   * `clientUserId` is the id of the client's user document, if any.
   */
  datatype OrderData = OrderData(
    idContifico: string,
    orderDate: string,
    urlRide: Option<string>,
    orderStatus: OrderStatus,
    subtotal: real,
    tax: real,
    totalValue: real,
    paymentTransactionId: Option<string>,
    paymentDate: Option<string>,
    paymentMethods: Option<PaymentMethod>,
    clientUserId: Option<string>)

  /** `(subtotal_12 * (iva ?? 1)) / 100`: the tax, with a missing rate read as 1. */
  function Tax(subtotal12: real, iva: Option<real>): real {
    subtotal12 * iva.GetOr(1.0) / 100.0
  }

  /** `orderData` for a document, before any client is attached. */
  function OrderDataFor(doc: RemoteDoc): (o: OrderData)
    ensures o.idContifico == doc.id && o.clientUserId.None?
    ensures o.orderStatus == StatusFor(doc.estado)
    ensures o.urlRide.Some? <==> doc.urlRide.Some? && doc.urlRide.value != ""
    ensures o.tax == Tax(doc.subtotal12, doc.iva)
    ensures doc.cobros == [] <==> o.paymentTransactionId.None?
    ensures doc.cobros == [] <==> o.paymentDate.None?
    ensures doc.cobros == [] <==> o.paymentMethods.None?
    ensures doc.cobros != [] ==>
      && o.paymentTransactionId == Some(doc.cobros[0].numeroComprobante)
      && o.paymentDate == Some(ConvertToDate(doc.cobros[0].fecha))
      && o.paymentMethods == Some(PaymentFor(doc.cobros[0].formaCobro))
  {
    var hasCobro := |doc.cobros| > 0;
    OrderData(
      doc.id,
      ConvertToDate(doc.fechaEmision),
      if doc.urlRide.Some? && doc.urlRide.value != "" then doc.urlRide else None,
      StatusFor(doc.estado),
      doc.subtotal12,
      Tax(doc.subtotal12, doc.iva),
      doc.total,
      if hasCobro then Some(doc.cobros[0].numeroComprobante) else None,
      if hasCobro then Some(ConvertToDate(doc.cobros[0].fecha)) else None,
      if hasCobro then Some(PaymentFor(doc.cobros[0].formaCobro)) else None,
      None)
  }

  /** Only the first payment matters: payments after it never change `orderData`. */
  lemma OnlyFirstCobroCounts(doc: RemoteDoc, later: seq<Cobro>)
    requires doc.cobros != []
    ensures OrderDataFor(doc.(cobros := doc.cobros[..1] + later)) == OrderDataFor(doc)
  {
  }
}

=== FILE: contifico_provisioning.dfy ===
/**
 * Creating a product or service in Contifico (`createProductOrService`) and
 * registering an inventory movement (`createInventoryMovement`): the guard
 * chains in front of the HTTP calls, the payloads sent, and how every failure
 * becomes the `HttpException` the caller sees. HTTP responses are inputs.
 */
module ContificoProvisioning {
  import opened Wrappers

  /** A JavaScript number field that may be `undefined` or `null`. */
  datatype JsNumber = Undefined | Null | Num(value: real)

  /** `!x || x <= 0` fails exactly when this holds not: a present, positive number. */
  predicate Positive(n: JsNumber) {
    n.Num? && n.value > 0.0
  }

  /** A string field is truthy when present and non-empty. */
  predicate Present(s: Option<string>) {
    s.Some? && s.value != ""
  }

  const CREATED := 201

  // ---------------------------------------------------------------------------
  // HTTP outcomes
  // ---------------------------------------------------------------------------

  /** The `response` of a failed axios call: its status and the `mensaje` of its body. */
  datatype ErrorResponse = ErrorResponse(status: int, mensaje: Option<string>)

  /** A failed axios call; `response` is absent when no response arrived. */
  datatype AxiosError = AxiosError(message: string, response: Option<ErrorResponse>)

  /** What a `catch` block receives: an `HttpException` raised in the `try`, or an axios error. */
  datatype Thrown = Raised(exception: HttpError) | Axios(axios: AxiosError)

  /** The message of a thrown value, as `error.message` reads it. */
  function MessageOf(e: Thrown): string {
    match e
    case Raised(h) => h.message
    case Axios(a) => a.message
  }

  /** The `catch` of `createProductOrService`: every failure becomes a 500 with its own message. */
  function CaughtByProductOrService(e: Thrown): (h: HttpError)
    ensures h.status == INTERNAL_SERVER_ERROR
    ensures MessageOf(e) != "" ==> h.message == MessageOf(e)
  {
    HttpError(INTERNAL_SERVER_ERROR, TextOr(MessageOf(e), DEFAULT_ERROR_MESSAGE))
  }

  const COMMUNICATION_ERROR_MESSAGE := "Error al comunicarse con Contifico"

  /**
   * The `catch` of `createInventoryMovement`: an axios error with a response
   * keeps Contifico's status and `mensaje`; anything else becomes a 500 with
   * its own message.
   */
  function CaughtByInventoryMovement(e: Thrown): (h: HttpError)
    ensures e.Axios? && e.axios.response.Some? ==>
      h.status == e.axios.response.value.status
      && h.message == (if Present(e.axios.response.value.mensaje) then e.axios.response.value.mensaje.value
                       else COMMUNICATION_ERROR_MESSAGE)
    ensures !(e.Axios? && e.axios.response.Some?) ==> h == CaughtByProductOrService(e)
  {
    if e.Axios? && e.axios.response.Some? then
      var r := e.axios.response.value;
      HttpError(r.status, if Present(r.mensaje) then r.mensaje.value else COMMUNICATION_ERROR_MESSAGE)
    else HttpError(INTERNAL_SERVER_ERROR, TextOr(MessageOf(e), DEFAULT_ERROR_MESSAGE))
  }

  /** A 400 raised inside either `try` reaches the caller as a 500 with the same message. */
  lemma RaisedBadRequestBecomes500(message: string)
    requires message != ""
    ensures CaughtByProductOrService(Raised(HttpError(BAD_REQUEST, message))) == HttpError(INTERNAL_SERVER_ERROR, message)
    ensures CaughtByInventoryMovement(Raised(HttpError(BAD_REQUEST, message))) == HttpError(INTERNAL_SERVER_ERROR, message)
  {
  }

  // ---------------------------------------------------------------------------
  // createInventoryMovement
  // ---------------------------------------------------------------------------

  /** One entry of `productDetails`. */
  datatype ProductDetail = ProductDetail(id: string, cantidad: real, precio: JsNumber)

  /** One entry of the `detalles` sent; a `precio` of `Undefined` is a key left out, `Null` is sent as null. */
  datatype MovementLine = MovementLine(productoId: string, cantidad: real, precio: JsNumber)

  /** The body of the `POST /movimiento-inventario/`. */
  datatype MovementPayload = MovementPayload(tipo: string, bodegaId: string, detalles: seq<MovementLine>,
                                             fecha: string, descripcion: string)

  /** The error an `ING` movement raises for one detail, if any. */
  function DetailError(d: ProductDetail): (r: Option<string>)
    ensures r.None? <==> Positive(d.precio)
    ensures r.Some? ==> r.value != ""
  {
    if d.precio.Undefined? || d.precio.Null? then
      Some("El producto/servicio con ID " + d.id + " debe tener un precio para un movimiento de ingreso (ING).")
    else if d.precio.value <= 0.0 then
      Some("El precio del producto/servicio con ID " + d.id + " no puede ser negativo o 0.")
    else None
  }

  /** The error of the first detail that has one. */
  function IngresoError(details: seq<ProductDetail>): (r: Option<string>)
    ensures r.Some? ==> r.value != ""
  {
    if details == [] then None
    else if DetailError(details[0]).Some? then DetailError(details[0])
    else IngresoError(details[1..])
  }

  /** An `ING` movement is refused exactly when some detail lacks a positive price. */
  lemma {:induction false} IngresoErrorIffInvalid(details: seq<ProductDetail>)
    ensures IngresoError(details).None? <==> forall i :: 0 <= i < |details| ==> Positive(details[i].precio)
  {
    if details != [] && DetailError(details[0]).None? {
      var rest := details[1..];
      IngresoErrorIffInvalid(rest);
      assert forall i :: 1 <= i < |details| ==> details[i] == rest[i - 1];
    }
  }

  /** The refusal carries the error of the first detail without a positive price. */
  lemma {:induction false} IngresoErrorIsFirstInvalid(details: seq<ProductDetail>, i: nat)
    requires i < |details| && !Positive(details[i].precio)
    requires forall j :: 0 <= j < i ==> Positive(details[j].precio)
    ensures IngresoError(details) == DetailError(details[i])
  {
    if i > 0 {
      var rest := details[1..];
      assert Positive(details[0].precio);
      assert forall j :: 0 <= j < i - 1 ==> rest[j] == details[j + 1];
      IngresoErrorIsFirstInvalid(rest, i - 1);
    }
  }

  /** The validation loop in front of an `ING` movement. */
  method CheckIngreso(details: seq<ProductDetail>) returns (err: Option<string>)
    ensures err == IngresoError(details)
  {
    for i := 0 to |details|
      invariant IngresoError(details) == IngresoError(details[i..])
    {
      assert details[i..][1..] == details[i + 1..];
      var detail := details[i];
      if detail.precio.Undefined? || detail.precio.Null? {
        return Some("El producto/servicio con ID " + detail.id + " debe tener un precio para un movimiento de ingreso (ING).");
      }
      if detail.precio.value <= 0.0 {
        return Some("El precio del producto/servicio con ID " + detail.id + " no puede ser negativo o 0.");
      }
    }
    assert details[|details|..] == [];
    err := None;
  }

  /** The errors raised before any call: only an `ING` movement validates its details. */
  function LocalError(tipo: string, details: seq<ProductDetail>): Option<string> {
    if tipo == "ING" then IngresoError(details) else None
  }

  /** `responseBodega.data[0]?.id`, when truthy. */
  function BodegaId(bodegas: seq<Option<string>>): (id: Option<string>)
    ensures id.Some? ==> bodegas != [] && id == bodegas[0] && id.value != ""
  {
    if bodegas != [] && Present(bodegas[0]) then bodegas[0] else None
  }

  const NO_BODEGA_MESSAGE := "No se encontró una bodega para registrar el movimiento de inventario"
  const MOVEMENT_STATUS_MESSAGE := "Error al registrar el movimiento de inventario"
  const DEFAULT_MOVEMENT_DESCRIPTION := "Movimiento de inventario"

  function MovementLines(details: seq<ProductDetail>): (lines: seq<MovementLine>)
    ensures |lines| == |details|
    ensures forall i :: 0 <= i < |details| ==>
      lines[i] == MovementLine(details[i].id, details[i].cantidad, details[i].precio)
  {
    seq(|details|, i requires 0 <= i < |details| => MovementLine(details[i].id, details[i].cantidad, details[i].precio))
  }

  /** The outcome of a movement: the payload posted, if one was, and what the call returns or throws. */
  datatype MovementOutcome = MovementOutcome(sent: Option<MovementPayload>, result: Result<(), HttpError>)

  /**
   * `createInventoryMovement(tipo, productDetails, descripcion)`, given the
   * day's `fecha` and the responses of `GET /bodega/` (the list of bodega
   * ids) and of the `POST` (its status).
   */
  function Movement(tipo: string, details: seq<ProductDetail>, descripcion: string, fecha: string,
                    bodegaCall: Result<seq<Option<string>>, AxiosError>, postCall: Result<int, AxiosError>): (o: MovementOutcome)
    ensures LocalError(tipo, details).Some? ==>
      o == MovementOutcome(None, Err(HttpError(INTERNAL_SERVER_ERROR, LocalError(tipo, details).value)))
    ensures o.sent.Some? <==> LocalError(tipo, details).None? && bodegaCall.Ok? && BodegaId(bodegaCall.value).Some?
    ensures o.sent.Some? ==> o.sent.value.detalles == MovementLines(details) && o.sent.value.tipo == tipo
    ensures o.sent.Some? ==> o.sent.value.bodegaId == BodegaId(bodegaCall.value).value && o.sent.value.fecha == fecha
    ensures o.sent.Some? && descripcion != "" ==> o.sent.value.descripcion == descripcion
    ensures o.sent.Some? && descripcion == "" ==> o.sent.value.descripcion == DEFAULT_MOVEMENT_DESCRIPTION
    ensures o.result.Ok? <==> o.sent.Some? && postCall == Ok(CREATED)
  {
    match LocalError(tipo, details)
    case Some(message) => MovementOutcome(None, Err(CaughtByInventoryMovement(Raised(HttpError(BAD_REQUEST, message)))))
    case None =>
      match bodegaCall
      case Err(e) => MovementOutcome(None, Err(CaughtByInventoryMovement(Axios(e))))
      case Ok(bodegas) =>
        match BodegaId(bodegas)
        case None => MovementOutcome(None, Err(CaughtByInventoryMovement(Raised(HttpError(BAD_REQUEST, NO_BODEGA_MESSAGE)))))
        case Some(bodegaId) =>
          var payload := MovementPayload(tipo, bodegaId, MovementLines(details), fecha,
                                         TextOr(descripcion, DEFAULT_MOVEMENT_DESCRIPTION));
          match postCall
          case Err(e) => MovementOutcome(Some(payload), Err(CaughtByInventoryMovement(Axios(e))))
          case Ok(status) =>
            if status != CREATED then
              MovementOutcome(Some(payload), Err(CaughtByInventoryMovement(Raised(HttpError(INTERNAL_SERVER_ERROR, MOVEMENT_STATUS_MESSAGE)))))
            else MovementOutcome(Some(payload), Ok(()))
  }

  /**
   * A failed call to Contifico is handed to the `catch` as it is, so an
   * answered error keeps its status and `mensaje`; every error raised locally
   * (a detail without a positive price, no bodega, a non-201 answer), and a
   * call that got no answer, reaches the caller as a 500.
   */
  lemma MovementErrorStatus(tipo: string, details: seq<ProductDetail>, descripcion: string, fecha: string,
                            bodegaCall: Result<seq<Option<string>>, AxiosError>, postCall: Result<int, AxiosError>)
    ensures var o := Movement(tipo, details, descripcion, fecha, bodegaCall, postCall);
      LocalError(tipo, details).None? && bodegaCall.Err? ==>
        o == MovementOutcome(None, Err(CaughtByInventoryMovement(Axios(bodegaCall.error))))
    ensures var o := Movement(tipo, details, descripcion, fecha, bodegaCall, postCall);
      o.sent.Some? && postCall.Err? ==> o.result == Err(CaughtByInventoryMovement(Axios(postCall.error)))
    ensures var o := Movement(tipo, details, descripcion, fecha, bodegaCall, postCall);
      o.result.Err? && !(bodegaCall.Err? && bodegaCall.error.response.Some?)
        && !(postCall.Err? && postCall.error.response.Some?) ==>
        o.result.error.status == INTERNAL_SERVER_ERROR
    ensures var o := Movement(tipo, details, descripcion, fecha, bodegaCall, postCall);
      LocalError(tipo, details).None? && bodegaCall.Ok? && BodegaId(bodegaCall.value).None? ==>
        o.result == Err(HttpError(INTERNAL_SERVER_ERROR, NO_BODEGA_MESSAGE))
    ensures var o := Movement(tipo, details, descripcion, fecha, bodegaCall, postCall);
      o.sent.Some? && postCall.Ok? && postCall.value != CREATED ==>
        o.result == Err(HttpError(INTERNAL_SERVER_ERROR, MOVEMENT_STATUS_MESSAGE))
  {
  }

  /** `createInventoryMovement` as the service runs it. */
  method CreateInventoryMovement(tipo: string, details: seq<ProductDetail>, descripcion: string, fecha: string,
                                 bodegaCall: Result<seq<Option<string>>, AxiosError>, postCall: Result<int, AxiosError>)
    returns (sent: Option<MovementPayload>, result: Result<(), HttpError>)
    ensures MovementOutcome(sent, result) == Movement(tipo, details, descripcion, fecha, bodegaCall, postCall)
  {
    sent := None;
    if tipo == "ING" {
      var err := CheckIngreso(details);
      if err.Some? {
        return None, Err(CaughtByInventoryMovement(Raised(HttpError(BAD_REQUEST, err.value))));
      }
    }
    if bodegaCall.Err? {
      return None, Err(CaughtByInventoryMovement(Axios(bodegaCall.error)));
    }
    var bodegaId := BodegaId(bodegaCall.value);
    if bodegaId.None? {
      return None, Err(CaughtByInventoryMovement(Raised(HttpError(BAD_REQUEST, NO_BODEGA_MESSAGE))));
    }
    var detalles := MovementLines(details);
    var payload := MovementPayload(tipo, bodegaId.value, detalles, fecha, TextOr(descripcion, DEFAULT_MOVEMENT_DESCRIPTION));
    sent := Some(payload);
    if postCall.Err? {
      return sent, Err(CaughtByInventoryMovement(Axios(postCall.error)));
    }
    if postCall.value != CREATED {
      return sent, Err(CaughtByInventoryMovement(Raised(HttpError(INTERNAL_SERVER_ERROR, MOVEMENT_STATUS_MESSAGE))));
    }
    result := Ok(());
  }

  // ---------------------------------------------------------------------------
  // createProductOrService
  // ---------------------------------------------------------------------------

  /** The `proServData` a product or service is created from. */
  datatype ProServData = ProServData(
    precio: JsNumber, tipo: Option<string>, categoria: Option<string>, sku: Option<string>,
    compra: JsNumber, nombre: Option<string>, descripcion: Option<string>, estado: bool, stock: JsNumber)

  const PRECIO_MESSAGE := "El precio debe ser mayor a 0 para registrar el producto/servicio"
  const TIPO_MESSAGE := "El tipo de producto/servicio es obligatorio para registrar el producto/servicio"
  const CATEGORIA_MESSAGE := "La categoría del producto/servicio es obligatoria para registrar el producto/servicio"
  const TIPO_VALUE_MESSAGE := "El tipo de producto/servicio debe ser \"PROD\" o \"SERV\""
  const SKU_MESSAGE := "El SKU del producto es obligatorio para registrar el producto"
  const COMPRA_MESSAGE := "El precio de compra debe ser mayor a 0 para registrar el movimiento de inventario"
  const NOMBRE_MESSAGE := "El nombre del producto/servicio es obligatorio para registrar el producto/servicio"
  const PRODUCT_STATUS_MESSAGE := "Error al crear el producto/servicio"

  /** What the checks demand, stated at once: a product also needs a SKU and a positive purchase price. */
  predicate Acceptable(d: ProServData) {
    && Positive(d.precio) && Present(d.categoria) && Present(d.nombre)
    && (d.tipo == Some("PROD") || d.tipo == Some("SERV"))
    && (d.tipo == Some("PROD") ==> Present(d.sku) && Positive(d.compra))
  }

  /** The seven checks, in order: the message of the first that fails. */
  function ProductOrServiceError(d: ProServData): (r: Option<string>)
    ensures r.None? <==> Acceptable(d)
  {
    if !Positive(d.precio) then Some(PRECIO_MESSAGE)
    else if !Present(d.tipo) then Some(TIPO_MESSAGE)
    else if !Present(d.categoria) then Some(CATEGORIA_MESSAGE)
    else if d.tipo.value != "PROD" && d.tipo.value != "SERV" then Some(TIPO_VALUE_MESSAGE)
    else if d.tipo.value == "PROD" && !Present(d.sku) then Some(SKU_MESSAGE)
    else if d.tipo.value == "PROD" && !Positive(d.compra) then Some(COMPRA_MESSAGE)
    else if !Present(d.nombre) then Some(NOMBRE_MESSAGE)
    else None
  }

  /** One guard of `createProductOrService`: whether it throws, and with which message. */
  datatype Guard = Guard(throws: bool, message: string)

  /**
   * The seven guards as written, each judged on the data alone, without
   * assuming that the ones before it passed.
   */
  function ProductGuards(d: ProServData): (gs: seq<Guard>)
    ensures |gs| == 7
  {
    [ Guard(!Positive(d.precio), PRECIO_MESSAGE),
      Guard(!Present(d.tipo), TIPO_MESSAGE),
      Guard(!Present(d.categoria), CATEGORIA_MESSAGE),
      Guard(d.tipo != Some("PROD") && d.tipo != Some("SERV"), TIPO_VALUE_MESSAGE),
      Guard(d.tipo == Some("PROD") && !Present(d.sku), SKU_MESSAGE),
      Guard(d.tipo == Some("PROD") && !Positive(d.compra), COMPRA_MESSAGE),
      Guard(!Present(d.nombre), NOMBRE_MESSAGE) ]
  }

  /** The message of the first guard that throws. */
  function FirstThrown(gs: seq<Guard>): Option<string> {
    if gs == [] then None
    else if gs[0].throws then Some(gs[0].message)
    else FirstThrown(gs[1..])
  }

  /** A sequence of guards reports exactly the first one that throws, and nothing when none does. */
  lemma {:induction false} FirstThrownIsFirst(gs: seq<Guard>, i: nat)
    requires i <= |gs|
    requires forall j :: 0 <= j < i ==> !gs[j].throws
    ensures i < |gs| && gs[i].throws ==> FirstThrown(gs) == Some(gs[i].message)
    ensures i == |gs| ==> FirstThrown(gs).None?
  {
    if i > 0 {
      var rest := gs[1..];
      assert !gs[0].throws;
      assert forall j :: 0 <= j < i - 1 ==> rest[j] == gs[j + 1];
      FirstThrownIsFirst(rest, i - 1);
    }
  }

  /** The nested checks report what the guards, taken as a list, report first. */
  lemma ProductErrorIsFirstThrown(d: ProServData)
    ensures ProductOrServiceError(d) == FirstThrown(ProductGuards(d))
  {
    var gs := ProductGuards(d);
    if gs[0].throws { FirstThrownIsFirst(gs, 0); }
    else if gs[1].throws { FirstThrownIsFirst(gs, 1); }
    else if gs[2].throws { FirstThrownIsFirst(gs, 2); }
    else if gs[3].throws { FirstThrownIsFirst(gs, 3); }
    else if gs[4].throws { FirstThrownIsFirst(gs, 4); }
    else if gs[5].throws { FirstThrownIsFirst(gs, 5); }
    else if gs[6].throws { FirstThrownIsFirst(gs, 6); }
    else { FirstThrownIsFirst(gs, 7); }
  }

  /**
   * The checks run in the source's order: the request is refused with the
   * message of the first guard that throws, and accepted when none does; a
   * service is never asked for a SKU or a purchase price.
   */
  lemma ProductChecksInOrder(d: ProServData)
    ensures forall i :: 0 <= i < 7 && ProductGuards(d)[i].throws && (forall j :: 0 <= j < i ==> !ProductGuards(d)[j].throws) ==>
      ProductOrServiceError(d) == Some(ProductGuards(d)[i].message)
    ensures (forall j :: 0 <= j < 7 ==> !ProductGuards(d)[j].throws) ==> ProductOrServiceError(d).None?
    ensures d.tipo == Some("SERV") ==>
      ProductOrServiceError(d) != Some(SKU_MESSAGE) && ProductOrServiceError(d) != Some(COMPRA_MESSAGE)
  {
    var gs := ProductGuards(d);
    ProductErrorIsFirstThrown(d);
    forall i | 0 <= i < 7 && gs[i].throws && (forall j :: 0 <= j < i ==> !gs[j].throws)
      ensures ProductOrServiceError(d) == Some(gs[i].message)
    {
      FirstThrownIsFirst(gs, i);
    }
    if forall j :: 0 <= j < 7 ==> !gs[j].throws {
      FirstThrownIsFirst(gs, 7);
    }
  }

  /** The body of the `POST /producto/`. */
  datatype ProductPayload = ProductPayload(tipo: string, nombre: string, descripcion: string, categoriaId: string,
                                           minimo: int, pvp1: real, estado: string, codigo: Option<string>)

  function ProductPayloadFor(d: ProServData): (p: ProductPayload)
    requires Acceptable(d)
    ensures p.minimo == 1 && p.pvp1 == d.precio.value
    ensures p.estado == (if d.estado then "A" else "I")
    ensures p.descripcion == (if Present(d.descripcion) then d.descripcion.value else "")
  {
    ProductPayload(d.tipo.value, d.nombre.value, if Present(d.descripcion) then d.descripcion.value else "",
                   d.categoria.value, 1, d.precio.value, if d.estado then "A" else "I", d.sku)
  }

  /** The response of the product `POST`: its status and `data.id`. */
  datatype Created = Created(status: int, id: string)

  const STOCK_DESCRIPTION := "Ingreso de Inventario"

  /** The `ING` movement a created product or service with stock triggers. */
  function StockMovementDetails(d: ProServData, id: string): seq<ProductDetail> {
    [ProductDetail(id, if d.stock.Num? then d.stock.value else 0.0, d.compra)]
  }

  /**
   * `createProductOrService(proServData)`, given the responses of the product
   * `POST` and, for the stock movement, the day's `fecha` and the responses of
   * the movement's calls. Returns the product payload and the movement
   * payload posted, if any, and the new id or the exception thrown.
   */
  method CreateProductOrService(d: ProServData, productCall: Result<Created, AxiosError>, fecha: string,
                                bodegaCall: Result<seq<Option<string>>, AxiosError>, movementCall: Result<int, AxiosError>)
    returns (product: Option<ProductPayload>, movement: Option<MovementPayload>, result: Result<string, HttpError>)
    ensures !Acceptable(d) ==>
      product.None? && movement.None? && result == Err(HttpError(INTERNAL_SERVER_ERROR, ProductOrServiceError(d).value))
    ensures Acceptable(d) ==> product == Some(ProductPayloadFor(d))
    ensures Acceptable(d) && productCall.Err? ==>
      movement.None? && result == Err(HttpError(INTERNAL_SERVER_ERROR, TextOr(productCall.error.message, DEFAULT_ERROR_MESSAGE)))
    ensures Acceptable(d) && productCall.Ok? && productCall.value.status != CREATED ==>
      movement.None? && result == Err(HttpError(INTERNAL_SERVER_ERROR, PRODUCT_STATUS_MESSAGE))
    ensures Acceptable(d) && productCall.Ok? && productCall.value.status == CREATED && !Positive(d.stock) ==>
      movement.None? && result == Ok(productCall.value.id)
    ensures Acceptable(d) && productCall.Ok? && productCall.value.status == CREATED && Positive(d.stock) ==>
      var o := Movement("ING", StockMovementDetails(d, productCall.value.id), STOCK_DESCRIPTION, fecha, bodegaCall, movementCall);
      && movement == o.sent
      && result == (if o.result.Ok? then Ok(productCall.value.id) else Err(CaughtByProductOrService(Raised(o.result.error))))
    ensures movement.Some? ==>
      && productCall.Ok? && movement.value.tipo == "ING" && movement.value.descripcion == STOCK_DESCRIPTION
      && movement.value.fecha == fecha && movement.value.detalles == MovementLines(StockMovementDetails(d, productCall.value.id))
  {
    product, movement := None, None;
    var err := ProductOrServiceError(d);
    if err.Some? {
      return product, movement, Err(CaughtByProductOrService(Raised(HttpError(BAD_REQUEST, err.value))));
    }
    product := Some(ProductPayloadFor(d));
    if productCall.Err? {
      return product, movement, Err(CaughtByProductOrService(Axios(productCall.error)));
    }
    var response := productCall.value;
    if response.status != CREATED {
      return product, movement, Err(CaughtByProductOrService(Raised(HttpError(INTERNAL_SERVER_ERROR, PRODUCT_STATUS_MESSAGE))));
    }
    if !Positive(d.stock) {
      return product, movement, Ok(response.id);
    }
    var movementResult;
    movement, movementResult := CreateInventoryMovement("ING", StockMovementDetails(d, response.id), STOCK_DESCRIPTION,
                                                        fecha, bodegaCall, movementCall);
    if movementResult.Err? {
      return product, movement, Err(CaughtByProductOrService(Raised(movementResult.error)));
    }
    result := Ok(response.id);
  }

  /**
   * A service created with stock but no purchase price: Contifico has created
   * it, yet the stock movement is refused and the caller gets a 500.
   */
  lemma ServiceStockWithoutPurchasePrice(d: ProServData, id: string, fecha: string,
                                          bodegaCall: Result<seq<Option<string>>, AxiosError>, movementCall: Result<int, AxiosError>)
    requires Acceptable(d) && d.tipo == Some("SERV") && Positive(d.stock) && !d.compra.Num?
    ensures var o := Movement("ING", StockMovementDetails(d, id), STOCK_DESCRIPTION, fecha, bodegaCall, movementCall);
      o.sent.None? &&
      o.result == Err(HttpError(INTERNAL_SERVER_ERROR,
        "El producto/servicio con ID " + id + " debe tener un precio para un movimiento de ingreso (ING)."))
  {
    var details := StockMovementDetails(d, id);
    assert details[1..] == [];
  }

  /** A product that passed the checks always carries a positive purchase price into its stock movement. */
  lemma ProductStockMovementIsPriced(d: ProServData, id: string)
    requires Acceptable(d) && d.tipo == Some("PROD")
    ensures IngresoError(StockMovementDetails(d, id)) == None
  {
    var details := StockMovementDetails(d, id);
    assert details[1..] == [];
  }
}

=== FILE: excel.dfy ===
/**
 * Spreadsheet row ingestion: `processExcel` and `validateField` of the
 * studio service and of its standalone twin `ExcelProcessor`. Both read the
 * third sheet as rows of cells, classify each data row as skipped, failed,
 * error or success, insert one attention record per successful row, and fail
 * the run when any row failed. They differ in three places, chosen here by a
 * `Variant`: the standalone processor accepts a Date cell as a date, stores
 * date fields as converted dates, and throws a plain `Error` instead of a
 * `BadRequestException`.
 */
module Excel {
  import opened Wrappers
  import opened Text

  datatype Variant = Service | Processor

  // ---------------------------------------------------------------------------
  // Cells
  // ---------------------------------------------------------------------------

  /**
   * A cell value as `sheet_to_json` returns it. A number or a date carries
   * its `String(...)` rendering; a date's time is absent when it is invalid.
   */
  datatype Cell =
    | Undefined
    | Null
    | Text(text: string)
    | Num(value: real, rendered: string)
    | Bool(flag: bool)
    | DateCell(time: Option<int>, rendered: string)

  /** `String(cell)`. */
  function CellText(c: Cell): string {
    match c
    case Undefined => "undefined"
    case Null => "null"
    case Text(s) => s
    case Num(_, s) => s
    case Bool(b) => if b then "true" else "false"
    case DateCell(_, s) => s
  }

  /**
   * `cell === undefined || cell === null || String(cell).trim() === ''`; the
   * last test is `IsBlank` by `Text.TrimEmptyIffBlank`.
   */
  predicate EmptyCell(c: Cell) {
    c.Undefined? || c.Null? || IsBlank(CellText(c))
  }

  /** The `value = null` normalisation: missing cells and blank text become `null`. */
  function Normalize(c: Cell): (v: Cell)
    ensures v.Null? <==> c.Undefined? || c.Null? || (c.Text? && IsBlank(c.text))
    ensures !v.Null? ==> v == c
  {
    if c.Undefined? || c.Null? || (c.Text? && IsBlank(c.text)) then Null else c
  }

  /** `row[colIndex]`: `undefined` past the end of the row. */
  function CellAt(row: seq<Cell>, j: nat): Cell {
    if j < |row| then row[j] else Undefined
  }

  /** `row.every(cell => ...empty...)`. */
  predicate BlankRow(row: seq<Cell>) {
    forall j :: 0 <= j < |row| ==> EmptyCell(row[j])
  }

  // ---------------------------------------------------------------------------
  // Validation rules
  // ---------------------------------------------------------------------------

  datatype FieldKind = StringField | NumberField | DateField | BooleanField

  /** A validation rule; `maxLength`, `min` and `max` are optional, `integer` absent reads false. */
  datatype Rule = Rule(kind: FieldKind, required: bool, maxLength: Option<nat>,
                       min: Option<int>, max: Option<int>, integer: bool)

  function StringRule(required: bool, maxLength: nat): Rule {
    Rule(StringField, required, Some(maxLength), None, None, false)
  }

  /** The rule table of both files (the fields of an attention record). */
  const VALIDATION_RULES: map<string, Rule> := map[
    "fechaRegistro" := Rule(DateField, true, None, None, None, false),
    "nombreServicio" := StringRule(true, 255),
    "notas" := StringRule(false, 1000),
    "notas2" := StringRule(false, 1000),
    "notas3" := StringRule(false, 1000),
    "notas4" := StringRule(false, 1000),
    "alergias" := StringRule(false, 500),
    "medicamentos" := StringRule(false, 500),
    "antecedentesPersonales" := StringRule(false, 1000),
    "antecedentesFamiliares" := StringRule(false, 1000)
  ]

  /**
   * What the runtime parses and this model does not: `Number(text)` (absent
   * for NaN), whether `new Date(text)` is a valid date, and whether the
   * serial-date formula on a number gives a valid date.
   */
  datatype Parsers = Parsers(number: string -> Option<real>, date: string -> bool, serialDate: real -> bool)

  /** `Number(value)`; absent for NaN. */
  function ToNumber(c: Cell, parsers: Parsers): Option<real> {
    match c
    case Undefined => None
    case Null => Some(0.0)
    case Text(s) => parsers.number(s)
    case Num(x, _) => Some(x)
    case Bool(b) => Some(if b then 1.0 else 0.0)
    case DateCell(t, _) => if t.Some? then Some(t.value as real) else None
  }

  /** Does the `date` rule accept the cell? Only the standalone processor knows Date cells. */
  predicate ValidDate(variant: Variant, c: Cell, parsers: Parsers) {
    match c
    case Num(x, _) => parsers.serialDate(x)
    case Text(s) => parsers.date(s)
    case DateCell(t, _) => variant == Processor && t.Some?
    case _ => false
  }

  /** The texts the `boolean` rule accepts. */
  predicate BooleanText(s: string) {
    s == "true" || s == "false" || s == "1" || s == "0"
  }

  /** The decimal text of an integer. */
  function IntText(n: int): string {
    if n < 0 then "-" + NatToString(-n) else NatToString(n)
  }

  function FieldMessage(fieldName: string, tail: string): string {
    "El campo \"" + fieldName + "\" " + tail
  }

  /** The number rule's checks, in order: NaN, then min, then max, then integer. */
  function NumberError(fieldName: string, n: Option<real>, rule: Rule): Option<string> {
    if n.None? then Some(FieldMessage(fieldName, "debe ser un número válido."))
    else if rule.min.Some? && n.value < rule.min.value as real then
      Some(FieldMessage(fieldName, "debe ser mayor o igual a " + IntText(rule.min.value) + "."))
    else if rule.max.Some? && n.value > rule.max.value as real then
      Some(FieldMessage(fieldName, "debe ser menor o igual a " + IntText(rule.max.value) + "."))
    else if rule.integer && n.value.Floor as real != n.value then
      Some(FieldMessage(fieldName, "debe ser un número entero."))
    else None
  }

  /** `validateField`: the message of the first check the value fails, if any. */
  function ValidateField(variant: Variant, fieldName: string, value: Cell, rule: Rule, parsers: Parsers): Option<string> {
    if rule.required && EmptyCell(value) then Some(FieldMessage(fieldName, "es requerido."))
    else if !rule.required && EmptyCell(value) then None
    else
      match rule.kind
      case StringField =>
        if rule.maxLength.Some? && rule.maxLength.value != 0 && Utf16Length(CellText(value)) > rule.maxLength.value then
          Some(FieldMessage(fieldName, "excede la longitud máxima de " + NatToString(rule.maxLength.value) + " caracteres."))
        else None
      case NumberField => NumberError(fieldName, ToNumber(value, parsers), rule)
      case DateField =>
        if ValidDate(variant, value, parsers) then None
        else Some(FieldMessage(fieldName, "debe ser una fecha válida."))
      case BooleanField =>
        if BooleanText(Trim(ToLower(CellText(value)))) then None
        else Some(FieldMessage(fieldName, "debe ser un valor booleano (verdadero/falso)."))
  }

  /**
   * An empty value fails a required rule and passes an optional one, whatever
   * its kind; a non-empty string field fails exactly when its UTF-16 length
   * exceeds a truthy `maxLength`.
   */
  lemma ValidateFieldEmptyAndLength(variant: Variant, fieldName: string, value: Cell, rule: Rule, parsers: Parsers)
    ensures EmptyCell(value) ==>
      ValidateField(variant, fieldName, value, rule, parsers) ==
        (if rule.required then Some(FieldMessage(fieldName, "es requerido.")) else None)
    ensures !EmptyCell(value) && rule.kind == StringField ==>
      (ValidateField(variant, fieldName, value, rule, parsers).Some? <==>
        rule.maxLength.Some? && rule.maxLength.value > 0 && Utf16Length(CellText(value)) > rule.maxLength.value)
  {
  }

  /**
   * Text outside the Basic Multilingual Plane counts two units a character:
   * such a value is refused once twice its character count exceeds the limit.
   */
  lemma AstralTextCountsDouble(variant: Variant, fieldName: string, s: string, rule: Rule, parsers: Parsers)
    requires rule.kind == StringField && !EmptyCell(Text(s))
    requires forall i :: 0 <= i < |s| ==> s[i] >= '\U{10000}'
    ensures rule.maxLength.Some? && 0 < rule.maxLength.value < 2 * |s| ==>
      ValidateField(variant, fieldName, Text(s), rule, parsers)
        == Some(FieldMessage(fieldName, "excede la longitud máxima de " + NatToString(rule.maxLength.value) + " caracteres."))
  {
    Utf16LengthFacts(s, []);
    assert s + [] == s;
  }

  /** The boolean rule accepts exactly `true`, `false`, `1` and `0`, in any case and with surrounding space. */
  lemma BooleanRuleAccepts(variant: Variant, fieldName: string, value: Cell, rule: Rule, parsers: Parsers)
    requires rule.kind == BooleanField && !EmptyCell(value)
    ensures ValidateField(variant, fieldName, value, rule, parsers).None? <==> BooleanText(Trim(ToLower(CellText(value))))
  {
  }

  /**
   * A number that fails several checks gets the message of the first: NaN
   * before the bounds, the lower bound before the upper one, and the bounds
   * before integrality.
   */
  lemma NumberChecksInOrder(fieldName: string, n: Option<real>, rule: Rule)
    ensures n.None? ==> NumberError(fieldName, n, rule) == Some(FieldMessage(fieldName, "debe ser un número válido."))
    ensures n.Some? && rule.min.Some? && n.value < rule.min.value as real ==>
      NumberError(fieldName, n, rule) == Some(FieldMessage(fieldName, "debe ser mayor o igual a " + IntText(rule.min.value) + "."))
    ensures n.Some? && (rule.min.Some? ==> n.value >= rule.min.value as real)
            && rule.max.Some? && n.value > rule.max.value as real ==>
      NumberError(fieldName, n, rule) == Some(FieldMessage(fieldName, "debe ser menor o igual a " + IntText(rule.max.value) + "."))
    ensures n.Some? && (rule.min.Some? ==> n.value >= rule.min.value as real)
            && (rule.max.Some? ==> n.value <= rule.max.value as real)
            && rule.integer && n.value.Floor as real != n.value ==>
      NumberError(fieldName, n, rule) == Some(FieldMessage(fieldName, "debe ser un número entero."))
    ensures NumberError(fieldName, n, rule).None? <==>
      && n.Some?
      && (rule.min.Some? ==> n.value >= rule.min.value as real)
      && (rule.max.Some? ==> n.value <= rule.max.value as real)
      && (rule.integer ==> n.value.Floor as real == n.value)
  {
  }

  /** What is written into the record: the raw cell, or for a date field of the processor, the date built from it. */
  datatype Stored = Value(cell: Cell) | DateOf(source: Cell)

  /** `formatValidatedValue`: only a number or a text under a date rule is converted. */
  function FormatValidatedValue(value: Cell, kind: FieldKind): (s: Stored)
    ensures kind != DateField ==> s == Value(value)
    ensures s.DateOf? <==> kind == DateField && (value.Num? || value.Text?)
  {
    if kind == DateField && (value.Num? || value.Text?) then DateOf(value) else Value(value)
  }

  /** The variant run, what the runtime parses, and the rule table consulted. */
  datatype Setup = Setup(variant: Variant, parsers: Parsers, rules: map<string, Rule>)

  // ---------------------------------------------------------------------------
  // Columns of one row
  // ---------------------------------------------------------------------------

  const CEDULA_EMPTY_MESSAGE := "El campo \"cédula\" es obligatorio y está vacío."

  /** `String(header).toLowerCase().trim()`. */
  function NormalizedHeader(header: Cell): string {
    Trim(ToLower(CellText(header)))
  }

  /** What the `headers.forEach` callback builds: `attentionData`, `cedula` and `rowErrors`. */
  datatype Columns = Columns(data: map<string, Stored>, cedula: Option<string>, errors: seq<string>)

  /** How a header's column is treated. */
  datatype ColumnRole = Hole | CedulaColumn | NameColumn | RuledColumn(rule: Rule) | PlainColumn

  /**
   * An `Undefined` header is a hole `forEach` skips; the cedula and name
   * columns are recognised on the normalised header, the rule is looked up
   * on the header as written.
   */
  function RoleOf(rules: map<string, Rule>, header: Cell): ColumnRole {
    if header.Undefined? then Hole
    else
      var norm := NormalizedHeader(header);
      if norm == "cedula" then CedulaColumn
      else if norm == "nombres" || norm == "apellidos" then NameColumn
      else if CellText(header) in rules then RuledColumn(rules[CellText(header)])
      else PlainColumn
  }

  /** A ruled column: its error, or what is stored for it. */
  function Validated(setup: Setup, key: string, value: Cell, rule: Rule): (r: Result<Stored, string>)
    ensures r.Err? <==> ValidateField(setup.variant, key, value, rule, setup.parsers).Some?
    ensures r.Ok? && setup.variant == Service ==> r.value == Value(value)
    ensures r.Ok? && setup.variant == Processor ==> r.value == FormatValidatedValue(value, rule.kind)
  {
    match ValidateField(setup.variant, key, value, rule, setup.parsers)
    case Some(e) => Err(e)
    case None => Ok(if setup.variant == Service then Value(value) else FormatValidatedValue(value, rule.kind))
  }

  /**
   * One column: the cedula column sets `cedula` or records an error; name
   * columns are dropped; a ruled column is validated; any other column is
   * copied.
   */
  function ColumnStep(setup: Setup, st: Columns, role: ColumnRole, key: string, cell: Cell): Columns {
    var value := Normalize(cell);
    match role
    case Hole => st
    case NameColumn => st
    case CedulaColumn =>
      if !value.Null? then st.(cedula := Some(Trim(CellText(value))))
      else st.(errors := st.errors + [CEDULA_EMPTY_MESSAGE])
    case RuledColumn(rule) =>
      (match Validated(setup, key, value, rule)
       case Err(e) => st.(errors := st.errors + [e])
       case Ok(v) => st.(data := st.data[key := v]))
    case PlainColumn => st.(data := st.data[key := Value(value)])
  }

  /** The callback run over `headers`, in order. */
  function ColumnsRead(setup: Setup, headers: seq<Cell>, row: seq<Cell>): Columns {
    if headers == [] then Columns(map[], None, [])
    else
      var k := |headers| - 1;
      ColumnStep(setup, ColumnsRead(setup, headers[..k], row), RoleOf(setup.rules, headers[k]), CellText(headers[k]), CellAt(row, k))
  }

  predicate IsCedulaHeader(rules: map<string, Rule>, h: Cell) {
    RoleOf(rules, h) == CedulaColumn
  }

  /** A header whose column is written into the record. */
  predicate StoredColumn(rules: map<string, Rule>, h: Cell) {
    RoleOf(rules, h).RuledColumn? || RoleOf(rules, h).PlainColumn?
  }

  /**
   * The cedula is read only from a cedula column with a non-empty cell:
   * without one it stays absent; a cedula column whose cell is empty always
   * leaves an error.
   */
  lemma {:induction false} CedulaOnlyFromItsColumn(setup: Setup, headers: seq<Cell>, row: seq<Cell>)
    ensures (forall j :: 0 <= j < |headers| && IsCedulaHeader(setup.rules, headers[j]) ==> Normalize(CellAt(row, j)).Null?) ==>
      ColumnsRead(setup, headers, row).cedula.None?
    ensures (exists j :: 0 <= j < |headers| && IsCedulaHeader(setup.rules, headers[j]) && Normalize(CellAt(row, j)).Null?) ==>
      CEDULA_EMPTY_MESSAGE in ColumnsRead(setup, headers, row).errors
  {
    if headers != [] {
      var k := |headers| - 1;
      var prev := ColumnsRead(setup, headers[..k], row);
      CedulaOnlyFromItsColumn(setup, headers[..k], row);
      assert forall j :: 0 <= j < k ==> headers[..k][j] == headers[j];
      var role := RoleOf(setup.rules, headers[k]);
      ColumnStepFacts(setup, prev, role, CellText(headers[k]), CellAt(row, k));
      var now := ColumnsRead(setup, headers, row);
      assert now == ColumnStep(setup, prev, role, CellText(headers[k]), CellAt(row, k));
      if exists j :: 0 <= j < |headers| && IsCedulaHeader(setup.rules, headers[j]) && Normalize(CellAt(row, j)).Null? {
        var j :| 0 <= j < |headers| && IsCedulaHeader(setup.rules, headers[j]) && Normalize(CellAt(row, j)).Null?;
        if j < k {
          assert IsCedulaHeader(setup.rules, headers[..k][j]);
          var e :| 0 <= e < |prev.errors| && prev.errors[e] == CEDULA_EMPTY_MESSAGE;
          assert now.errors[e] == CEDULA_EMPTY_MESSAGE;
        } else {
          assert j == k;
          assert IsCedulaHeader(setup.rules, headers[k]) && Normalize(CellAt(row, k)).Null?;
          assert role == CedulaColumn;
          assert now.errors == prev.errors + [CEDULA_EMPTY_MESSAGE];
        }
      }
    }
  }

  /**
   * The last cedula column whose cell is not empty decides the cedula: its
   * text, trimmed; an empty cedula cell after it does not clear it.
   */
  lemma {:induction false} CedulaFromLastFilledColumn(setup: Setup, headers: seq<Cell>, row: seq<Cell>, j: int)
    requires 0 <= j < |headers| && IsCedulaHeader(setup.rules, headers[j]) && !Normalize(CellAt(row, j)).Null?
    requires forall i :: j < i < |headers| && IsCedulaHeader(setup.rules, headers[i]) ==> Normalize(CellAt(row, i)).Null?
    ensures ColumnsRead(setup, headers, row).cedula == Some(Trim(CellText(Normalize(CellAt(row, j)))))
  {
    var k := |headers| - 1;
    ColumnsReadCedulaLast(setup, headers, row);
    if j < k {
      assert headers[..k][j] == headers[j];
      forall i | j < i < k && IsCedulaHeader(setup.rules, headers[..k][i])
        ensures Normalize(CellAt(row, i)).Null?
      {
        assert headers[..k][i] == headers[i];
      }
      CedulaFromLastFilledColumn(setup, headers[..k], row, j);
    } else {
      assert j == k;
    }
  }

  /** The last column decides the cedula when it is a non-empty cedula cell, and keeps it otherwise. */
  lemma ColumnsReadCedulaLast(setup: Setup, headers: seq<Cell>, row: seq<Cell>)
    requires headers != []
    ensures var k := |headers| - 1;
      ColumnsRead(setup, headers, row).cedula ==
        if IsCedulaHeader(setup.rules, headers[k]) && !Normalize(CellAt(row, k)).Null?
        then Some(Trim(CellText(Normalize(CellAt(row, k)))))
        else ColumnsRead(setup, headers[..k], row).cedula
  {
    var k := |headers| - 1;
    var prev := ColumnsRead(setup, headers[..k], row);
    ColumnStepCedula(setup, prev, RoleOf(setup.rules, headers[k]), CellText(headers[k]), CellAt(row, k));
  }

  /** What one column does to the cedula: only a non-empty cedula cell sets it. */
  lemma ColumnStepCedula(setup: Setup, st: Columns, role: ColumnRole, key: string, cell: Cell)
    ensures ColumnStep(setup, st, role, key, cell).cedula ==
      if role == CedulaColumn && !Normalize(cell).Null? then Some(Trim(CellText(Normalize(cell)))) else st.cedula
  {
  }

  /**
   * One column never removes an error found before it, touches the cedula
   * only when it is the cedula column, and writes at most its own key, which
   * in the studio service receives the normalised cell.
   */
  lemma ColumnStepFacts(setup: Setup, st: Columns, role: ColumnRole, key: string, cell: Cell)
    ensures st.errors <= ColumnStep(setup, st, role, key, cell).errors
    ensures role != CedulaColumn ==> ColumnStep(setup, st, role, key, cell).cedula == st.cedula
    ensures role == CedulaColumn && Normalize(cell).Null? ==>
      ColumnStep(setup, st, role, key, cell).errors == st.errors + [CEDULA_EMPTY_MESSAGE]
    ensures var data := ColumnStep(setup, st, role, key, cell).data;
      forall k :: k in data ==>
        (k in st.data && data[k] == st.data[k])
        || (k == key && (role.RuledColumn? || role.PlainColumn?)
            && (setup.variant == Service ==> data[k] == Value(Normalize(cell))))
  {
  }

  /** The keys of the record: never a cedula or name column, and only headers of the row. */
  ghost predicate KeysFromHeaders(rules: map<string, Rule>, headers: seq<Cell>, data: map<string, Stored>) {
    forall key :: key in data ==>
      exists j :: 0 <= j < |headers| && StoredColumn(rules, headers[j]) && CellText(headers[j]) == key
  }

  /**
   * In the studio service every stored value is the raw (normalised) cell of
   * its column: `validateField`'s reassignment of `value` is local to it.
   */
  ghost predicate StoresRawCells(rules: map<string, Rule>, headers: seq<Cell>, row: seq<Cell>, data: map<string, Stored>) {
    forall key :: key in data ==>
      exists j :: 0 <= j < |headers| && StoredColumn(rules, headers[j]) && CellText(headers[j]) == key
        && data[key] == Value(Normalize(CellAt(row, j)))
  }

  lemma {:induction false} ColumnKeys(setup: Setup, headers: seq<Cell>, row: seq<Cell>)
    ensures KeysFromHeaders(setup.rules, headers, ColumnsRead(setup, headers, row).data)
    ensures setup.variant == Service ==> StoresRawCells(setup.rules, headers, row, ColumnsRead(setup, headers, row).data)
  {
    if headers != [] {
      var k := |headers| - 1;
      var prev := ColumnsRead(setup, headers[..k], row);
      ColumnKeys(setup, headers[..k], row);
      assert forall j :: 0 <= j < k ==> headers[..k][j] == headers[j];
      var now := ColumnsRead(setup, headers, row);
      ColumnStepFacts(setup, prev, RoleOf(setup.rules, headers[k]), CellText(headers[k]), CellAt(row, k));
      forall key | key in now.data
        ensures exists j :: 0 <= j < |headers| && StoredColumn(setup.rules, headers[j]) && CellText(headers[j]) == key
        ensures setup.variant == Service ==>
          exists j :: 0 <= j < |headers| && StoredColumn(setup.rules, headers[j]) && CellText(headers[j]) == key
            && now.data[key] == Value(Normalize(CellAt(row, j)))
      {
        if !(key in prev.data && now.data[key] == prev.data[key]) {
          assert StoredColumn(setup.rules, headers[k]) && CellText(headers[k]) == key;
        }
      }
    }
  }

  // ---------------------------------------------------------------------------
  // One row
  // ---------------------------------------------------------------------------

  datatype Status = Skipped | Failed | Error | Success

  datatype RowResult = RowResult(rowIndex: int, status: Status, message: Option<string>)

  /** The result of `where('cedula', '==', cedula).limit(1).get()`. */
  datatype UserLookup = Found(clientRef: string) | NotFound | LookupFailed(message: string)

  /** The record added to `atenciones` (its `createdAt` clock value is not modelled). */
  datatype Attention = Attention(data: map<string, Stored>, clientRef: string)

  /** A row's result, the cedula it looked up (if it did), and the record it added (if it did). */
  datatype RowOutcome = RowOutcome(result: RowResult, queried: Option<string>, added: Option<Attention>)

  const EMPTY_ROW_MESSAGE := "Fila completamente vacía."
  const NO_CEDULA_MESSAGE := "Cédula no proporcionada o inválida en la fila."

  /** `rowErrors.join(', ')`. */
  function JoinWith(parts: seq<string>, sep: string): string {
    if parts == [] then ""
    else if |parts| == 1 then parts[0]
    else parts[0] + sep + JoinWith(parts[1..], sep)
  }

  /**
   * A row that is not blank, once its columns are read: it fails on a
   * validation error or a missing cedula, and otherwise looks the user up and
   * inserts the record (the insert answers an error message when it fails).
   */
  function Checked(cols: Columns, lookup: string -> UserLookup, insert: Attention -> Option<string>, rowIndex: int): (o: RowOutcome)
    ensures o.result.rowIndex == rowIndex
  {
    if cols.errors != [] then
      RowOutcome(RowResult(rowIndex, Failed, Some("Errores de validación: " + JoinWith(cols.errors, ", "))), None, None)
    else if cols.cedula.None? || cols.cedula.value == "" then
      RowOutcome(RowResult(rowIndex, Failed, Some(NO_CEDULA_MESSAGE)), None, None)
    else
      var cedula := cols.cedula.value;
      match lookup(cedula)
      case LookupFailed(m) =>
        RowOutcome(RowResult(rowIndex, Error, Some("Error al buscar usuario con cédula " + cedula + ": " + m)), Some(cedula), None)
      case NotFound =>
        RowOutcome(RowResult(rowIndex, Failed, Some("Usuario con cédula " + cedula + " no encontrado.")), Some(cedula), None)
      case Found(ref) =>
        var record := Attention(cols.data, ref);
        match insert(record)
        case Some(m) => RowOutcome(RowResult(rowIndex, Error, Some("Error al guardar atención: " + m)), Some(cedula), None)
        case None => RowOutcome(RowResult(rowIndex, Success, None), Some(cedula), Some(record))
  }

  /**
   * A row with a validation error, or without a cedula, fails before the
   * lookup and the insert; a row is inserted exactly when it succeeds, with
   * the record its columns built and the user the lookup found for its cedula.
   */
  lemma CheckedReachesStore(cols: Columns, lookup: string -> UserLookup, insert: Attention -> Option<string>, rowIndex: int)
    ensures var o := Checked(cols, lookup, insert, rowIndex);
      cols.errors != [] || cols.cedula.None? || cols.cedula == Some("") ==>
        o.result.status == Failed && o.queried.None? && o.added.None?
    ensures var o := Checked(cols, lookup, insert, rowIndex);
      o.queried.Some? ==> o.queried == cols.cedula && cols.errors == []
    ensures var o := Checked(cols, lookup, insert, rowIndex);
      o.added.Some? <==> o.result.status == Success
    ensures var o := Checked(cols, lookup, insert, rowIndex);
      o.added.Some? ==>
        o.queried.Some? && o.added.value == Attention(cols.data, lookup(o.queried.value).clientRef)
        && lookup(o.queried.value).Found?
  {
  }

  /** Data row `i`, sheet row `i + 2`: skipped when blank, otherwise checked once its columns are read. */
  function RowStep(setup: Setup, lookup: string -> UserLookup, insert: Attention -> Option<string>,
                   headers: seq<Cell>, row: seq<Cell>, i: nat): (o: RowOutcome)
    ensures o.result.rowIndex == i + 2
  {
    if BlankRow(row) then RowOutcome(RowResult(i + 2, Skipped, Some(EMPTY_ROW_MESSAGE)), None, None)
    else Checked(ColumnsRead(setup, headers, row), lookup, insert, i + 2)
  }

  /** An all-empty row is skipped, whatever the headers and the store say. */
  lemma BlankRowSkipped(setup: Setup, lookup: string -> UserLookup, insert: Attention -> Option<string>,
                        headers: seq<Cell>, row: seq<Cell>, i: nat)
    requires BlankRow(row)
    ensures RowStep(setup, lookup, insert, headers, row, i) ==
      RowOutcome(RowResult(i + 2, Skipped, Some(EMPTY_ROW_MESSAGE)), None, None)
  {
  }

  /** The `headers.forEach` callback for one column. */
  method ReadColumn(setup: Setup, cols: Columns, header: Cell, cell: Cell) returns (cols': Columns)
    ensures cols' == ColumnStep(setup, cols, RoleOf(setup.rules, header), CellText(header), cell)
  {
    cols' := cols;
    if header.Undefined? {
      return;
    }
    var key := CellText(header);
    var normalizedHeader := Trim(ToLower(key));
    var value := cell;
    if value.Undefined? || value.Null? || (value.Text? && IsBlank(value.text)) {
      value := Null;
    }
    assert value == Normalize(cell) && normalizedHeader == NormalizedHeader(header);
    ghost var role := RoleOf(setup.rules, header);
    if normalizedHeader == "cedula" {
      assert role == CedulaColumn;
      if !value.Null? {
        cols' := cols'.(cedula := Some(Trim(CellText(value))));
      } else {
        cols' := cols'.(errors := cols'.errors + [CEDULA_EMPTY_MESSAGE]);
      }
    } else if normalizedHeader != "nombres" && normalizedHeader != "apellidos" {
      if key in setup.rules {
        var rule := setup.rules[key];
        assert role == RuledColumn(rule);
        cols' := ReadRuledColumn(setup, cols, key, cell, value, rule);
      } else {
        assert role == PlainColumn;
        cols' := cols'.(data := cols'.data[key := Value(value)]);
      }
    } else {
      assert role == NameColumn;
    }
  }

  /** A column with a validation rule: the error is recorded, or the value stored under its header. */
  method ReadRuledColumn(setup: Setup, cols: Columns, key: string, cell: Cell, value: Cell, rule: Rule) returns (cols': Columns)
    requires value == Normalize(cell)
    ensures cols' == ColumnStep(setup, cols, RuledColumn(rule), key, cell)
  {
    var validationError := ValidateField(setup.variant, key, value, rule, setup.parsers);
    ghost var validated := Validated(setup, key, value, rule);
    if validationError.Some? {
      assert validated == Err(validationError.value);
      cols' := cols.(errors := cols.errors + [validationError.value]);
    } else if setup.variant == Service {
      assert validated == Ok(Value(value));
      cols' := cols.(data := cols.data[key := Value(value)]);
    } else {
      assert validated == Ok(FormatValidatedValue(value, rule.kind));
      cols' := cols.(data := cols.data[key := FormatValidatedValue(value, rule.kind)]);
    }
  }

  /** The `headers.forEach` loop over one row. */
  method ReadColumns(setup: Setup, headers: seq<Cell>, row: seq<Cell>) returns (cols: Columns)
    ensures cols == ColumnsRead(setup, headers, row)
  {
    cols := Columns(map[], None, []);
    for colIndex := 0 to |headers|
      invariant cols == ColumnsRead(setup, headers[..colIndex], row)
    {
      assert headers[..colIndex + 1][..colIndex] == headers[..colIndex];
      cols := ReadColumn(setup, cols, headers[colIndex], CellAt(row, colIndex));
    }
    assert headers[..|headers|] == headers;
  }

  /** One iteration of the row loop. */
  method ProcessRow(setup: Setup, lookup: string -> UserLookup, insert: Attention -> Option<string>,
                    headers: seq<Cell>, row: seq<Cell>, i: nat)
    returns (result: RowResult, queried: Option<string>, added: Option<Attention>)
    ensures RowOutcome(result, queried, added) == RowStep(setup, lookup, insert, headers, row, i)
  {
    var rowIndex := i + 2;
    queried, added := None, None;
    if BlankRow(row) {
      return RowResult(rowIndex, Skipped, Some(EMPTY_ROW_MESSAGE)), queried, added;
    }
    var cols := ReadColumns(setup, headers, row);
    if |cols.errors| > 0 {
      return RowResult(rowIndex, Failed, Some("Errores de validación: " + JoinWith(cols.errors, ", "))), queried, added;
    }
    if cols.cedula.None? || cols.cedula.value == "" {
      return RowResult(rowIndex, Failed, Some(NO_CEDULA_MESSAGE)), queried, added;
    }
    var cedula := cols.cedula.value;
    queried := Some(cedula);
    var userQuery := lookup(cedula);
    if userQuery.LookupFailed? {
      return RowResult(rowIndex, Error, Some("Error al buscar usuario con cédula " + cedula + ": " + userQuery.message)), queried, added;
    }
    if userQuery.NotFound? {
      return RowResult(rowIndex, Failed, Some("Usuario con cédula " + cedula + " no encontrado.")), queried, added;
    }
    var record := Attention(cols.data, userQuery.clientRef);
    var saveError := insert(record);
    if saveError.Some? {
      return RowResult(rowIndex, Error, Some("Error al guardar atención: " + saveError.value)), queried, added;
    }
    added := Some(record);
    result := RowResult(rowIndex, Success, None);
  }

  // ---------------------------------------------------------------------------
  // The whole sheet
  // ---------------------------------------------------------------------------

  /** The results, the lookups and the inserted records of a run over data rows, in order. */
  datatype Run = Run(results: seq<RowResult>, queried: seq<string>, added: seq<Attention>)

  function OptionList<T>(o: Option<T>): seq<T> {
    if o.Some? then [o.value] else []
  }

  /** A row's outcome as a function of the row and its index, everything else fixed. */
  function RowStepper(setup: Setup, lookup: string -> UserLookup, insert: Attention -> Option<string>,
                      headers: seq<Cell>): (seq<Cell>, nat) -> RowOutcome
  {
    (row: seq<Cell>, i: nat) => RowStep(setup, lookup, insert, headers, row, i)
  }

  /** The `for` loop over data rows: each row's outcome appended in order. */
  function RowsFold(step: (seq<Cell>, nat) -> RowOutcome, rows: seq<seq<Cell>>): (r: Run)
    ensures |r.results| == |rows|
  {
    if rows == [] then Run([], [], [])
    else
      var k := |rows| - 1;
      var prev := RowsFold(step, rows[..k]);
      var o := step(rows[k], k);
      Run(prev.results + [o.result], prev.queried + OptionList(o.queried), prev.added + OptionList(o.added))
  }

  function RowsRun(setup: Setup, lookup: string -> UserLookup, insert: Attention -> Option<string>,
                   headers: seq<Cell>, rows: seq<seq<Cell>>): (r: Run)
    ensures |r.results| == |rows|
  {
    RowsFold(RowStepper(setup, lookup, insert, headers), rows)
  }

  /** Each data row gets exactly one result, its own, at sheet row `i + 2`. */
  lemma RowsRunResults(setup: Setup, lookup: string -> UserLookup, insert: Attention -> Option<string>,
                       headers: seq<Cell>, rows: seq<seq<Cell>>)
    ensures var r := RowsRun(setup, lookup, insert, headers, rows);
      forall i :: 0 <= i < |rows| ==>
        r.results[i] == RowStep(setup, lookup, insert, headers, rows[i], i).result && r.results[i].rowIndex == i + 2
  {
    var step := RowStepper(setup, lookup, insert, headers);
    forall i | 0 <= i < |rows|
      ensures RowsRun(setup, lookup, insert, headers, rows).results[i] == RowStep(setup, lookup, insert, headers, rows[i], i).result
    {
      FoldResultAt(step, rows, i);
    }
  }

  /** The result of row `i` is written when row `i` is reached and never changed after. */
  lemma {:induction false} FoldResultAt(step: (seq<Cell>, nat) -> RowOutcome, rows: seq<seq<Cell>>, i: nat)
    requires i < |rows|
    ensures RowsFold(step, rows).results[i] == step(rows[i], i).result
  {
    var k := |rows| - 1;
    var prev := RowsFold(step, rows[..k]);
    assert RowsFold(step, rows).results == prev.results + [step(rows[k], k).result];
    if i < k {
      assert rows[..k][i] == rows[i];
      FoldResultAt(step, rows[..k], i);
      assert prev.results[i] == step(rows[i], i).result;
    }
  }

  function CountSuccess(rs: seq<RowResult>): nat {
    if rs == [] then 0 else CountSuccess(rs[..|rs| - 1]) + (if rs[|rs| - 1].status == Success then 1 else 0)
  }

  /** `failed` and `error` results, counted together as the source's failures. */
  function CountFailed(rs: seq<RowResult>): nat {
    if rs == [] then 0 else CountFailed(rs[..|rs| - 1]) + (if rs[|rs| - 1].status in {Failed, Error} then 1 else 0)
  }

  function CountSkipped(rs: seq<RowResult>): nat {
    if rs == [] then 0 else CountSkipped(rs[..|rs| - 1]) + (if rs[|rs| - 1].status == Skipped then 1 else 0)
  }

  /** Successes, failures and skipped rows partition the results; there are failures iff some result failed. */
  lemma {:induction false} StatusesPartition(rs: seq<RowResult>)
    ensures CountSuccess(rs) + CountFailed(rs) + CountSkipped(rs) == |rs|
    ensures CountFailed(rs) > 0 <==> exists i :: 0 <= i < |rs| && rs[i].status in {Failed, Error}
  {
    if rs != [] {
      var k := |rs| - 1;
      StatusesPartition(rs[..k]);
      assert forall i :: 0 <= i < k ==> rs[..k][i] == rs[i];
      if CountFailed(rs[..k]) > 0 {
        var i :| 0 <= i < k && rs[..k][i].status in {Failed, Error};
        assert rs[i].status in {Failed, Error};
      }
    }
  }

  const NO_THIRD_SHEET_MESSAGE := "La tercera hoja de cálculo no existe en el archivo proporcionado."
  const EMPTY_SHEET_MESSAGE := "La hoja de cálculo está vacía."

  /** What `processExcel` throws: the service throws a 400, the processor a plain `Error` without status. */
  datatype ExcelError = ExcelError(status: Option<int>, message: string, details: seq<RowResult>)

  function ThrownStatus(variant: Variant): Option<int> {
    if variant == Service then Some(BAD_REQUEST) else None
  }

  function ReportMessage(rs: seq<RowResult>, totalRows: nat): string {
    "Procesamiento de hoja de cálculo completado: " + NatToString(CountSuccess(rs)) + " éxitos, "
      + NatToString(CountFailed(rs)) + " fallos, " + NatToString(CountSkipped(rs)) + " saltados de "
      + NatToString(totalRows) + " filas."
  }

  /**
   * `processExcel`, given the workbook's sheet names, the rows of its third
   * sheet (headers first), what the runtime parses, the user lookup and the
   * insert. Returns every row's result, the cedulas looked up and the records
   * added, in order, and whether the run throws.
   */
  method ProcessExcel(variant: Variant, parsers: Parsers, lookup: string -> UserLookup, insert: Attention -> Option<string>,
                      sheetNames: seq<string>, jsonData: seq<seq<Cell>>)
    returns (results: seq<RowResult>, queried: seq<string>, added: seq<Attention>, outcome: Result<(), ExcelError>)
    ensures |sheetNames| < 3 || sheetNames[2] == "" ==>
      results == [] && queried == [] && added == [] && outcome == Err(ExcelError(ThrownStatus(variant), NO_THIRD_SHEET_MESSAGE, []))
    ensures |sheetNames| >= 3 && sheetNames[2] != "" && jsonData == [] ==>
      results == [] && queried == [] && added == [] && outcome == Err(ExcelError(ThrownStatus(variant), EMPTY_SHEET_MESSAGE, []))
    ensures |sheetNames| >= 3 && sheetNames[2] != "" && jsonData != [] ==>
      && Run(results, queried, added) == RowsRun(Setup(variant, parsers, VALIDATION_RULES), lookup, insert, jsonData[0], jsonData[1..])
      && |results| == |jsonData| - 1
      && (outcome.Err? <==> CountFailed(results) > 0)
      && (outcome.Err? ==> outcome.error == ExcelError(ThrownStatus(variant), ReportMessage(results, |jsonData| - 1), results))
  {
    var setup := Setup(variant, parsers, VALIDATION_RULES);
    results, queried, added := [], [], [];
    if |sheetNames| < 3 || sheetNames[2] == "" {
      return results, queried, added, Err(ExcelError(ThrownStatus(variant), NO_THIRD_SHEET_MESSAGE, []));
    }
    if |jsonData| == 0 {
      return results, queried, added, Err(ExcelError(ThrownStatus(variant), EMPTY_SHEET_MESSAGE, []));
    }
    var headers := jsonData[0];
    var dataRows := jsonData[1..];
    for i := 0 to |dataRows|
      invariant Run(results, queried, added) == RowsRun(setup, lookup, insert, headers, dataRows[..i])
    {
      assert dataRows[..i + 1][..i] == dataRows[..i];
      var result, looked, record := ProcessRow(setup, lookup, insert, headers, dataRows[i], i);
      results := results + [result];
      queried := queried + OptionList(looked);
      added := added + OptionList(record);
    }
    assert dataRows[..|dataRows|] == dataRows;
    var failedCount := CountFailed(results);
    if failedCount > 0 {
      outcome := Err(ExcelError(ThrownStatus(variant), ReportMessage(results, |dataRows|), results));
    } else {
      outcome := Ok(());
    }
  }
}

=== FILE: text.dfy ===
/**
 * The JavaScript string operations the core relies on: `split` and `join` on a
 * one-character separator, `trim`, `startsWith` and ASCII case mapping.
 */
module Text {

  /** JavaScript's WhiteSpace and LineTerminator characters, the ones `trim` removes. */
  predicate IsSpace(c: char) {
    || c == ' ' || c == '\t' || c == '\n' || c == '\r' || c == '\U{B}' || c == '\U{C}'
    || c == '\U{A0}' || c == '\U{FEFF}' || c == '\U{1680}' || ('\U{2000}' <= c <= '\U{200A}')
    || c == '\U{2028}' || c == '\U{2029}' || c == '\U{202F}' || c == '\U{205F}' || c == '\U{3000}'
  }

  /** Every character of `s` is white space (the empty string included). */
  predicate IsBlank(s: string) {
    forall i :: 0 <= i < |s| ==> IsSpace(s[i])
  }

  /** `s` with its leading white space removed. */
  function TrimStart(s: string): string {
    if s != [] && IsSpace(s[0]) then TrimStart(s[1..]) else s
  }

  /** `s` with its trailing white space removed. */
  function TrimEnd(s: string): string {
    if s != [] && IsSpace(s[|s| - 1]) then TrimEnd(s[..|s| - 1]) else s
  }

  /** `String.prototype.trim`. */
  function Trim(s: string): string {
    TrimEnd(TrimStart(s))
  }

  /** `TrimStart` keeps a suffix that does not start with a space, and removes only spaces. */
  lemma {:induction false} TrimStartShape(s: string)
    ensures |TrimStart(s)| <= |s| && TrimStart(s) == s[|s| - |TrimStart(s)|..]
    ensures TrimStart(s) != [] ==> !IsSpace(TrimStart(s)[0])
    ensures IsBlank(s[..|s| - |TrimStart(s)|])
  {
    if s != [] && IsSpace(s[0]) {
      TrimStartShape(s[1..]);
      var r := TrimStart(s[1..]);
      assert s[1..][|s| - 1 - |r|..] == s[|s| - |r|..];
      var removed, rest := s[..|s| - |r|], s[1..][..|s| - 1 - |r|];
      forall i | 0 <= i < |removed| ensures IsSpace(removed[i]) {
        if i > 0 { assert removed[i] == rest[i - 1]; }
      }
    } else {
      assert s[0..] == s;
    }
  }

  /** `TrimEnd` keeps a prefix that does not end with a space, and removes only spaces. */
  lemma {:induction false} TrimEndShape(s: string)
    ensures |TrimEnd(s)| <= |s| && TrimEnd(s) == s[..|TrimEnd(s)|]
    ensures TrimEnd(s) != [] ==> !IsSpace(TrimEnd(s)[|TrimEnd(s)| - 1])
    ensures IsBlank(s[|TrimEnd(s)|..])
  {
    if s != [] && IsSpace(s[|s| - 1]) {
      var t := s[..|s| - 1];
      TrimEndShape(t);
      var r := TrimEnd(t);
      assert t[..|r|] == s[..|r|];
      var removed, rest := s[|r|..], t[|r|..];
      forall i | 0 <= i < |removed| ensures IsSpace(removed[i]) {
        if i < |rest| { assert removed[i] == rest[i]; }
      }
    } else {
      assert s[..|s|] == s;
    }
  }

  /** `s.trim() === ''` holds exactly for the blank strings. */
  lemma TrimEmptyIffBlank(s: string)
    ensures Trim(s) == [] <==> IsBlank(s)
  {
    var t := TrimStart(s);
    if Trim(s) == [] {
      TrimStartShape(s);
      TrimEndShape(t);
      assert t[0..] == t;
      assert t == [];
      assert s[..|s|] == s;
    }
    if IsBlank(s) {
      BlankTrimsAway(s);
    }
  }

  lemma {:induction false} BlankTrimsAway(s: string)
    requires IsBlank(s)
    ensures TrimStart(s) == []
  {
    if s != [] {
      assert IsBlank(s[1..]) by {
        forall i | 0 <= i < |s[1..]| ensures IsSpace(s[1..][i]) { assert s[1..][i] == s[i + 1]; }
      }
      BlankTrimsAway(s[1..]);
    }
  }

  /** The ASCII upper-case mapping of one character. */
  function UpperChar(c: char): char {
    if 'a' <= c <= 'z' then (c as int - 32) as char else c
  }

  /** The ASCII lower-case mapping of one character. */
  function LowerChar(c: char): char {
    if 'A' <= c <= 'Z' then (c as int + 32) as char else c
  }

  /** Upper-casing is idempotent and never creates or removes a space. */
  lemma UpperCharFacts(c: char)
    ensures UpperChar(UpperChar(c)) == UpperChar(c)
    ensures UpperChar(c) == ' ' <==> c == ' '
  {
  }

  /** `String.prototype.toLowerCase`, on ASCII letters. */
  function ToLower(s: string): (r: string)
    ensures |r| == |s| && forall i :: 0 <= i < |s| ==> r[i] == LowerChar(s[i])
  {
    seq(|s|, i requires 0 <= i < |s| => LowerChar(s[i]))
  }

  /** `s.startsWith(prefix)`. */
  predicate StartsWith(s: string, prefix: string) {
    |prefix| <= |s| && s[..|prefix|] == prefix
  }

  /** Does `c` occur in `s`? */
  predicate Contains(s: string, c: char) {
    exists i :: 0 <= i < |s| && s[i] == c
  }

  /** `s.split(sep)` for a one-character separator: the pieces between separators, at least one. */
  function Split(s: string, sep: char): (parts: seq<string>)
    ensures |parts| >= 1
  {
    if s == [] then [[]]
    else
      var rest := Split(s[1..], sep);
      if s[0] == sep then [[]] + rest else [[s[0]] + rest[0]] + rest[1..]
  }

  /** `parts.join(sep)`. */
  function Join(parts: seq<string>, sep: char): string {
    if parts == [] then []
    else if |parts| == 1 then parts[0]
    else parts[0] + [sep] + Join(parts[1..], sep)
  }

  /** No piece of a split contains the separator. */
  lemma {:induction false} SplitPiecesAvoidSep(s: string, sep: char)
    ensures forall i :: 0 <= i < |Split(s, sep)| ==> !Contains(Split(s, sep)[i], sep)
  {
    if s != [] {
      SplitPiecesAvoidSep(s[1..], sep);
      var rest := Split(s[1..], sep);
      if s[0] != sep {
        var first := [s[0]] + rest[0];
        assert !Contains(rest[0], sep);
        forall k | 0 <= k < |first| ensures first[k] != sep {
          if k > 0 { assert first[k] == rest[0][k - 1]; }
        }
        assert Split(s, sep) == [first] + rest[1..];
        forall i | 0 <= i < |Split(s, sep)| ensures !Contains(Split(s, sep)[i], sep) {
          if i > 0 { assert Split(s, sep)[i] == rest[i]; }
        }
      }
    }
  }

  /** Joining the pieces of a split gives back the string. */
  lemma {:induction false} JoinSplit(s: string, sep: char)
    ensures Join(Split(s, sep), sep) == s
  {
    if s != [] {
      JoinSplit(s[1..], sep);
      var rest := Split(s[1..], sep);
      if s[0] == sep {
        assert Split(s, sep) == [[]] + rest;
      } else {
        var parts := [[s[0]] + rest[0]] + rest[1..];
        if |rest| == 1 {
          assert Join(parts, sep) == [s[0]] + rest[0];
        } else {
          assert parts[1..] == rest[1..];
          assert Join(parts, sep) == [s[0]] + (rest[0] + [sep] + Join(rest[1..], sep));
        }
      }
    }
  }

  /** Splitting a join of separator-free pieces gives back the pieces. */
  lemma {:induction false} SplitJoin(parts: seq<string>, sep: char)
    requires |parts| >= 1
    requires forall i :: 0 <= i < |parts| ==> !Contains(parts[i], sep)
    ensures Split(Join(parts, sep), sep) == parts
  {
    if |parts| == 1 {
      SplitWord(parts[0], [], sep);
    } else {
      SplitJoin(parts[1..], sep);
      SplitWord(parts[0], Join(parts[1..], sep), sep);
      assert Join(parts, sep) == parts[0] + ([sep] + Join(parts[1..], sep));
    }
  }

  /** Splitting `w + [sep] + tail` (or `w` alone) where `w` has no separator. */
  lemma {:induction false} SplitWord(w: string, tail: string, sep: char)
    requires !Contains(w, sep)
    ensures tail == [] ==> Split(w, sep) == [w]
    ensures Split(w + ([sep] + tail), sep) == [w] + Split(tail, sep)
  {
    if w == [] {
      var x := [sep] + tail;
      assert w + x == x && x[0] == sep && x[1..] == tail;
    } else {
      assert !Contains(w[1..], sep) by {
        forall k | 0 <= k < |w[1..]| ensures w[1..][k] != sep { assert w[1..][k] == w[k + 1]; }
      }
      SplitWord(w[1..], tail, sep);
      assert (w + ([sep] + tail))[1..] == w[1..] + ([sep] + tail);
      assert [w[0]] + w[1..] == w;
    }
  }

  /** A piece of `s.split(sep)` is the text of `s` before the first separator. */
  lemma {:induction false} SplitHead(s: string, sep: char)
    ensures Contains(s, sep) ==>
      exists i :: 0 <= i < |s| && s[i] == sep && !Contains(s[..i], sep) && Split(s, sep)[0] == s[..i]
    ensures !Contains(s, sep) ==> Split(s, sep) == [s]
  {
    if s != [] {
      SplitHead(s[1..], sep);
      var rest := Split(s[1..], sep);
      if s[0] == sep {
        assert s[..0] == [];
      } else if Contains(s[1..], sep) {
        var i :| 0 <= i < |s[1..]| && s[1..][i] == sep && !Contains(s[1..][..i], sep) && rest[0] == s[1..][..i];
        var pre := s[..i + 1];
        assert pre == [s[0]] + s[1..][..i];
        assert !Contains(pre, sep) by {
          forall k | 0 <= k < |pre| ensures pre[k] != sep {
            if k > 0 { assert pre[k] == s[1..][..i][k - 1]; }
          }
        }
        assert s[i + 1] == sep;
      } else {
        forall k | 0 <= k < |s| ensures s[k] != sep {
          if k > 0 { assert s[k] == s[1..][k - 1]; }
        }
        assert [s[0]] + s[1..] == s;
      }
    }
  }

  /** The decimal text of a natural number, as a template literal renders it. */
  function NatToString(n: nat): (s: string)
    ensures |s| >= 1 && forall i :: 0 <= i < |s| ==> '0' <= s[i] <= '9'
  {
    var digit := ['0' + (n % 10) as char];
    if n < 10 then digit else NatToString(n / 10) + digit
  }

  /** JavaScript's `length`: UTF-16 code units, two for a character outside the Basic Multilingual Plane. */
  function Utf16Length(s: string): (n: nat)
    ensures |s| <= n <= 2 * |s|
  {
    if s == [] then 0 else Utf16Length(s[..|s| - 1]) + (if s[|s| - 1] >= '\U{10000}' then 2 else 1)
  }

  /** The UTF-16 length adds up over a concatenation, and equals the character count for plane-0 text. */
  lemma {:induction false} Utf16LengthFacts(a: string, b: string)
    ensures Utf16Length(a + b) == Utf16Length(a) + Utf16Length(b)
    ensures (forall i :: 0 <= i < |a| ==> a[i] < '\U{10000}') ==> Utf16Length(a) == |a|
    ensures (forall i :: 0 <= i < |a| ==> a[i] >= '\U{10000}') ==> Utf16Length(a) == 2 * |a|
  {
    if b != [] {
      Utf16LengthFacts(a, b[..|b| - 1]);
      assert (a + b)[..|a + b| - 1] == a + b[..|b| - 1];
    } else {
      assert a + b == a;
    }
    if a != [] {
      Utf16LengthFacts(a[..|a| - 1], []);
      assert a[..|a| - 1] + [] == a[..|a| - 1];
    }
  }

  /** The number a string of decimal digits denotes, read most significant digit first. */
  function DigitsValue(s: string): int {
    if s == [] then 0 else DigitsValue(s[..|s| - 1]) * 10 + (s[|s| - 1] as int - '0' as int)
  }

  /** Reading the rendered digits back gives the number, and only zero renders with a leading zero. */
  lemma {:induction false} NatToStringRoundTrip(n: nat)
    ensures DigitsValue(NatToString(n)) == n
    ensures NatToString(n)[0] == '0' <==> n == 0
  {
    var digit := ['0' + (n % 10) as char];
    assert digit[0] as int - '0' as int == n % 10;
    if n >= 10 {
      var m := n / 10;
      NatToStringRoundTrip(m);
      var s := NatToString(m) + digit;
      assert NatToString(n) == s;
      assert s[..|s| - 1] == NatToString(m) && s[|s| - 1] == digit[0] && s[0] == NatToString(m)[0];
      assert DigitsValue(s) == m * 10 + n % 10;
    } else {
      assert NatToString(n) == digit;
      assert digit[..0] == [];
    }
  }
}

=== FILE: whatsapp.dfy ===
/**
 * The WhatsApp reminder jobs: `checkAndNotifyTwoDaysBefore` and
 * `checkAndNotifySameDay`. Time is a count of minutes in the salon's time
 * zone and a day is 1440 of them. The booking query is a filter over the
 * collection; message delivery and the date and time texts are inputs.
 */
module Whatsapp {
  import opened Wrappers

  const MINUTES_PER_DAY := 1440

  /** The calendar day of a minute (floor division: the divisor is positive). */
  function Day(t: int): int {
    t / MINUTES_PER_DAY
  }

  /** `startOfDay`: the first minute of the day of `t`. */
  function StartOfDay(t: int): (r: int)
    ensures r <= t < r + MINUTES_PER_DAY && Day(r) == Day(t)
  {
    Day(t) * MINUTES_PER_DAY
  }

  /** `endOfDay`: the last minute of the day of `t`. */
  function EndOfDay(t: int): (r: int)
    ensures r - MINUTES_PER_DAY < t <= r && Day(r) == Day(t)
  {
    StartOfDay(t) + MINUTES_PER_DAY - 1
  }

  function AddDays(t: int, days: int): int {
    t + days * MINUTES_PER_DAY
  }

  /** A minute lies in day `k` exactly when it is within that day's 1440 minutes. */
  lemma DayRange(t: int, k: int)
    ensures Day(t) == k <==> k * MINUTES_PER_DAY <= t < k * MINUTES_PER_DAY + MINUTES_PER_DAY
  {
  }

  /**
   * A booking document. `notifWS1` and `notifWS2` are absent until written;
   * empty texts count as missing, as JavaScript's `||` and `!` treat them.
   */
  datatype Booking = Booking(
    id: string,
    date: Option<int>,
    numeroCliente: Option<string>,
    nombreCliente: Option<string>,
    serviceName: Option<string>,
    startDateTime: Option<int>,
    notifWS1: Option<bool>,
    notifWS2: Option<bool>)

  /** `value || fallback` for an optional text. */
  function PresentOr(value: Option<string>, fallback: string): (r: string)
    ensures value.Some? && value.value != "" ==> r == value.value
    ensures value.None? || value.value == "" ==> r == fallback
  {
    if value.Some? && value.value != "" then value.value else fallback
  }

  /** Skipped for incomplete data: no date, or no client number. */
  predicate Incomplete(b: Booking) {
    b.date.None? || PresentOr(b.numeroCliente, "") == ""
  }

  datatype Reminder = TwoDays | SameDay

  /** The flag a reminder sets once it is sent. */
  function Flag(kind: Reminder, b: Booking): Option<bool> {
    match kind
    case TwoDays => b.notifWS1
    case SameDay => b.notifWS2
  }

  function WithFlag(kind: Reminder, b: Booking): (r: Booking)
    ensures Flag(kind, r) == Some(true)
    ensures r == b.(notifWS1 := r.notifWS1, notifWS2 := r.notifWS2)
    ensures Flag(if kind == TwoDays then SameDay else TwoDays, r) == Flag(if kind == TwoDays then SameDay else TwoDays, b)
  {
    match kind
    case TwoDays => b.(notifWS1 := Some(true))
    case SameDay => b.(notifWS2 := Some(true))
  }

  /**
   * The bounds of the booking query, already converted for Firestore: an
   * optional lower bound (the same-day query has one) and an upper bound.
   */
  datatype Window = Window(low: Option<int>, high: int)

  /**
   * The Firestore query: a date within the bounds and the reminder's flag
   * `!= true`, which Firestore only matches on documents where the field
   * exists.
   */
  predicate Queried(kind: Reminder, window: Window, b: Booking) {
    && b.date.Some?
    && (window.low.Some? ==> window.low.value <= b.date.value)
    && b.date.value <= window.high
    && Flag(kind, b).Some? && Flag(kind, b).value != true
  }

  /**
   * The documents the query returns, kept in the order of `bookings`.
   * Firestore orders a range or `!=` query by the inequality fields and then
   * by document id; `bookings` stands for the collection in that order.
   */
  function Snapshot(kind: Reminder, window: Window, bookings: seq<Booking>): (r: seq<Booking>)
    ensures |r| <= |bookings|
    ensures forall b :: b in r <==> b in bookings && Queried(kind, window, b)
  {
    if bookings == [] then []
    else
      var rest := Snapshot(kind, window, bookings[..|bookings| - 1]);
      var b := bookings[|bookings| - 1];
      if Queried(kind, window, b) then rest + [b] else rest
  }

  /** The two-day window: not before the start of today, not after the end of the day two days ahead. */
  predicate InTwoDayWindow(now: int, date: int) {
    !(date < StartOfDay(now)) && !(AddDays(EndOfDay(now), 2) < date)
  }

  /** The condition a complete booking must meet for the reminder to be sent. */
  predicate Eligible(kind: Reminder, now: int, b: Booking)
    requires b.date.Some?
  {
    match kind
    case TwoDays => InTwoDayWindow(now, b.date.value) && !(b.notifWS1 == Some(true))
    case SameDay => Day(b.date.value) == Day(now) && !(b.notifWS2 == Some(true))
  }

  /**
   * Two-day eligibility, by calendar day: the booking falls on today or one
   * of the next two days and `notifWS1` is not set.
   */
  lemma TwoDayEligibleByDay(now: int, b: Booking)
    requires b.date.Some?
    ensures Eligible(TwoDays, now, b) <==>
      Day(now) <= Day(b.date.value) <= Day(now) + 2 && b.notifWS1 != Some(true)
  {
    var d := b.date.value;
    DayRange(d, Day(d));
    DayRange(now, Day(now));
  }

  /**
   * Same-day eligibility, by minutes: the booking lies between the start
   * and the end of today and `notifWS2` is not set.
   */
  lemma SameDayEligibleByWindow(now: int, b: Booking)
    requires b.date.Some?
    ensures Eligible(SameDay, now, b) <==>
      StartOfDay(now) <= b.date.value <= EndOfDay(now) && b.notifWS2 != Some(true)
  {
    DayRange(b.date.value, Day(now));
  }

  /** The formatters of the booking date (`eeee d 'de' MMMM`) and start time (`h:mm a`). */
  datatype Formats = Formats(date: int -> string, time: int -> string)

  const DEFAULT_CLIENT := "cliente"
  const DEFAULT_SERVICE := "servicio"
  const DEFAULT_TIME := "la hora programada"

  /** The reminder text, from the client's name, the service and the date or time of the booking. */
  function Text(kind: Reminder, name: string, service: string, when: string): string {
    match kind
    case TwoDays =>
      "¡Hola " + name + "! Te recordamos tu cita de " + service + " en 2 días o menos, el " + when + ". ¡Te esperamos!"
    case SameDay =>
      "¡Hola " + name + "! Solo un recordatorio rápido: tienes tu cita de " + service + " hoy a las " + when + ". ¡Te esperamos!"
  }

  /** The date (two days ahead) or the start time (same day) the text names. */
  function When(kind: Reminder, b: Booking, formats: Formats): (r: string)
    requires b.date.Some?
    ensures kind == SameDay && b.startDateTime.None? ==> r == DEFAULT_TIME
  {
    match kind
    case TwoDays => formats.date(b.date.value)
    case SameDay => if b.startDateTime.Some? then formats.time(b.startDateTime.value) else DEFAULT_TIME
  }

  /** The reminder sent for a booking; a missing or empty name or service falls back to its default. */
  function Message(kind: Reminder, b: Booking, formats: Formats): (r: string)
    requires b.date.Some?
    ensures b.nombreCliente.Some? && b.nombreCliente.value != "" ==>
      r == Text(kind, b.nombreCliente.value, PresentOr(b.serviceName, DEFAULT_SERVICE), When(kind, b, formats))
    ensures b.nombreCliente.None? || b.nombreCliente.value == "" ==>
      r == Text(kind, DEFAULT_CLIENT, PresentOr(b.serviceName, DEFAULT_SERVICE), When(kind, b, formats))
    ensures b.serviceName.Some? && b.serviceName.value != "" ==>
      r == Text(kind, PresentOr(b.nombreCliente, DEFAULT_CLIENT), b.serviceName.value, When(kind, b, formats))
    ensures b.serviceName.None? || b.serviceName.value == "" ==>
      r == Text(kind, PresentOr(b.nombreCliente, DEFAULT_CLIENT), DEFAULT_SERVICE, When(kind, b, formats))
  {
    Text(kind, PresentOr(b.nombreCliente, DEFAULT_CLIENT), PresentOr(b.serviceName, DEFAULT_SERVICE), When(kind, b, formats))
  }

  /** A message handed to `sendWhatsAppMessage`. */
  datatype Notification = Notification(to: string, message: string)

  /** The counters, the bookings whose flag update is pushed, and every send attempted. */
  datatype Tally = Tally(successful: nat, failed: nat, flagged: seq<string>, attempts: seq<Notification>)

  const EMPTY_TALLY := Tally(0, 0, [], [])

  /**
   * One booking of the loop. `deliver` says whether the send succeeds; the
   * flag update is pushed only after a successful send.
   */
  function Step(kind: Reminder, now: int, deliver: Notification -> bool, formats: Formats, t: Tally, b: Booking): (r: Tally)
    ensures Incomplete(b) || !Eligible(kind, now, b) ==> r == t
  {
    if Incomplete(b) || !Eligible(kind, now, b) then t
    else
      var n := Notification(b.numeroCliente.value, Message(kind, b, formats));
      if deliver(n) then Tally(t.successful + 1, t.failed, t.flagged + [b.id], t.attempts + [n])
      else Tally(t.successful, t.failed + 1, t.flagged, t.attempts + [n])
  }

  /** The loop over a snapshot, in order. */
  function Run(kind: Reminder, now: int, deliver: Notification -> bool, formats: Formats, docs: seq<Booking>): Tally {
    if docs == [] then EMPTY_TALLY
    else Step(kind, now, deliver, formats, Run(kind, now, deliver, formats, docs[..|docs| - 1]), docs[|docs| - 1])
  }

  /** The bookings a reminder is attempted for: complete and eligible. */
  function Attempted(kind: Reminder, now: int, docs: seq<Booking>): (r: seq<Booking>)
    ensures |r| <= |docs|
    ensures forall i :: 0 <= i < |r| ==> !Incomplete(r[i]) && Eligible(kind, now, r[i])
  {
    if docs == [] then []
    else
      var b := docs[|docs| - 1];
      Attempted(kind, now, docs[..|docs| - 1]) + (if !Incomplete(b) && Eligible(kind, now, b) then [b] else [])
  }

  /** The notifications for the attempted bookings. */
  function Notifications(kind: Reminder, formats: Formats, docs: seq<Booking>): (r: seq<Notification>)
    requires forall i :: 0 <= i < |docs| ==> !Incomplete(docs[i])
    ensures |r| == |docs|
  {
    if docs == [] then []
    else
      var b := docs[|docs| - 1];
      assert !Incomplete(b);
      Notifications(kind, formats, docs[..|docs| - 1]) + [Notification(b.numeroCliente.value, Message(kind, b, formats))]
  }

  /** The ids of the attempted bookings whose send succeeded. */
  function Delivered(kind: Reminder, deliver: Notification -> bool, formats: Formats, docs: seq<Booking>): (r: seq<string>)
    requires forall i :: 0 <= i < |docs| ==> !Incomplete(docs[i])
    ensures |r| <= |docs|
  {
    if docs == [] then []
    else
      var b := docs[|docs| - 1];
      assert !Incomplete(b);
      Delivered(kind, deliver, formats, docs[..|docs| - 1])
      + (if deliver(Notification(b.numeroCliente.value, Message(kind, b, formats))) then [b.id] else [])
  }

  /** A run sends exactly one message per complete, eligible booking, in order. */
  lemma {:induction false} RunAttempts(kind: Reminder, now: int, deliver: Notification -> bool, formats: Formats, docs: seq<Booking>)
    ensures Run(kind, now, deliver, formats, docs).attempts == Notifications(kind, formats, Attempted(kind, now, docs))
  {
    if docs != [] {
      var prefix := docs[..|docs| - 1];
      var b := docs[|docs| - 1];
      RunAttempts(kind, now, deliver, formats, prefix);
      var attempted := Attempted(kind, now, prefix);
      if !Incomplete(b) && Eligible(kind, now, b) {
        var all := attempted + [b];
        assert Attempted(kind, now, docs) == all;
        assert all[..|all| - 1] == attempted;
        assert Notifications(kind, formats, all)
          == Notifications(kind, formats, attempted) + [Notification(b.numeroCliente.value, Message(kind, b, formats))];
      } else {
        assert Attempted(kind, now, docs) == attempted;
      }
    }
  }

  /**
   * A run flags exactly the attempted bookings whose send succeeded; the
   * successes are the flagged bookings and the failures the rest of the
   * attempts.
   */
  lemma {:induction false} RunFlags(kind: Reminder, now: int, deliver: Notification -> bool, formats: Formats, docs: seq<Booking>)
    ensures var t := Run(kind, now, deliver, formats, docs);
      var attempted := Attempted(kind, now, docs);
      && t.flagged == Delivered(kind, deliver, formats, attempted)
      && t.successful == |t.flagged|
      && t.successful + t.failed == |attempted|
  {
    if docs != [] {
      var prefix := docs[..|docs| - 1];
      var b := docs[|docs| - 1];
      RunFlags(kind, now, deliver, formats, prefix);
      var attempted := Attempted(kind, now, prefix);
      if !Incomplete(b) && Eligible(kind, now, b) {
        var all := attempted + [b];
        assert Attempted(kind, now, docs) == all;
        assert all[..|all| - 1] == attempted;
        var n := Notification(b.numeroCliente.value, Message(kind, b, formats));
        assert Delivered(kind, deliver, formats, all)
          == Delivered(kind, deliver, formats, attempted) + (if deliver(n) then [b.id] else []);
      } else {
        assert Attempted(kind, now, docs) == attempted;
      }
    }
  }

  /** When every send succeeds, as the current placeholder sender does, nothing fails. */
  lemma {:induction false} AlwaysDeliveredNeverFails(kind: Reminder, now: int, formats: Formats, docs: seq<Booking>)
    ensures Run(kind, now, _ => true, formats, docs).failed == 0
  {
    if docs != [] {
      AlwaysDeliveredNeverFails(kind, now, formats, docs[..|docs| - 1]);
    }
  }

  /**
   * `checkAndNotifyTwoDaysBefore` or `checkAndNotifySameDay`: query, then
   * send a reminder per complete, eligible booking. No error leaves it: a
   * failed send is counted and the loop goes on.
   */
  method Notify(kind: Reminder, now: int, window: Window, bookings: seq<Booking>,
                deliver: Notification -> bool, formats: Formats) returns (t: Tally)
    ensures t == Run(kind, now, deliver, formats, Snapshot(kind, window, bookings))
    ensures Snapshot(kind, window, bookings) == [] ==> t == EMPTY_TALLY
  {
    var snapshot := Snapshot(kind, window, bookings);
    if |snapshot| == 0 {
      return EMPTY_TALLY;
    }
    t := EMPTY_TALLY;
    for i := 0 to |snapshot|
      invariant t == Run(kind, now, deliver, formats, snapshot[..i])
    {
      assert snapshot[..i + 1][..i] == snapshot[..i];
      t := NotifyBooking(kind, now, deliver, formats, t, snapshot[i]);
    }
    assert snapshot[..|snapshot|] == snapshot;
  }

  /** The body of the loop: skip, check, send, then count and flag. */
  method NotifyBooking(kind: Reminder, now: int, deliver: Notification -> bool, formats: Formats, t: Tally, b: Booking)
    returns (t': Tally)
    ensures t' == Step(kind, now, deliver, formats, t, b)
  {
    t' := t;
    if Incomplete(b) {
      return;
    }
    if Eligible(kind, now, b) {
      var n := Notification(b.numeroCliente.value, Message(kind, b, formats));
      if deliver(n) {
        t' := Tally(t.successful + 1, t.failed, t.flagged + [b.id], t.attempts + [n]);
      } else {
        t' := Tally(t.successful, t.failed + 1, t.flagged, t.attempts + [n]);
      }
    }
  }

  /** The pushed flag updates, applied: every booking whose id was flagged gets its flag set. */
  function ApplyFlags(kind: Reminder, bookings: seq<Booking>, flagged: seq<string>): (r: seq<Booking>)
    ensures |r| == |bookings|
    ensures forall i :: 0 <= i < |bookings| ==>
      r[i] == (if bookings[i].id in flagged then WithFlag(kind, bookings[i]) else bookings[i])
  {
    seq(|bookings|, i requires 0 <= i < |bookings| =>
      if bookings[i].id in flagged then WithFlag(kind, bookings[i]) else bookings[i])
  }

  /**
   * Once the flag updates of a run are applied, no flagged booking is
   * returned by the query or eligible again: each reminder is sent at most
   * once per booking after a success. Bookings whose send failed keep
   * their flag and are tried again on the next run.
   */
  lemma FlaggedNotNotifiedAgain(kind: Reminder, now: int, window: Window, bookings: seq<Booking>, flagged: seq<string>)
    ensures forall i :: 0 <= i < |bookings| && bookings[i].id in flagged ==>
      var b := ApplyFlags(kind, bookings, flagged)[i];
      !Queried(kind, window, b) && (b.date.Some? ==> !Eligible(kind, now, b))
    ensures forall i :: 0 <= i < |bookings| && bookings[i].id !in flagged ==>
      ApplyFlags(kind, bookings, flagged)[i] == bookings[i]
  {
  }

  /** A booking whose flag field has never been written is never returned by the query. */
  lemma MissingFlagNeverQueried(kind: Reminder, window: Window, b: Booking)
    requires Flag(kind, b).None?
    ensures !Queried(kind, window, b)
  {
  }

  method CheckAndNotifyTwoDaysBefore(now: int, high: int, bookings: seq<Booking>,
                                     deliver: Notification -> bool, formats: Formats) returns (t: Tally)
    ensures t == Run(TwoDays, now, deliver, formats, Snapshot(TwoDays, Window(None, high), bookings))
  {
    t := Notify(TwoDays, now, Window(None, high), bookings, deliver, formats);
  }

  method CheckAndNotifySameDay(now: int, low: int, high: int, bookings: seq<Booking>,
                               deliver: Notification -> bool, formats: Formats) returns (t: Tally)
    ensures t == Run(SameDay, now, deliver, formats, Snapshot(SameDay, Window(Some(low), high), bookings))
  {
    t := Notify(SameDay, now, Window(Some(low), high), bookings, deliver, formats);
  }
}

=== FILE: wrappers.dfy ===
/** Failure-carrying values shared by every module of the model. */
module Wrappers {

  /** A value that may be absent: JavaScript's `undefined`/`null`, or a query that found nothing. */
  datatype Option<+T> = None | Some(value: T) {
    function GetOr(default: T): T {
      match this
      case Some(v) => v
      case None => default
    }
  }

  /** The outcome of an operation that may throw. */
  datatype Result<+T, +E> = Ok(value: T) | Err(error: E)

  /** An `HttpException`: the HTTP status and the message it carries. */
  datatype HttpError = HttpError(status: int, message: string)

  const BAD_REQUEST := 400
  const UNAUTHORIZED := 401
  const FORBIDDEN := 403
  const NOT_FOUND := 404
  const CONFLICT := 409
  const INTERNAL_SERVER_ERROR := 500

  /** The message the services' `catch` blocks fall back on. */
  const DEFAULT_ERROR_MESSAGE := "Error interno del servidor"

  /** JavaScript's `text || fallback` on a string: the fallback replaces an empty text. */
  function TextOr(text: string, fallback: string): (r: string)
    ensures text != "" ==> r == text
    ensures text == "" ==> r == fallback
  {
    if text != "" then text else fallback
  }
}

=== FILE: write_batch.dfy ===
/**
 * Firestore write batches as the maintenance jobs use them: writes are staged
 * in a batch, the batch is committed when its operation counter reaches
 * exactly 500, and whatever remains is committed at the end. A committed
 * batch is recorded as the sequence of its writes; the sequence of committed
 * batches is the commit log.
 */
module WriteBatch {

  /** Firestore's ceiling on the operations of one atomic batch. */
  const MAX_BATCH_OPERATIONS := 500

  /** The writes of a commit log, in the order they were staged. */
  function Flatten<W>(batches: seq<seq<W>>): seq<W> {
    if batches == [] then [] else batches[0] + Flatten(batches[1..])
  }

  lemma {:induction false} FlattenAppend<W>(batches: seq<seq<W>>, last: seq<W>)
    ensures Flatten(batches + [last]) == Flatten(batches) + last
  {
    if batches != [] {
      assert (batches + [last])[1..] == batches[1..] + [last];
      FlattenAppend(batches[1..], last);
    }
  }

  /**
   * The commit log a flushing job produces from the writes it stages: full
   * batches of 500, then one final non-empty remainder, if any.
   */
  function Chunks<W>(writes: seq<W>): (log: seq<seq<W>>)
    ensures Flatten(log) == writes
    ensures forall i :: 0 <= i < |log| ==> 0 < |log[i]| <= MAX_BATCH_OPERATIONS
    ensures forall i :: 0 <= i < |log| - 1 ==> |log[i]| == MAX_BATCH_OPERATIONS
    ensures writes == [] <==> log == []
    decreases |writes|
  {
    if writes == [] then []
    else if |writes| <= MAX_BATCH_OPERATIONS then [writes]
    else
      var rest := Chunks(writes[MAX_BATCH_OPERATIONS..]);
      assert writes == writes[..MAX_BATCH_OPERATIONS] + writes[MAX_BATCH_OPERATIONS..];
      [writes[..MAX_BATCH_OPERATIONS]] + rest
  }

  /**
   * What holds between two staging steps of a flushing job: every committed
   * batch is full, the open batch holds fewer than 500 writes and its counter
   * says how many, and the commit log followed by the open batch is exactly
   * what was staged so far.
   */
  ghost predicate Flushing<W>(commits: seq<seq<W>>, batch: seq<W>, batchOperations: int, staged: seq<W>) {
    && Flatten(commits) + batch == staged
    && batchOperations == |batch| < MAX_BATCH_OPERATIONS
    && forall i :: 0 <= i < |commits| ==> |commits[i]| == MAX_BATCH_OPERATIONS
  }

  /**
   * The `if (batchOperations === 500) { commit; reset; open a new batch }`
   * step that follows every staged write.
   */
  method CommitIfFull<W>(commits: seq<seq<W>>, batch: seq<W>, batchOperations: int)
    returns (commits': seq<seq<W>>, batch': seq<W>, batchOperations': int)
    requires batchOperations == |batch| <= MAX_BATCH_OPERATIONS
    ensures batchOperations' == |batch'| < MAX_BATCH_OPERATIONS
    ensures Flatten(commits') + batch' == Flatten(commits) + batch
    ensures batchOperations == MAX_BATCH_OPERATIONS ==> commits' == commits + [batch] && batch' == []
    ensures batchOperations < MAX_BATCH_OPERATIONS ==> commits' == commits && batch' == batch
  {
    if batchOperations == MAX_BATCH_OPERATIONS {
      FlattenAppend(commits, batch);
      commits', batch', batchOperations' := commits + [batch], [], 0;
    } else {
      commits', batch', batchOperations' := commits, batch, batchOperations;
    }
  }

  /** Chunking a sequence that starts with a full batch peels that batch off. */
  lemma ChunksPeel<W>(head: seq<W>, rest: seq<W>)
    requires |head| == MAX_BATCH_OPERATIONS
    ensures Chunks(head + rest) == [head] + Chunks(rest)
  {
    var all := head + rest;
    if rest != [] {
      assert all[..MAX_BATCH_OPERATIONS] == head && all[MAX_BATCH_OPERATIONS..] == rest;
    } else {
      assert all == head && [head] + Chunks(rest) == [head];
    }
  }

  /**
   * Once the remainder is committed, a log built under the Flushing
   * invariant is exactly the chunking of what was staged.
   */
  lemma {:induction false} FlushedLogIsChunks<W>(commits: seq<seq<W>>, batch: seq<W>)
    requires |batch| < MAX_BATCH_OPERATIONS
    requires forall i :: 0 <= i < |commits| ==> |commits[i]| == MAX_BATCH_OPERATIONS
    ensures Chunks(Flatten(commits) + batch) == commits + (if batch == [] then [] else [batch])
  {
    var last := if batch == [] then [] else [batch];
    if commits == [] {
      assert Flatten(commits) + batch == batch;
    } else {
      var tail := commits[1..];
      FlushedLogIsChunks(tail, batch);
      assert Flatten(commits) + batch == commits[0] + (Flatten(tail) + batch);
      ChunksPeel(commits[0], Flatten(tail) + batch);
      assert commits == [commits[0]] + tail;
      assert [commits[0]] + (tail + last) == commits + last;
    }
  }

  /**
   * The full batches of `writes`: what a flushing job has committed when it
   * stops without committing its open batch.
   */
  function FullChunks<W>(writes: seq<W>): (log: seq<seq<W>>)
    ensures forall i :: 0 <= i < |log| ==> |log[i]| == MAX_BATCH_OPERATIONS
    ensures |writes| - |Flatten(log)| < MAX_BATCH_OPERATIONS
    ensures Flatten(log) <= writes
    decreases |writes|
  {
    if |writes| < MAX_BATCH_OPERATIONS then []
    else
      var rest := FullChunks(writes[MAX_BATCH_OPERATIONS..]);
      var log := [writes[..MAX_BATCH_OPERATIONS]] + rest;
      assert log[1..] == rest;
      assert writes == writes[..MAX_BATCH_OPERATIONS] + writes[MAX_BATCH_OPERATIONS..];
      log
  }

  /** Under the Flushing invariant, the commit log is exactly the full batches of what was staged. */
  lemma {:induction false} FlushingCommitsAreFullChunks<W>(commits: seq<seq<W>>, batch: seq<W>, staged: seq<W>)
    requires Flatten(commits) + batch == staged && |batch| < MAX_BATCH_OPERATIONS
    requires forall i :: 0 <= i < |commits| ==> |commits[i]| == MAX_BATCH_OPERATIONS
    ensures commits == FullChunks(staged)
  {
    if commits != [] {
      var tail := commits[1..];
      var rest := Flatten(tail) + batch;
      FlushingCommitsAreFullChunks(tail, batch, rest);
      assert staged == commits[0] + rest;
      assert staged[..MAX_BATCH_OPERATIONS] == commits[0] && staged[MAX_BATCH_OPERATIONS..] == rest;
      assert commits == [commits[0]] + tail;
    }
  }
}
